=== FILE: README.md ===
# ogify in Dafny

A model of the ogify service. ogify has two HTTP routes behind API keys:

- a metadata extractor. It fetches a page and reports its Open Graph, Twitter-card and plain meta tags, through a two-tier cache.
- an image generator. It renders one of five templates from query parameters.

Around these routes the model covers:

- the API-key middleware, the per-key rate limiter and the shared error handler;
- the account routes: signup, login and key management;
- the usage log and the dashboard that reads it;
- two front-end pieces: the meta-tag generator page and the session store.

Every database, Redis, clock, network and library dependency is an explicit input. This covers:

- the key, user, usage and cache tables, which are Dafny maps and sequences;
- the health of Redis and the database (`Cache.Env`, `RateLimit.Redis`);
- the clock (`now` parameters) and the random key text (`Accounts.Fresh`);
- foreign functions, passed as function-typed parameters:
  - `new URL` and zod's `.url()`/`.email()` checks (`isUrl`, `isEmail`, `Resolver`, `Hostname`);
  - `Number()` (`GenerateApi.Num`);
  - bcrypt and JWT (`Accounts.Crypto`, `BearerGate.Verifier`);
  - the fetched page (`Extractor.Fetched`, a page of meta and link elements);
  - the outcome of rendering (`GenerateApi.RenderFailure`).

JavaScript semantics that matter are written out:

- `||` on strings (`Js.Or`, `Js.OrElse`, `Js.Blank`);
- `z.coerce.boolean` (`Js.BooleanOf`);
- `String.prototype.trim`;
- ToInt32 wrap-around in the URL hash;
- `Number.prototype.toString(36)`;
- `Math.ceil` and `Math.round` on millisecond and latency arithmetic.

Files, one module each:

| file | module | what it covers |
|---|---|---|
| `wrappers.dfy` | Wrappers | `Option` and `Result` |
| `js.dfy` | Js | the JavaScript string and number built-ins the code relies on |
| `app_context.dfy` | AppContext | the API-key context on a request, validation issues, thrown errors |
| `url_hash.dfy` | UrlHash | `hashUrl` (UTF-8, 32-bit fold, base 36) |
| `rate_limit.dfy` | RateLimit | the rate limiter (Redis path, in-memory path, sweep) |
| `extractor.dfy` | Extractor | `extractMetadata` and `parseHtml` |
| `cache.dfy` | Cache | the two-tier metadata cache |
| `usage.dfy` | Usage | `logUsage`, `getUsageStats`, `getDailyUsage` |
| `bearer.dfy` | BearerGate | the `Authorization: Bearer` check shared by accounts and dashboard |
| `request_log.dfy` | RequestLog | the per-request `logUsage` call the two API routes make |
| `extract_api.dfy` | ExtractApi | `GET /extract` and `POST /extract/batch` |
| `templates.dfy` | Templates | the five templates and the registry |
| `generate_api.dfy` | GenerateApi | `GET /og` and `GET /og/templates` |
| `api_key_auth.dfy` | ApiKeyAuth | the API-key middleware |
| `error_handler.dfy` | ErrorHandler | the application error handler |
| `accounts.dfy` | Accounts | signup, login and the key routes |
| `dashboard.dfy` | Dashboard | the dashboard routes |
| `generator_page.dfy` | GeneratorPage | the meta-tag generator page |
| `auth_store.dfy` | AuthStore | the front-end session store |

## Model

| member | source | states |
|---|---|---|
| Js.Includes | src/services/extractor.ts:60 | `includes` holds exactly when the needle occurs at some position of the string |
| Js.Trim | src/services/extractor.ts:79 | the result is the input without leading and trailing white space: a window of it that starts and ends on non-space characters, or empty when it is all space |
| Js.RemoveFirst | frontend/src/pages/Generator.tsx:217 | `replace('@', '')` removes the first occurrence only; a string without the character is unchanged |
| Js.SliceLast | src/api/auth.ts:172 | `slice(-8)` yields the last min(length, 8) characters and they are a suffix of the key |
| Js.Repeat | src/api/auth.ts:172 | `'*'.repeat(24)` has length 24 and holds only the repeated character |
| Js.ToRadix | src/services/cache.ts:38 | `toString(36)` writes a number as lower-case base-36 digits with no leading zero |
| Js.RadixRoundTrip | src/services/cache.ts:38 | reading the base-36 digits back gives the number again, so distinct hashes give distinct keys |
| Js.RadixInjective | src/services/cache.ts:38 | two numbers with the same base-36 text are equal |
| UrlHash.EncodeCharRoundTrip | src/services/cache.ts:30-31 | each character's UTF-8 encoding is well formed and decodes back to the character |
| UrlHash.Utf8Ascii | src/services/cache.ts:30-31 | an ASCII URL encodes to its own character codes, one byte each |
| UrlHash.ToInt32Periodic | src/services/cache.ts:35-36 | `hash & hash` after the shift sees its operand only modulo 2^32 |
| UrlHash.ToInt32 | src/services/cache.ts:36 | `hash & hash` lands in the signed 32-bit range and differs from its operand by a multiple of 2^32 |
| UrlHash.Fold | src/services/cache.ts:32-37 | the running hash stays a signed 32-bit value after every byte |
| UrlHash.FoldIsWrappedPoly | src/services/cache.ts:32-37 | folding with a 32-bit wrap at every step equals wrapping the polynomial sum of bytes times powers of 31 once |
| UrlHash.HashBytes | src/services/cache.ts:32-37 | the loop computes the fold, with its invariant tying each prefix to the polynomial |
| UrlHash.HashUrl | src/services/cache.ts:28-39 | the key is the canonical base-36 rendering (lower-case digits, no leading zero) of the magnitude of the folded UTF-8 bytes: one to six digits that read back to that magnitude, never empty and never signed |
| UrlHash.KnownCollision | src/services/cache.ts:28-39 | "Aa" and "BB" hash alike, so the hash is not injective |
| RateLimit.Identify | src/middleware/rateLimit.ts:41-56 | without a key the counter is `ip:` plus the first non-empty address or `unknown`, with 10 a minute; with a key it is `key:` plus its id, with its own limit, or 60 when that is 0 |
| RateLimit.SharedCounterMeansSameIdentity | src/middleware/rateLimit.ts:45-64 | two requests share a counter exactly when both are anonymous from one address or both use the same key id |
| RateLimit.CeilSeconds | src/middleware/rateLimit.ts:98 | the value is the least whole number of seconds covering the milliseconds |
| RateLimit.Decide | src/middleware/rateLimit.ts:96-106 | the headers report the limit, the non-negative remainder and the reset second; a request proceeds exactly when its count is at most the limit, otherwise it gets a 429 whose `retryAfter` covers the rest of the window |
| RateLimit.CountRequest | src/middleware/rateLimit.ts:117-125 | a missing window, or one that ended strictly before now, restarts at 1 and ends one window from now; otherwise the count rises by one; other keys are untouched |
| RateLimit.InMemoryRateLimit | src/middleware/rateLimit.ts:111-140 | the fallback counts the request, then decides on the new count; `retryAfter` is never negative |
| RateLimit.ReplayInsideWindow | src/middleware/rateLimit.ts:117-125 | successive requests inside one window count 1, 2, 3 and so on, all against the same end |
| RateLimit.FreshWindowCounts | src/middleware/rateLimit.ts:117-125 | from a fresh window, the i-th request within it is counted i |
| RateLimit.FreshWindowAdmitsExactlyMax | src/middleware/rateLimit.ts:131-137 | in one window exactly `max` requests proceed and the next is refused |
| RateLimit.WindowResetsAfterItsEnd | src/middleware/rateLimit.ts:120-122 | a request after its window's end starts over at 1 and proceeds |
| RateLimit.Sweep | src/middleware/rateLimit.ts:22-29 | the cleanup keeps exactly the windows that have not ended before now, unchanged |
| RateLimit.SweepIsUnobservable | src/middleware/rateLimit.ts:22-29 | a later request lands in the same window whether or not the sweep ran |
| RateLimit.CheckRateLimit | src/middleware/rateLimit.ts:64-93 | the limit header is the configured maximum and the remaining count never negative; when Redis answers with a time left, or its `pexpire` succeeds, the local store is untouched and the answer is decided on the `INCR` count (1 when it reads 0 or nothing) with the reset at now plus the time left, or at now plus the window when the key had no expiry, so the request proceeds exactly when that count is within the maximum; with no Redis, a Redis error, or a failed `pexpire` the answer is the local store's |
| RateLimit.RateLimiter | src/middleware/rateLimit.ts:41-56 | the middleware checks the identity's counter and reports its limit and a non-negative remainder |
| RateLimit.AnonymousEleventhRequestRefused | src/middleware/rateLimit.ts:43-46 | an anonymous address gets ten requests in a minute and the eleventh is refused |
| RateLimit.IncrThenPttl | src/middleware/rateLimit.ts:73-79 | `INCR` then `PTTL` touch only the one key; on a key whose expiry has not passed they raise its value by one and report the time left, which is 0 at the expiry instant; on an expired or missing key they start at 1 with no expiry and report -1 |
| RateLimit.RedisAgreesWithFallback | src/middleware/rateLimit.ts:71-93 | when the Redis counter mirrors the local window, at any instant other than the window's end, `checkRateLimit` on the Redis replies and `checkRateLimit` without Redis give the same count, headers and verdict, and still mirror each other afterwards |
| RateLimit.WindowEndRearmsOnlyRedis | src/middleware/rateLimit.ts:79-86 | at the instant a window ends both paths count on; Redis reports 0 ms left, which the fallback to -1 turns into -1, so the key is re-armed to a whole window from now, while the fallback window keeps its end; the verdicts still agree |
| Extractor.FirstMatch | src/services/extractor.ts:78 | `$(selector)` picks the first element the selector matches, and none when no element does |
| Extractor.FirstYield | src/services/extractor.ts:76-82 | the selector used is the first whose content is a non-empty string |
| Extractor.GetMeta | src/services/extractor.ts:76-82 | `getMeta` answers exactly when some selector yields content, and then the trimmed content of the first such selector |
| Extractor.CollectRawLastWins | src/services/extractor.ts:85-92 | a name is in `rawMeta` exactly when some tag with a name and content writes it, and it holds the content of the last such tag |
| Extractor.ResolveUrl | src/services/extractor.ts:144-152 | an empty reference resolves to nothing, an `http` reference is kept, and any other reference is exactly what resolving it against the page URL gives |
| Extractor.Favicon | src/services/extractor.ts:119-129 | the first non-empty icon link is used, resolved against the page unless it starts with `http` |
| Extractor.ParseHtml | src/services/extractor.ts:71-175 | the url is a non-blank `og:url` when there is one and the fetched URL otherwise; the image is the resolved `og:image` (or `og:image:url`) when that is non-blank and otherwise the resolved Twitter image, the same value as `twitterImage`, which is always the resolved Twitter image; title, description and favicon are their fallback chains; site name, type and locale are the Open Graph tags, the Twitter card, site, creator, title and description, theme colour, author and keywords the named tags; `rawMeta` is always the collected map and canonical is the link's href |
| Extractor.TitleAndDescriptionTrimmed | src/services/extractor.ts:112-116 | title and description never carry white space at either end |
| Extractor.OpenGraphTitleWins | src/services/extractor.ts:95-112 | the first `og:title` tag, when its content is not blank, decides the title whatever else the page holds |
| Extractor.TitleElementIsFallback | src/services/extractor.ts:112 | with no `og:title` or `twitter:title` tag, a non-blank `<title>` gives the title, trimmed |
| Extractor.TwitterTitleIsSecond | src/services/extractor.ts:107-112 | with no `og:title` tag, the first `twitter:title` tag with non-blank content gives the title |
| Extractor.NamedTitleIsLast | src/services/extractor.ts:112 | only with no OpenGraph or Twitter title tag and a blank `<title>` does the first non-blank `meta[name="title"]` give the title |
| Extractor.OpenGraphDescriptionWins | src/services/extractor.ts:96-116 | the first `og:description` tag, when its content is not blank, decides the description |
| Extractor.TwitterDescriptionIsSecond | src/services/extractor.ts:108-116 | with no `og:description` tag, the first non-blank `twitter:description` gives the description |
| Extractor.NamedDescriptionIsThird | src/services/extractor.ts:113-116 | with neither of those tags, the first non-blank `meta[name="description"]` gives the description |
| Extractor.ItempropDescriptionIsLast | src/services/extractor.ts:113-116 | with none of those three tags, the first non-blank `meta[itemprop="description"]` gives the description |
| Extractor.TagYields | src/services/extractor.ts:76-82 | a single-selector `getMeta` yields the trimmed content of the first matching tag |
| Extractor.NoTagYieldsNothing | src/services/extractor.ts:76-82 | a single-selector `getMeta` that matches no tag yields nothing |
| Extractor.UrlDefaultsToFetchedUrl | src/services/extractor.ts:95-101 | without `og:url` the reported url is the fetched one |
| Extractor.ExtractMetadata | src/services/extractor.ts:38-69 | a network error is passed on; a non-OK status throws `HTTP <status>: <text>`; a body that is not HTML throws "URL does not return HTML content"; an OK HTML answer, and only that, succeeds with the page parsed against the requested URL |
| Cache.TtlSeconds | src/services/cache.ts:25 | the lifetime in seconds is the configured hours times 3600, positive exactly when the hours are |
| Cache.Columns | src/services/cache.ts:110-129 | a created row holds all fifteen string columns of the metadata unchanged (title, description, image, siteName, pageType, locale, the six Twitter fields, favicon, themeColor, canonical), `rawMeta` or `{}`, and no url, author or keywords |
| Cache.Merge | src/services/cache.ts:131-150 | in each of the fifteen string columns an update overwrites the value when it supplies one and otherwise keeps the previous value; url, author and keywords stay as they were and `rawMeta` is always replaced |
| Cache.FromRow | src/services/cache.ts:63-80 | reading a row gives each of the fifteen string columns as stored when it is a non-empty string and absent otherwise, `rawMeta` as stored, and no url, author or keywords |
| Cache.Get | src/services/cache.ts:41-87 | a fast-tier entry whose expiry has not passed (it is still served at its expiry instant) is served as written; otherwise a durable row expiring strictly after now; otherwise a miss, and only then |
| Cache.Set | src/services/cache.ts:89-155 | a healthy fast tier with a positive lifetime stores the value; a reachable database creates the row or merges into it and sets the new expiry; an unreachable tier is left alone |
| Cache.Invalidate | src/services/cache.ts:157-173 | each reachable tier loses the URL's entry; every other entry stays, with its value unchanged |
| Cache.CleanExpired | src/services/cache.ts:175-180 | the cleanup deletes exactly the rows that expired strictly before now and returns how many it deleted |
| Cache.FastRoundTrip | src/services/cache.ts:94-104 | a value written to a healthy fast tier is read back exactly up to and including its expiry instant |
| Cache.DurableRoundTrip | src/services/cache.ts:57-81 | a value written only to the database reads back with its columns, `rawMeta` or `{}` and no url |
| Cache.StaleColumnSurvivesRefresh | src/services/cache.ts:131-150 | refreshing with metadata that lacks a title keeps the old title |
| Cache.ExpiredIsMissed | src/services/cache.ts:41-104 | once its expiry instant has passed, an entry is served by neither tier |
| Cache.InvalidateThenMiss | src/services/cache.ts:157-173 | after an invalidation with both tiers healthy the URL is a miss |
| Cache.SetIsLocal | src/services/cache.ts:89-155 | writing one URL leaves every URL with a different hash as it was |
| Cache.CollidingUrlsShareAnEntry | src/services/cache.ts:28-47 | after caching "Aa", a lookup of "BB" is served the same metadata |
| Cache.BoundaryRowOutlivesCleanup | src/services/cache.ts:62 | with the fast tier down, a durable row expiring exactly now is a miss (that the cleanup keeps such a row is `Cache.CleanExpired`'s contract) |
| Usage.LogUsage | src/services/usage.ts:17-42 | a successful insert appends the row; the key's `lastUsedAt` becomes now when both writes succeed, and otherwise the whole `lastUsedAt` map is unchanged; a failure never throws and never touches other keys |
| Usage.LoggedRowIsSelected | src/services/usage.ts:17-68 | every later filtered query sees what it saw before, followed by the logged row exactly when the insert succeeded and the row passes the filter |
| Usage.Select | src/services/usage.ts:44-68 | a filtered query keeps exactly the rows that match, each as many times as the ledger holds it, and drops every other row |
| Usage.SelectAppend | src/services/usage.ts:44-68 | filtering keeps ledger order: filtering two stretches of rows one after the other gives the filtered first stretch followed by the filtered second |
| Usage.SelectSize | src/services/usage.ts:55-68 | a `count` with a filter is the number of rows that satisfy it, counted one by one |
| Usage.TallyMonotone | src/services/usage.ts:55-68 | a stricter filter never counts more rows |
| Usage.BucketIsCount | src/services/usage.ts:96-105 | each day's extract and generate counts are the numbers of that day's rows for the endpoint |
| Usage.BucketTotalsSumToRows | src/api/dashboard.ts:113-123 | every row lands in exactly one day, so the daily totals add up to the number of rows |
| Usage.DailyFilter | src/services/usage.ts:86-94 | the rows read are the user's from the start on, and the key's when a non-empty key id is given |
| Usage.GetDailyUsage | src/services/usage.ts:82-112 | one entry per date that has rows read, each date once; each entry's counts are that date's extract and generate rows, and its total their sum |
| Usage.DailyUsageCounts | src/services/usage.ts:82-112 | one entry per day that has rows, dates distinct; each entry counts that day's extract and generate rows, and its total is their sum and never more than the day's rows |
| Usage.GetUsageStats | src/services/usage.ts:44-80 | the total is the number of the user's rows created within the period, both ends included, and the successful count the number of those with status below 400, two independent counts; successful never exceeds total; the rate is "0" exactly when there were no requests and otherwise successful over total; `byEndpoint` groups the period's rows |
| Usage.ByEndpoint | src/services/usage.ts:45-53 | one group per endpoint that has rows, none twice, every row's endpoint present, each group non-empty with its count and rounded mean latency |
| Usage.EndpointsOf | src/services/usage.ts:45-53 | the endpoints of the rows, each exactly once, and only those |
| Usage.StatsOf | src/services/usage.ts:74-78 | a group's count is the number of rows on its endpoint, and its average latency is within half a millisecond of the group's mean, 0 for an empty group |
| Usage.ByEndpointCountsSumToTotal | src/services/usage.ts:44-80 | the per-endpoint counts add up to the total: every row of the period is in exactly one group |
| Usage.GroupsCountEveryRow | src/services/usage.ts:45-53 | groups over distinct endpoints covering every row count every row exactly once |
| Usage.RoundedMean | src/services/usage.ts:77 | `Math.round` of a mean is within half a unit of it, with halves rounded up |
| BearerGate.Authenticate | src/api/auth.ts:108-116 | a missing header or one not starting with `Bearer ` is Unauthorized; otherwise the rest of the header is verified and a failure is Invalid token |
| BearerGate.TokenIsRestOfHeader | src/api/auth.ts:113 | a `Bearer <token>` header is decided by the token alone |
| BearerGate.PrefixIsExact | src/api/auth.ts:109 | a header is refused before any token check exactly when it does not begin with `Bearer ` as written (so `bearer x` and `Bearerx` are refused) |
| RequestLog.Address | src/api/extract.ts:70 | the logged address is the forwarded one unless absent or empty, then the real IP |
| RequestLog.Record | src/api/extract.ts:58-72 | a request without a key context is not logged; with one, exactly one row with the route's fields is appended when the insert succeeds |
| ExtractApi.ParseQuery | src/api/extract.ts:12-31 | the query parses exactly when the url is present and a URL; `cache` is on unless it is the empty string, and "false" still switches it on |
| ExtractApi.FlagsAreTruthyStrings | src/api/extract.ts:14-15 | `cache=false` and `fullResponse=false` both read as true |
| ExtractApi.Shape | src/api/extract.ts:75-110 | Twitter fields fall back to the Open Graph ones when empty; `raw` is present exactly when asked for and available |
| ExtractApi.TwitterValueWins | src/api/extract.ts:95-97 | a non-empty Twitter title is reported as is |
| ExtractApi.LoggedStatus | src/api/extract.ts:134 | a failure is logged with the error's status unless it is 0 or absent, and then 500 |
| ExtractApi.Catch | src/api/extract.ts:113-146 | a validation failure is a 400 and not logged; anything else is logged with the key and answered 500 with the message or the default |
| ExtractApi.HandleExtract | src/api/extract.ts:22-147 | a served cache hit is reported as cached with no fetch; a miss fetches and, when the cache is on, writes back; success is logged with status 200 |
| ExtractApi.CachedMeansCacheHit | src/api/extract.ts:38-44 | `cached: true` only when the cache was on and the lookup hit |
| ExtractApi.WriteOnlyOnMiss | src/api/extract.ts:47-54 | the cache is written only after a miss with the cache on |
| ExtractApi.FailureIsAlways500 | src/api/extract.ts:142-145 | a non-validation failure is answered 500 whatever status was logged |
| ExtractApi.SuccessIsLogged | src/api/extract.ts:58-72 | a success with a key appends one row with status 200 and the cache flag |
| ExtractApi.ValidateUrls | src/api/extract.ts:155 | the batch body needs an array of at most 10 URLs; every non-URL entry is reported with its index |
| ExtractApi.UrlIssues | src/api/extract.ts:155 | one issue per entry that is not a URL, at that entry's index |
| ExtractApi.Settle | src/api/extract.ts:158-165 | a cache hit is served without fetching; a miss fetches and writes back unconditionally; a failure becomes a rejected item with the error message |
| ExtractApi.SettleFits | src/api/extract.ts:158-173 | each settled item is the outcome `Settle` describes |
| ExtractApi.SettleAll | src/api/extract.ts:157-173 | one item per URL, in order, each the outcome of its own URL |
| ExtractApi.HandleBatch | src/api/extract.ts:150-195 | an unreadable or `null` body answers 500 with its message; a `urls` that is not an array of strings answers 400 with the validator's issues; a missing `urls`, more than ten or a non-URL answers 400; otherwise one item per URL |
| ExtractApi.BatchSizeBound | src/api/extract.ts:155-179 | a batch answer never holds more than 10 items |
| Templates.Lines | src/templates/index.ts:66-81 | the text block is the heading and, exactly when the description is non-empty, a paragraph holding it |
| Templates.DefaultTemplate | src/templates/index.ts:25-88 | the default template shows the title as its only heading, and a paragraph exactly for a non-empty description |
| Templates.MinimalTemplate | src/templates/index.ts:90-134 | the minimal template shows the title as its only heading, and a paragraph exactly for a non-empty description |
| Templates.CardTemplate | src/templates/index.ts:136-202 | the card template shows the title as its only heading, and a paragraph exactly for a non-empty description |
| Templates.SplitTemplate | src/templates/index.ts:204-269 | the split template shows the title as its only heading, and a paragraph exactly for a non-empty description |
| Templates.BorderTemplate | src/templates/index.ts:271-333 | the border template shows the title as its only heading, and a paragraph exactly for a non-empty description |
| Templates.Render | src/templates/index.ts:335-361 | whichever registry entry renders, it shows the title as its only heading, and a paragraph exactly for a non-empty description |
| Templates.Find | src/templates/index.ts:363-365 | the registry entry found is the first whose key is the name |
| Templates.GetTemplate | src/templates/index.ts:363-365 | a registered name selects its template and anything else the default |
| Templates.RegistryKeysDistinct | src/templates/index.ts:335-361 | the five registry keys are distinct |
| Templates.RegistryIsFaithful | src/templates/index.ts:335-365 | each registered key selects its own template; every other name selects the default |
| Templates.ShownTexts | src/templates/index.ts:25-333 | every template's texts are the title in an `h1` and the description, when non-empty, in a `p` |
| Templates.TitleAndDescriptionShown | src/templates/index.ts:25-333 | every template shows the title, and the description exactly when it is non-empty |
| Templates.OmittedThemeIsDark | src/templates/index.ts:25 | an omitted theme renders like the dark theme |
| Templates.OverridesOnlyReachMinimal | src/templates/index.ts:90-333 | background and text-colour overrides change only the minimal template |
| Templates.MinimalHonoursOverrides | src/templates/index.ts:90-133 | the minimal template uses the given background and text colour |
| Templates.DefaultBackdrop | src/templates/index.ts:38-40 | the default template's backdrop is the dark gradient unless the theme is light |
| GenerateApi.LimitedString | src/api/generate.ts:14-15 | a string field passes exactly when present (if required) and within its maximum |
| GenerateApi.Bounded | src/api/generate.ts:18-25 | a numeric field is its default when absent; otherwise it passes exactly when it is a number within its bounds |
| GenerateApi.ThemeOf | src/api/generate.ts:17 | the theme is dark when absent, otherwise exactly "light" or "dark" |
| GenerateApi.FormatOf | src/api/generate.ts:29 | the format is PNG when absent, otherwise exactly "png" or "svg" |
| GenerateApi.LogoOf | src/api/generate.ts:22 | a logo, when present, must be a URL |
| GenerateApi.ParseGenerate | src/api/generate.ts:13-30 | the query parses exactly when every field passes, with the defaults filled in |
| GenerateApi.DimensionsInBounds | src/api/generate.ts:18-19 | parsed width and height lie within 200..2400 and 200..1260 |
| GenerateApi.TitleLimit | src/api/generate.ts:14 | a parsed title has at most 200 characters |
| GenerateApi.Defaults | src/api/generate.ts:16-29 | a query with only a title gets template "default", dark theme, 1200x630 and PNG |
| GenerateApi.PropsOf | src/api/generate.ts:86-94 | the template receives the parsed title, description, theme and overrides |
| GenerateApi.CatchGenerate | src/api/generate.ts:142-155 | a validation failure is a 400 with its issues; anything else is a 500 with the message or the default |
| GenerateApi.Respond | src/api/generate.ts:85-141 | the image is the selected template's tree in the requested format and size, sent as `image/svg+xml` or `image/png` with a one-year immutable cache policy; an SVG failure is not logged; every later outcome is logged; a PNG failure fails only PNG requests |
| GenerateApi.HandleGenerate | src/api/generate.ts:62-157 | a query that does not parse is a 400 and not logged; otherwise the parsed parameters are answered |
| GenerateApi.UnknownTemplateIsDefault | src/api/generate.ts:85 | an unknown template name renders the default template |
| GenerateApi.PngFailureIsLogged | src/api/generate.ts:108-141 | a PNG conversion failure is answered 500 after the request was logged |
| GenerateApi.Listing | src/api/generate.ts:160-170 | one entry per registered template with its key, name, description and preview URL |
| GenerateApi.ListingIsUsable | src/api/generate.ts:160-170 | each listed preview names a template that the image route selects |
| ApiKeyAuth.PresentedKey | src/middleware/auth.ts:9 | the header key wins unless absent or empty, then the query key; an empty key counts as none |
| ApiKeyAuth.ContextOf | src/middleware/auth.ts:63-72 | the context carries the stored key's fields unchanged |
| ApiKeyAuth.Authenticate | src/middleware/auth.ts:7-75 | a refusal is the first failing check in the order missing, unknown, inactive, expired, extract permission, generate permission; admission happens exactly when no check fails, with the stored key's context |
| ApiKeyAuth.ExpiryIsStrict | src/middleware/auth.ts:39-44 | up to and including its expiry instant, a key is answered exactly as if it had no expiry |
| ApiKeyAuth.NoKeyNoLookup | src/middleware/auth.ts:8-17 | the 401 with the hint is the answer exactly when neither the header nor the query carries a non-empty key, whatever the table holds |
| ApiKeyAuth.EmptyHeaderFallsBack | src/middleware/auth.ts:9 | an empty header falls back to the query parameter |
| ApiKeyAuth.BothPermissionsNeeded | src/middleware/auth.ts:47-60 | a path containing both `/extract` and `/og` needs both permissions, and the extract check answers first |
| ErrorHandler.Classify | src/middleware/error.ts:4-41 | validation failures, then `AbortError`, then messages containing "fetch failed", then anything else |
| ErrorHandler.Details | src/middleware/error.ts:12 | each issue becomes its dotted path and message, in order |
| ErrorHandler.HandleError | src/middleware/error.ts:4-41 | 400 with details, 504, 502 with a hint, or 500 whose message is hidden in production |
| ErrorHandler.StatusDeterminesClass | src/middleware/error.ts:4-41 | the four classes never share a status |
| ErrorHandler.TimeoutBeatsFetchFailure | src/middleware/error.ts:19-32 | an `AbortError` whose message says "fetch failed" is still a timeout |
| ErrorHandler.FetchFailedAnywhere | src/middleware/error.ts:26 | "fetch failed" anywhere in the message gives a 502 |
| Accounts.NewKeyText | src/api/auth.ts:42 | a new key is `og_` followed by the random text, 35 characters for 32 random ones |
| Accounts.NewKey | src/api/auth.ts:40-46 | a new key is active, never used, and gets the table's default limits |
| Accounts.SignupIssues | src/api/auth.ts:12-16 | signup validation passes exactly with a valid email and a password of at least 8 characters |
| Accounts.Signup | src/api/auth.ts:18-65 | a session opens exactly when the body is readable, passes the schema and names an unregistered email; it creates the user with the hashed password and one key named "Default" and answers that key; a taken email (400), a validation failure, including a body of the wrong JSON shape (400), or an unreadable body (500) each happen exactly in their own case and create nothing |
| Accounts.FirstActive | src/api/auth.ts:80 | the key chosen is the user's first active key, and none when the user has none |
| Accounts.LoginIssues | src/api/auth.ts:68-71 | login validation passes exactly with a valid email and a password string |
| Accounts.Login | src/api/auth.ts:73-103 | a session opens exactly when the body passes the schema, the email is registered and the password verifies against its hash, and then holds the user's first active key, if any; an unknown email and a wrong password get the same 401; schema failures, including a body of the wrong JSON shape, are 400 and an unreadable body 500, each exactly in its own case |
| Accounts.SignupThenLogin | src/api/auth.ts:18-103 | for a valid, unregistered email and a password of at least 8 characters, signup opens a session, and logging in afterwards with the same credentials opens one for the same user holding the signup's key |
| Accounts.CreateKey | src/api/auth.ts:106-141 | only a valid token and a body `name` of 1 to 100 characters create a key, an active one for the token's user with that name; a bad or mistyped name is a 500 |
| Accounts.Mask | src/api/auth.ts:169-173 | a masked key is `og_`, 24 asterisks and the key's last 8 characters |
| Accounts.MaskShowsOnlyTheTail | src/api/auth.ts:169-173 | keys with the same last 8 characters mask alike |
| Accounts.SignupKeyMask | src/api/auth.ts:42-172 | a signup key masks to 35 characters ending with the last 8 random ones |
| Accounts.KeysOf | src/api/auth.ts:155-167 | the listed keys are exactly the user's |
| Accounts.Listed | src/api/auth.ts:158-172 | a listed key carries every selected column as stored (id, name, active, limits, last use, creation) except the key, which is masked |
| Accounts.KeysOfAppend | src/api/auth.ts:155-167 | selecting a user's keys keeps their order: it distributes over concatenation |
| Accounts.ListKeys | src/api/auth.ts:143-179 | a bad token is refused; the token's user sees each of their keys, in order, each as `Listed` gives it |
| Accounts.CreatedKeyIsListedLast | src/api/auth.ts:106-172 | after a key is created, the same token lists every key listed before and then the new one, masked, with the given name and active |
| Accounts.Without | src/api/auth.ts:195-197 | deleting keeps exactly the keys that do not match both the id and the user |
| Accounts.DeleteKey | src/api/auth.ts:181-203 | a valid token deletes only that user's key with the id, and answers success even when nothing matched |
| Accounts.DeleteForeignKeyIsNoOp | src/api/auth.ts:195-199 | deleting another user's key, or one that does not exist, changes nothing |
| Dashboard.Gate | src/api/dashboard.ts:11-24 | the dashboard admits exactly a valid bearer token and takes the user id from it |
| Dashboard.SumTotalsIsSumAll | src/api/dashboard.ts:113-123 | the history's daily totals add up day by day to the bucket counts |
| Dashboard.HistoryAccountsForEveryRow | src/api/dashboard.ts:99-132 | one entry per day with rows, dates distinct, each total the day's row count, and the totals add up to all rows since the start |
| Dashboard.History | src/api/dashboard.ts:99-132 | one entry per date with rows since the start, each date once; each entry's total is the date's row count and its extract and generate counts the date's rows of each endpoint |
| Dashboard.DaysCount | src/api/dashboard.ts:111-125 | the daily entries built from the buckets count each date's rows, per endpoint and in all, and list exactly the dates with rows |
| Dashboard.HistoryDaysWithinTotals | src/api/dashboard.ts:113-123 | no day of the history counts more extract and generate rows than it has rows |
| Dashboard.Paginate | src/api/dashboard.ts:137-166 | the page size is capped at 100, and `hasMore` holds exactly when rows remain past the page |
| Dashboard.Requests | src/api/dashboard.ts:135-166 | a page is served exactly when `limit` and `offset`, defaulting to "50" and "0", read as non-negative numbers; it holds the user's rows newest first from the offset, at most the capped limit of them, and `total` is the number of the user's rows |
| Dashboard.NewestFirst | src/api/dashboard.ts:141-143 | ordering by creation time descending lists the rows in reverse ledger order |
| Dashboard.Take | src/api/dashboard.ts:144-145 | `skip` then `take` gives the rows from the offset on, at most `take` of them, none past the end |
| Dashboard.HasMoreMeansNextPage | src/api/dashboard.ts:161-166 | with a positive limit, `hasMore` holds exactly when the next page is not empty |
| Dashboard.DefaultPage | src/api/dashboard.ts:135-166 | with `limit` and `offset` missing or empty, the page is the user's newest 50 rows (all of them when fewer), from offset 0, and more exist exactly when the user has over 50 |
| Dashboard.BreakdownCounts | src/api/dashboard.ts:57-61 | an endpoint is grouped exactly when it has rows, so its breakdown is its row count, 0 when it has none |
| Dashboard.HitRateOf | src/api/dashboard.ts:70-75 | the hit rate is "0" exactly when there were no extract lookups; otherwise it is hits over lookups |
| Dashboard.CacheGroupsSplitExtracts | src/api/dashboard.ts:64-72 | cache hits and misses split the month's extract rows between them |
| Dashboard.LaterStartCountsFewer | src/api/dashboard.ts:36-54 | a later period start never counts more rows |
| Dashboard.GetStats | src/api/dashboard.ts:27-96 | today, week, month and total are the numbers of the user's rows passing each period's filter (counted one by one by `Usage.Tally`) and ordered as their starts are; the average latency is the rounded mean of today's rows, 0 without rows; breakdown and hit rate count the month's rows, and the hit rate is that of the month's cached and uncached extract rows |
| Dashboard.MeanLatency | src/api/dashboard.ts:87 | `Math.round` of the mean latency: within half a millisecond of the exact mean, and 0 for no rows |
| Dashboard.MeanLatencyWithin | src/api/dashboard.ts:87 | when every latency lies in a range, so does the rounded mean |
| GeneratorPage.Domain | frontend/src/pages/Generator.tsx:20-25 | the domain is the URL's host when there is a URL that parses, otherwise `example.com` |
| GeneratorPage.Site | frontend/src/pages/Generator.tsx:46 | the `twitter:site` content is one `@` followed by the handle minus its first `@` |
| GeneratorPage.Code | frontend/src/pages/Generator.tsx:27-48 | the block starts with the HTML comment line and ends with the generated-by comment |
| GeneratorPage.ContentFromIsFirst | frontend/src/pages/Generator.tsx:27-48 | the content reported for a tag is that of the first line carrying the tag from the given position, and none when no line carries it |
| GeneratorPage.ContentOfIsFirst | frontend/src/pages/Generator.tsx:27-48 | reading a tag from the block gives the content of its first occurrence, and none when it is absent |
| GeneratorPage.HtmlGroupContent | frontend/src/pages/Generator.tsx:27-29 | the plain group carries only the description tag |
| GeneratorPage.OpenGraphGroupContent | frontend/src/pages/Generator.tsx:31-37 | the Open Graph group carries each `og:` tag, the site name only when given |
| GeneratorPage.TwitterGroupContent | frontend/src/pages/Generator.tsx:39-46 | the Twitter group carries each `twitter:` tag, the site only when a handle is given |
| GeneratorPage.ContentIsExpected | frontend/src/pages/Generator.tsx:19-49 | every tag of the block reads as the field-by-field reference says: the value or its placeholder, the fixed type and card, the domain, and the optional site name and handle |
| GeneratorPage.OpenGraphAndTwitterAgree | frontend/src/pages/Generator.tsx:32-45 | each Open Graph tag and its Twitter counterpart are present and say the same thing |
| GeneratorPage.DescriptionsAgree | frontend/src/pages/Generator.tsx:29-35 | the plain and Open Graph descriptions agree |
| GeneratorPage.EmptyFormShowsPlaceholders | frontend/src/pages/Generator.tsx:27-48 | an empty form shows every tag but the two optional ones, with the placeholders |
| GeneratorPage.AtSignIsOptional | frontend/src/pages/Generator.tsx:46 | a handle with or without its leading `@` gives the same block |
| GeneratorPage.HandleInput | frontend/src/pages/Generator.tsx:217 | the input drops exactly one `@` when there is one, and otherwise keeps the text |
| GeneratorPage.TypedHandleRoundTrip | frontend/src/pages/Generator.tsx:46-217 | a handle typed as `@name` is emitted as `@name` |
| GeneratorPage.Capped | frontend/src/pages/Generator.tsx:103-121 | an input's `maxLength` keeps a prefix of at most that length |
| GeneratorPage.FlagsOf | frontend/src/pages/Generator.tsx:14-17 | the title is flagged over 60 characters and the description over 160 |
| GeneratorPage.FlagsMeasureTypedText | frontend/src/pages/Generator.tsx:103-125 | the flags measure the typed text, not the placeholder, and the input caps leave room to raise both |
| AuthStore.SetAuth | frontend/src/hooks/useAuth.ts:20 | a session sets token, user and key (absent when the login answer had none) and leaves the loading flag alone |
| AuthStore.Logout | frontend/src/hooks/useAuth.ts:21 | logging out clears token, user and key and leaves the loading flag alone |
| AuthStore.SetAuthThenLogout | frontend/src/hooks/useAuth.ts:15-21 | signing in and then out returns to the initial state |
| AuthStore.LogoutIsIdempotent | frontend/src/hooks/useAuth.ts:21-31 | logging out twice is logging out once, and it always ends the session |
| AuthStore.SetAuthAuthenticates | frontend/src/hooks/useAuth.ts:20-31 | a session counts as signed in exactly when its token is non-empty, and a later session replaces an earlier one |

## Left out

- I/O and time: network fetches, Redis and database calls, the clock, `setInterval` and `setTimeout` are inputs or left out. The 10-second fetch abort appears only as an error the fetch can return.
- Concurrency: `Promise.all` and `Promise.allSettled` are modelled in order. The batch settles its URLs one after another, against the store as earlier URLs left it.
- Calendar arithmetic: `toISOString().split('T')[0]`, start-of-day and start-of-month, and `setDate(getDate() - days)` are inputs (`date` strings and `start` instants).
- `parseInt` of the `days` query value is an input, and so is `parseInt` itself for `limit` and `offset` (`Dashboard.ParseInt`, absent for NaN).
- Dashboard.Requests: a `limit` or `offset` that reads as NaN or as a negative number gives no page. What the database client does with such `take` and `skip` values (a validation error, or a backwards `take`) is not modelled.
- Floating point: `toFixed` and the percentage strings are represented by exact ratios (`Usage.Rate`, `Dashboard.HitRate`). The average latencies use exact rounding (`Usage.RoundedMean`, also behind `Dashboard.MeanLatency`).
- Strings are sequences of Unicode scalar values, while JavaScript measures strings in UTF-16 code units. So a character outside the Basic Multilingual Plane counts once here and twice in the source, and lone surrogates cannot be written at all (the encoder would replace them with U+FFFD). This affects every length bound and slice: GenerateApi.LimitedString (at most 200 and 500 characters), Accounts.SignupIssues (at least 8), Accounts.ValidKeyName (at most 100), Accounts.Mask and Js.SliceLast (the last 8), GeneratorPage.FlagsOf and GeneratorPage.Capped (the 60 and 160 warnings and the input limits), and UrlHash.Utf8.
- JSON serialisation: `JSON.stringify` and `JSON.parse` of cached metadata are taken as inverse, so the fast tier stores the value itself.
- Libraries: cheerio parsing is reduced to a page of meta and link elements with the `<title>` text. `new URL`, zod's URL and email checks, `Number()`, bcrypt, JWT signing and verification, and nanoid are inputs.
- Rendering: satori, resvg and font loading are reduced to a `RenderFailure` input. Templates are modelled as element trees with their style maps, not as pixels.
- Templates.Props: `logo` and `fontSize` are carried but never read, as in the templates themselves. `fontFamily` is parsed and dropped.
- Zod messages: issue messages are written as zod's defaults. For a body of the wrong JSON shape (`Accounts.Body.Mistyped`, `ExtractApi.BatchBody.Mistyped`) the type issues are given with the body rather than derived. The exact `details` payload of a validation error is not modelled beyond path and message.
- Accounts.CreateKey: the message of a failed name check is not modelled. The source answers it with the error's message (a serialised zod issue list).
- Cache.ExpiredIsMissed: promises a miss only once the expiry instant has passed. At the instant itself a Redis key with a TTL is still served (`Cache.FastRoundTrip`), while the durable tier already misses (`Cache.BoundaryRowOutlivesCleanup`).
- Accounts.ListKeys: keys are listed in creation order. The source's `findMany` has no `orderBy`, so it lists them in whatever order the database returns.
- Accounts.Login: "first active key" is taken in creation order. The source takes whatever order the database returns, since the query has no `orderBy`.
- Accounts: unique-constraint collisions of generated ids and keys are not modelled. `Fresh` is assumed new.
- Dashboard: the `/profile` route and the field selection of `/requests` rows are left out; a page holds whole rows.
- Usage.ByEndpoint: the groups are listed in order of their endpoint's first row. The database's `groupBy` promises no order.
- Persistence: the session store's `persist` middleware (local storage) is left out.
- Pages: the rest of the front-end pages and `src/index.ts` (routing, CORS, static files) are not part of this model. The routes are modelled with the prefixes they have there.

=== FILE: accounts.dfy ===
/**
 * Accounts and their API keys: signup (a user and one default key), login (credentials
 * against the stored hash, answering the user's first active key), and the Bearer-gated
 * key routes (create, list masked, delete).
 *
 * Password hashing and checking, token signing and verification, the random key text,
 * record ids, the clock and the table defaults for a new key's limits are inputs.
 */
module Accounts {
  import opened Wrappers
  import opened Js
  import opened AppContext
  import opened BearerGate

  datatype User = User(id: string, email: string, passwordHash: string, name: Option<string>)

  /** A stored key, with the columns the listing shows. */
  datatype StoredKey = StoredKey(
    id: string, key: string, name: string, userId: string, active: bool,
    rateLimit: int, dailyLimit: int, lastUsedAt: Option<int>, createdAt: int)

  /** The users by email (the unique column the routes look up) and the keys in creation order. */
  datatype Accounts = Accounts(users: map<string, User>, keys: seq<StoredKey>)

  /** What the environment decides for a new record: ids, random key text, the instant and the key table's defaults. */
  datatype Fresh = Fresh(userId: string, keyId: string, random: string, now: int, rateLimit: int, dailyLimit: int)

  /** The password and token primitives. */
  datatype Crypto = Crypto(
    hash: string -> string,
    verify: (string, string) -> bool,
    sign: TokenPayload -> string,
    verifyToken: Verifier)

  const KeyPrefix := "og_"
  const MinPassword := 8
  const MaxKeyName := 100

  /** A new key's text: the prefix and the random part. */
  function NewKeyText(random: string): (k: string)
    ensures StartsWith(k, KeyPrefix) && k[|KeyPrefix|..] == random
    ensures |random| == 32 ==> |k| == 35
  {
    KeyPrefix + random
  }

  /** A key as created: active, never used, with the table's default limits. */
  function NewKey(gen: Fresh, name: string, userId: string): (k: StoredKey)
    ensures k.key == NewKeyText(gen.random) && k.name == name && k.userId == userId && k.active
    ensures k.lastUsedAt.None? && k.createdAt == gen.now
  {
    StoredKey(gen.keyId, NewKeyText(gen.random), name, userId, true, gen.rateLimit, gen.dailyLimit, None, gen.now)
  }

  /** The user's view in a session answer. */
  datatype PublicUser = PublicUser(id: string, email: string, name: Option<string>)

  /** A listed key: the stored columns with the key text masked. */
  datatype ListedKey = ListedKey(
    id: string, key: string, name: string, active: bool,
    rateLimit: int, dailyLimit: int, lastUsedAt: Option<int>, createdAt: int)

  /** The answers of the account routes. */
  datatype AccountReply =
    | Session(user: PublicUser, apiKey: Option<string>, token: string)
    | Invalid(issues: seq<Issue>)
    | EmailTaken
    | BadCredentials
    | Refused(refusal: Refusal)
    | Created(id: string, key: string, name: string, createdAt: int)
    | KeyList(keys: seq<ListedKey>)
    | Deleted
    | Failed(message: Option<string>)
  {
    function Status(): int {
      match this
      case Session(_, _, _) => 200
      case Invalid(_) => 400
      case EmailTaken => 400
      case BadCredentials => 401
      case Refused(_) => 401
      case Created(_, _, _, _) => 200
      case KeyList(_) => 200
      case Deleted => 200
      case Failed(_) => 500
    }
  }

  // ---------------------------------------------------------------------------------------
  // Signup.

  /**
   * A request body: unreadable as JSON; readable but not of the shape the route's schema
   * reads (not an object, or a member of the wrong JSON type, such as `null` or
   * `{"email": 5}`), with the issues the validator reports for it; or its string fields
   * (absent when missing).
   */
  datatype Body =
    | Unreadable(message: Option<string>)
    | Mistyped(issues: seq<Issue>)
    | Fields(email: Option<string>, password: Option<string>, name: Option<string>)

  /** The signup schema: a valid email, then a password of at least eight characters. */
  function SignupIssues(email: Option<string>, password: Option<string>, isEmail: string -> bool): (r: seq<Issue>)
    ensures r == [] <==> email.Some? && isEmail(email.value) && password.Some? && |password.value| >= MinPassword
  {
    (if email.None? then [Issue(["email"], "Required")]
     else if !isEmail(email.value) then [Issue(["email"], "Invalid email")] else [])
    + (if password.None? then [Issue(["password"], "Required")]
       else if |password.value| < MinPassword then [Issue(["password"], "String must contain at least 8 character(s)")]
       else [])
  }

  /**
   * `POST /signup`: validate; refuse a registered email; otherwise create the user with
   * the hashed password, then its key named "Default", and open a session.
   */
  function Signup(accounts: Accounts, body: Body, isEmail: string -> bool, crypto: Crypto, gen: Fresh): (r: (AccountReply, Accounts))
    ensures r.0.Session? ==> && body.Fields? && body.email.Some? && body.password.Some?
                             && body.email.value !in accounts.users
                             && r.1.users == accounts.users[body.email.value :=
                                                           User(gen.userId, body.email.value, crypto.hash(body.password.value), body.name)]
                             && r.1.keys == accounts.keys + [NewKey(gen, "Default", gen.userId)]
                             && r.0.apiKey == Some(NewKeyText(gen.random))
                             && r.0.user == PublicUser(gen.userId, body.email.value, body.name)
    ensures !r.0.Session? ==> r.1 == accounts
    ensures r.0 == EmailTaken <==> body.Fields? && SignupIssues(body.email, body.password, isEmail) == [] && body.email.value in accounts.users
    ensures r.0.Invalid? <==> body.Mistyped? || (body.Fields? && SignupIssues(body.email, body.password, isEmail) != [])
    ensures body.Mistyped? ==> r.0 == Invalid(body.issues) && r.0.Status() == 400
    ensures r.0.Failed? <==> body.Unreadable?
    ensures r.0.Session? <==>
              body.Fields? && SignupIssues(body.email, body.password, isEmail) == [] && body.email.value !in accounts.users
  {
    match body
    case Unreadable(message) => (Failed(message), accounts)
    case Mistyped(issues) => (Invalid(issues), accounts)
    case Fields(email, password, name) =>
      var issues := SignupIssues(email, password, isEmail);
      if issues != [] then (Invalid(issues), accounts)
      else if email.value in accounts.users then (EmailTaken, accounts)
      else
        var user := User(gen.userId, email.value, crypto.hash(password.value), name);
        var key := NewKey(gen, "Default", user.id);
        var token := crypto.sign(TokenPayload(user.id, user.email));
        (Session(PublicUser(user.id, user.email, user.name), Some(key.key), token),
         Accounts(accounts.users[email.value := user], accounts.keys + [key]))
  }

  // ---------------------------------------------------------------------------------------
  // Login.

  /** The index of the user's first active key, in creation order. */
  function FirstActive(keys: seq<StoredKey>, userId: string): (r: Option<nat>)
    ensures r.Some? ==> r.value < |keys| && keys[r.value].userId == userId && keys[r.value].active
    ensures r.Some? ==> forall j :: 0 <= j < r.value ==> !(keys[j].userId == userId && keys[j].active)
    ensures r.None? ==> forall j :: 0 <= j < |keys| ==> !(keys[j].userId == userId && keys[j].active)
  {
    if keys == [] then None
    else if keys[0].userId == userId && keys[0].active then Some(0)
    else
      var r := FirstActive(keys[1..], userId);
      if r.Some? then Some(r.value + 1) else None
  }

  /** The login schema: a valid email and any password string. */
  function LoginIssues(email: Option<string>, password: Option<string>, isEmail: string -> bool): (r: seq<Issue>)
    ensures r == [] <==> email.Some? && isEmail(email.value) && password.Some?
  {
    (if email.None? then [Issue(["email"], "Required")]
     else if !isEmail(email.value) then [Issue(["email"], "Invalid email")] else [])
    + (if password.None? then [Issue(["password"], "Required")] else [])
  }

  /**
   * `POST /login`: an unknown email and a wrong password get the same 401; otherwise a
   * session with the user's first active key, if any. Nothing is written.
   */
  function Login(accounts: Accounts, body: Body, isEmail: string -> bool, crypto: Crypto): (r: AccountReply)
    ensures r == BadCredentials <==>
              body.Fields? && LoginIssues(body.email, body.password, isEmail) == []
              && (body.email.value !in accounts.users
                  || !crypto.verify(body.password.value, accounts.users[body.email.value].passwordHash))
    ensures r.Session? ==> && body.Fields? && body.email.Some? && body.password.Some?
                           && body.email.value in accounts.users
                           && var u := accounts.users[body.email.value];
                           && crypto.verify(body.password.value, u.passwordHash)
                           && r.user == PublicUser(u.id, u.email, u.name)
                           && r.token == crypto.sign(TokenPayload(u.id, u.email))
                           && (r.apiKey.Some? <==> FirstActive(accounts.keys, u.id).Some?)
                           && (r.apiKey.Some? ==> r.apiKey.value == accounts.keys[FirstActive(accounts.keys, u.id).value].key)
    ensures r.Session? <==>
              body.Fields? && LoginIssues(body.email, body.password, isEmail) == []
              && body.email.value in accounts.users
              && crypto.verify(body.password.value, accounts.users[body.email.value].passwordHash)
    ensures r.Invalid? <==> body.Mistyped? || (body.Fields? && LoginIssues(body.email, body.password, isEmail) != [])
    ensures body.Mistyped? ==> r == Invalid(body.issues) && r.Status() == 400
    ensures r.Failed? <==> body.Unreadable?
  {
    match body
    case Unreadable(message) => Failed(message)
    case Mistyped(issues) => Invalid(issues)
    case Fields(email, password, _) =>
      var issues := LoginIssues(email, password, isEmail);
      if issues != [] then Invalid(issues)
      else if email.value !in accounts.users then BadCredentials
      else
        var u := accounts.users[email.value];
        if !crypto.verify(password.value, u.passwordHash) then BadCredentials
        else
          var first := FirstActive(accounts.keys, u.id);
          Session(PublicUser(u.id, u.email, u.name),
                  if first.Some? then Some(accounts.keys[first.value].key) else None,
                  crypto.sign(TokenPayload(u.id, u.email)))
  }

  /**
   * With a password check that accepts the hash of the same password, a valid signup of a
   * new email opens a session, and logging in with the same credentials afterwards opens
   * one too, for the same user and with the key the signup created.
   */
  lemma SignupThenLogin(accounts: Accounts, email: string, password: string, name: Option<string>,
                        isEmail: string -> bool, crypto: Crypto, gen: Fresh)
    requires isEmail(email) && |password| >= MinPassword && email !in accounts.users
    requires crypto.verify(password, crypto.hash(password))
    requires forall j :: 0 <= j < |accounts.keys| ==> accounts.keys[j].userId != gen.userId
    ensures var (reply, after) := Signup(accounts, Fields(Some(email), Some(password), name), isEmail, crypto, gen);
            var again := Login(after, Fields(Some(email), Some(password), None), isEmail, crypto);
            reply.Session? && again.Session? && again.apiKey == reply.apiKey && again.user == reply.user
  {
    var (reply, after) := Signup(accounts, Fields(Some(email), Some(password), name), isEmail, crypto, gen);
    var ks := after.keys;
    var n := |accounts.keys|;
    assert ks[n] == NewKey(gen, "Default", gen.userId);
    assert forall j :: 0 <= j < n ==> ks[j] == accounts.keys[j];
    var first := FirstActive(ks, gen.userId);
    assert first == Some(n);
  }

  // ---------------------------------------------------------------------------------------
  // Key routes.

  /** `z.string().min(1).max(100)` on the new key's name. */
  predicate ValidKeyName(name: Option<string>) {
    name.Some? && 1 <= |name.value| <= MaxKeyName
  }

  /**
   * `POST /keys`: the Bearer gate, then the check of the body's `name`, then a new active
   * key for the token's user. The name check's failure is not singled out: like any other error it
   * is a 500.
   */
  function CreateKey(accounts: Accounts, authorization: Option<string>, body: Body, crypto: Crypto, gen: Fresh)
    : (r: (AccountReply, Accounts))
    ensures Authenticate(authorization, crypto.verifyToken).Err? ==>
              r == (Refused(Authenticate(authorization, crypto.verifyToken).error), accounts)
    ensures r.0.Created? <==> Authenticate(authorization, crypto.verifyToken).Ok? && body.Fields? && ValidKeyName(body.name)
    ensures r.0.Created? ==> && r.1.users == accounts.users
                             && r.1.keys == accounts.keys + [NewKey(gen, body.name.value, Authenticate(authorization, crypto.verifyToken).value.userId)]
                             && r.0.key == NewKeyText(gen.random) && r.0.name == body.name.value
    ensures !r.0.Created? ==> r.1 == accounts
    ensures Authenticate(authorization, crypto.verifyToken).Ok? && body.Fields? && !ValidKeyName(body.name) ==> r.0.Status() == 500
    ensures Authenticate(authorization, crypto.verifyToken).Ok? && !body.Fields? ==> r.0.Status() == 500
  {
    match Authenticate(authorization, crypto.verifyToken)
    case Err(refusal) => (Refused(refusal), accounts)
    case Ok(payload) =>
      if body.Unreadable? then (Failed(body.message), accounts)
      else if body.Mistyped? || !ValidKeyName(body.name) then (Failed(None), accounts)
      else
        var key := NewKey(gen, body.name.value, payload.userId);
        (Created(key.id, key.key, key.name, key.createdAt), Accounts(accounts.users, accounts.keys + [key]))
  }

  /** `og_` and 24 asterisks, then the key's last eight characters. */
  function Mask(key: string): (m: string)
    ensures |m| == 27 + (if |key| < 8 then |key| else 8)
    ensures m[..3] == KeyPrefix && forall k :: 3 <= k < 27 ==> m[k] == '*'
    ensures m[27..] == SliceLast(key, 8)
  {
    KeyPrefix + Repeat('*', 24) + SliceLast(key, 8)
  }

  /** The mask shows nothing but the last eight characters: keys agreeing there share a mask. */
  lemma MaskShowsOnlyTheTail(a: string, b: string)
    requires |a| >= 8 && |b| >= 8 && a[|a| - 8..] == b[|b| - 8..]
    ensures Mask(a) == Mask(b)
  {
  }

  /** A signup key (prefix and 32 random characters) masks to 35 characters ending in its own last eight. */
  lemma SignupKeyMask(random: string)
    requires |random| == 32
    ensures var m := Mask(NewKeyText(random)); |m| == 35 && m[27..] == random[24..]
  {
    var k := NewKeyText(random);
    assert k[|k| - 8..] == random[24..];
  }

  /** A key as `GET /keys` lists it: every selected column as stored, except the key, which is masked. */
  function Listed(k: StoredKey): (l: ListedKey)
    ensures l.key == Mask(k.key)
    ensures l.id == k.id && l.name == k.name && l.active == k.active
    ensures l.rateLimit == k.rateLimit && l.dailyLimit == k.dailyLimit
    ensures l.lastUsedAt == k.lastUsedAt && l.createdAt == k.createdAt
  {
    ListedKey(k.id, Mask(k.key), k.name, k.active, k.rateLimit, k.dailyLimit, k.lastUsedAt, k.createdAt)
  }

  /** The keys of `userId`, in creation order. */
  function KeysOf(keys: seq<StoredKey>, userId: string): (r: seq<StoredKey>)
    ensures forall k :: k in r <==> k in keys && k.userId == userId
    ensures |r| <= |keys|
  {
    if keys == [] then []
    else (if keys[0].userId == userId then [keys[0]] else []) + KeysOf(keys[1..], userId)
  }

  /** Selecting a user's keys keeps their order: it distributes over concatenation. */
  lemma {:induction false} KeysOfAppend(a: seq<StoredKey>, b: seq<StoredKey>, userId: string)
    ensures KeysOf(a + b, userId) == KeysOf(a, userId) + KeysOf(b, userId)
  {
    if a == [] {
      assert a + b == b;
    } else {
      assert (a + b)[0] == a[0];
      assert (a + b)[1..] == a[1..] + b;
      KeysOfAppend(a[1..], b, userId);
    }
  }

  /** `GET /keys`: the token user's keys, each masked; nothing is written. */
  function ListKeys(accounts: Accounts, authorization: Option<string>, crypto: Crypto): (r: AccountReply)
    ensures Authenticate(authorization, crypto.verifyToken).Err? ==> r == Refused(Authenticate(authorization, crypto.verifyToken).error)
    ensures Authenticate(authorization, crypto.verifyToken).Ok? ==>
              var mine := KeysOf(accounts.keys, Authenticate(authorization, crypto.verifyToken).value.userId);
              && r.KeyList? && |r.keys| == |mine|
              && forall i :: 0 <= i < |mine| ==> r.keys[i].id == mine[i].id && r.keys[i].key == Mask(mine[i].key)
                                                  && r.keys[i].name == mine[i].name
    ensures Authenticate(authorization, crypto.verifyToken).Ok? ==>
              var mine := KeysOf(accounts.keys, Authenticate(authorization, crypto.verifyToken).value.userId);
              forall i :: 0 <= i < |mine| ==> r.keys[i] == Listed(mine[i])
  {
    match Authenticate(authorization, crypto.verifyToken)
    case Err(refusal) => Refused(refusal)
    case Ok(payload) =>
      var mine := KeysOf(accounts.keys, payload.userId);
      KeyList(seq(|mine|, i requires 0 <= i < |mine| => Listed(mine[i])))
  }

  /**
   * A created key is listed by the same token afterwards: after every key listed before,
   * masked, under the name given and active.
   */
  lemma CreatedKeyIsListedLast(accounts: Accounts, authorization: Option<string>, body: Body, crypto: Crypto, gen: Fresh)
    requires CreateKey(accounts, authorization, body, crypto, gen).0.Created?
    ensures var before := ListKeys(accounts, authorization, crypto);
            var after := ListKeys(CreateKey(accounts, authorization, body, crypto, gen).1, authorization, crypto);
            && before.KeyList? && after.KeyList?
            && after.keys == before.keys + [after.keys[|after.keys| - 1]]
            && after.keys[|after.keys| - 1].key == Mask(NewKeyText(gen.random))
            && after.keys[|after.keys| - 1].name == body.name.value
            && after.keys[|after.keys| - 1].active
  {
    var userId := Authenticate(authorization, crypto.verifyToken).value.userId;
    var key := NewKey(gen, body.name.value, userId);
    var created := CreateKey(accounts, authorization, body, crypto, gen).1;
    assert created.keys == accounts.keys + [key];
    var mine := KeysOf(accounts.keys, userId);
    var mine' := KeysOf(created.keys, userId);
    KeysOfAppend(accounts.keys, [key], userId);
    assert KeysOf([key], userId) == [key];
    assert mine' == mine + [key];
    var before := ListKeys(accounts, authorization, crypto);
    var after := ListKeys(created, authorization, crypto);
    assert |after.keys| == |mine| + 1;
    assert after.keys[|mine|] == Listed(key);
    assert after.keys[..|mine|] == before.keys;
  }

  /** The keys that survive deleting `keyId` for `userId`. */
  function Without(keys: seq<StoredKey>, keyId: string, userId: string): (r: seq<StoredKey>)
    ensures forall k :: k in r <==> k in keys && !(k.id == keyId && k.userId == userId)
    ensures |r| <= |keys|
  {
    if keys == [] then []
    else (if keys[0].id == keyId && keys[0].userId == userId then [] else [keys[0]]) + Without(keys[1..], keyId, userId)
  }

  /**
   * `DELETE /keys/:id`: remove the token user's keys with that id; keys of other users
   * are untouched, and the answer is a success even when nothing matched.
   */
  function DeleteKey(accounts: Accounts, authorization: Option<string>, keyId: string, crypto: Crypto): (r: (AccountReply, Accounts))
    ensures Authenticate(authorization, crypto.verifyToken).Err? ==>
              r == (Refused(Authenticate(authorization, crypto.verifyToken).error), accounts)
    ensures Authenticate(authorization, crypto.verifyToken).Ok? ==>
              var owner := Authenticate(authorization, crypto.verifyToken).value.userId;
              && r.0 == Deleted && r.1.users == accounts.users
              && (forall k :: k in r.1.keys <==> k in accounts.keys && !(k.id == keyId && k.userId == owner))
  {
    match Authenticate(authorization, crypto.verifyToken)
    case Err(refusal) => (Refused(refusal), accounts)
    case Ok(payload) => (Deleted, Accounts(accounts.users, Without(accounts.keys, keyId, payload.userId)))
  }

  /** Deleting another user's key, or a key that does not exist, changes nothing and still succeeds. */
  lemma {:induction false} DeleteForeignKeyIsNoOp(keys: seq<StoredKey>, keyId: string, userId: string)
    requires forall j :: 0 <= j < |keys| ==> !(keys[j].id == keyId && keys[j].userId == userId)
    ensures Without(keys, keyId, userId) == keys
  {
    if keys != [] {
      DeleteForeignKeyIsNoOp(keys[1..], keyId, userId);
    }
  }
}

=== FILE: api_key_auth.dfy ===
/**
 * The API-key middleware in front of the extraction and image routes: find the key the
 * request presents, run the admission checks in a fixed order, and on success put the
 * key's context on the request for the rate limiter and the handlers.
 *
 * The key table is a map from key strings to stored records, and the clock is an input.
 */
module ApiKeyAuth {
  import opened Wrappers
  import opened Js
  import opened AppContext

  /** A stored key with its owner, limits, permissions, activity flag and optional expiry. */
  datatype KeyRecord = KeyRecord(
    id: string,
    userId: string,
    key: string,
    active: bool,
    expiresAt: Option<int>,
    rateLimit: int,
    dailyLimit: int,
    canExtract: bool,
    canGenerate: bool)

  type KeyTable = map<string, KeyRecord>

  /** Why a request is refused, in the order the checks run. */
  datatype Denial = KeyRequired | UnknownKey | Deactivated | Expired | NoExtractPermission | NoGeneratePermission
  {
    /** Identity failures are 401, permission failures 403. */
    function Status(): int {
      if this == NoExtractPermission || this == NoGeneratePermission then 403 else 401
    }

    function Message(): string {
      match this
      case KeyRequired => "API key required"
      case UnknownKey => "Invalid API key"
      case Deactivated => "API key has been deactivated"
      case Expired => "API key has expired"
      case NoExtractPermission => "API key does not have permission for extraction"
      case NoGeneratePermission => "API key does not have permission for image generation"
    }

    /** Only the missing-key answer carries a hint. */
    function Hint(): Option<string> {
      if this == KeyRequired then Some("Pass your API key via X-API-Key header or api_key query parameter") else None
    }

    /** The position of the check in the sequence. */
    function Rank(): nat {
      match this
      case KeyRequired => 0
      case UnknownKey => 1
      case Deactivated => 2
      case Expired => 3
      case NoExtractPermission => 4
      case NoGeneratePermission => 5
    }
  }

  /** The outcome: the context handed downstream, or the refusal. */
  datatype Admission = Admitted(apiKey: ApiKeyContext, userId: string) | Denied(denial: Denial)

  /** `header('X-API-Key') || query('api_key')`, an empty result counting as none. */
  function PresentedKey(header: Option<string>, query: Option<string>): (r: Option<string>)
    ensures r.Some? ==> r.value != ""
    ensures Truthy(header) ==> r == header
    ensures !Truthy(header) ==> r == Blank(query)
  {
    Blank(Or(header, query))
  }

  /** The stored record for a presented key. */
  function Lookup(table: KeyTable, presented: Option<string>): Option<KeyRecord> {
    if presented.Some? && presented.value in table then Some(table[presented.value]) else None
  }

  /** A key without an expiry never expires; one with an expiry is expired strictly after it. */
  predicate IsExpired(rec: KeyRecord, now: int) {
    rec.expiresAt.Some? && rec.expiresAt.value < now
  }

  /** The independent statement of each check's failure for a request. */
  predicate Fails(d: Denial, presented: Option<string>, table: KeyTable, now: int, path: string) {
    var rec := Lookup(table, presented);
    match d
    case KeyRequired => presented.None?
    case UnknownKey => rec.None?
    case Deactivated => rec.Some? && !rec.value.active
    case Expired => rec.Some? && IsExpired(rec.value, now)
    case NoExtractPermission => rec.Some? && Includes(path, "/extract") && !rec.value.canExtract
    case NoGeneratePermission => rec.Some? && Includes(path, "/og") && !rec.value.canGenerate
  }

  /** The context the middleware hands downstream: the stored fields, unchanged. */
  function ContextOf(rec: KeyRecord): (c: ApiKeyContext)
    ensures c.id == rec.id && c.userId == rec.userId && c.key == rec.key
    ensures c.rateLimit == rec.rateLimit && c.dailyLimit == rec.dailyLimit
    ensures c.canExtract == rec.canExtract && c.canGenerate == rec.canGenerate
  {
    ApiKeyContext(rec.id, rec.userId, rec.key, rec.rateLimit, rec.dailyLimit, rec.canExtract, rec.canGenerate)
  }

  /**
   * `apiKeyAuth`: refuse with the first check that fails, in rank order; when none does,
   * admit with the stored key's context and its owner as the request's user.
   */
  function Authenticate(header: Option<string>, query: Option<string>, table: KeyTable, now: int, path: string): (r: Admission)
    ensures var k := PresentedKey(header, query);
            r.Denied? ==> Fails(r.denial, k, table, now, path)
                          && forall d: Denial :: d.Rank() < r.denial.Rank() ==> !Fails(d, k, table, now, path)
    ensures var k := PresentedKey(header, query);
            r.Admitted? <==> forall d: Denial :: !Fails(d, k, table, now, path)
    ensures r.Admitted? ==> PresentedKey(header, query).Some? && PresentedKey(header, query).value in table
    ensures r.Admitted? ==> var rec := table[PresentedKey(header, query).value];
                            r.apiKey == ContextOf(rec) && r.userId == rec.userId
  {
    var presented := PresentedKey(header, query);
    match presented
    case None => Denied(KeyRequired)
    case Some(k) =>
      if k !in table then Denied(UnknownKey)
      else
        var rec := table[k];
        if !rec.active then Denied(Deactivated)
        else if IsExpired(rec, now) then Denied(Expired)
        else if Includes(path, "/extract") && !rec.canExtract then Denied(NoExtractPermission)
        else if Includes(path, "/og") && !rec.canGenerate then Denied(NoGeneratePermission)
        else Admitted(ContextOf(rec), rec.userId)
  }

  /**
   * A key is refused as expired only once its expiry has passed: up to and including the
   * expiry instant it is answered exactly as if it had no expiry at all.
   */
  lemma ExpiryIsStrict(header: Option<string>, query: Option<string>, table: KeyTable, now: int, path: string)
    requires PresentedKey(header, query).Some? && PresentedKey(header, query).value in table
    requires var rec := table[PresentedKey(header, query).value];
             rec.expiresAt.Some? && now <= rec.expiresAt.value
    ensures var k := PresentedKey(header, query).value;
            Authenticate(header, query, table, now, path)
            == Authenticate(header, query, table[k := table[k].(expiresAt := None)], now, path)
  {
  }

  /**
   * The 401 with the hint is the answer exactly when neither channel carries a non-empty
   * key, whatever the table holds.
   */
  lemma NoKeyNoLookup(header: Option<string>, query: Option<string>, table: KeyTable, now: int, path: string)
    ensures var r := Authenticate(header, query, table, now, path);
            (r == Denied(KeyRequired) <==> !Truthy(header) && !Truthy(query))
    ensures !Truthy(header) && !Truthy(query) ==>
              Authenticate(header, query, table, now, path).denial.Status() == 401
              && Authenticate(header, query, table, now, path).denial.Hint().Some?
  {
  }

  /** An empty header falls back to the query parameter. */
  lemma EmptyHeaderFallsBack(query: string, table: KeyTable, now: int, path: string)
    ensures Authenticate(Some(""), Some(query), table, now, path) == Authenticate(None, Some(query), table, now, path)
  {
  }

  /** A path naming both routes needs both permissions; with neither, the extraction check answers first. */
  lemma BothPermissionsNeeded(rec: KeyRecord, table: KeyTable, now: int)
    requires rec.key != "" && rec.key in table && table[rec.key] == rec && rec.active && !IsExpired(rec, now)
    ensures Authenticate(Some(rec.key), None, table, now, "/extract/og").Admitted? <==> rec.canExtract && rec.canGenerate
    ensures !rec.canExtract ==> Authenticate(Some(rec.key), None, table, now, "/extract/og") == Denied(NoExtractPermission)
  {
    assert MatchAt("/extract/og", "/extract", 0);
    assert MatchAt("/extract/og", "/og", 8);
  }
}

=== FILE: app_context.dfy ===
/** The per-request values the middleware chain stores on the request context, and what handlers throw. */
module AppContext {
  import opened Wrappers

  /** The API key as the authentication middleware hands it to later middleware and handlers. */
  datatype ApiKeyContext = ApiKeyContext(
    id: string,
    userId: string,
    key: string,
    rateLimit: int,
    dailyLimit: int,
    canExtract: bool,
    canGenerate: bool)

  /** One schema violation: the path of the offending field and the validator's message. */
  datatype Issue = Issue(path: seq<string>, message: string)

  /**
   * A thrown value: a schema validation failure with its issues, or any other error with
   * its `name`, its `message` (absent when the thrown value has none) and an optional
   * numeric `status`.
   */
  datatype Thrown =
    | ValidationFailed(issues: seq<Issue>)
    | Failure(name: string, message: Option<string>, status: Option<int>)
  {
    /** A plain `new Error(message)`. */
    static function Plain(message: string): Thrown {
      Failure("Error", Some(message), None)
    }

    /**
     * `(e as Error)?.message` for an error that is not a validation failure; a validation
     * failure's message (a JSON rendering of its issues) is not modelled.
     */
    function Message(): Option<string> {
      match this
      case ValidationFailed(_) => None
      case Failure(_, message, _) => message
    }
  }
}

=== FILE: auth_store.dfy ===
/**
 * The dashboard's session store: the token, the signed-in user and the API key shown to
 * them, kept across reloads. Persistence itself is left to the storage layer; only the
 * state and its two transitions are modelled.
 */
module AuthStore {
  import opened Wrappers

  /** The signed-in user as the login answer describes them. */
  datatype SessionUser = SessionUser(id: string, email: string, name: Option<string>)

  /** The store's state; absent values stand for `null`. */
  datatype State = State(token: Option<string>, user: Option<SessionUser>, apiKey: Option<string>, isLoading: bool)

  /** Nobody signed in, nothing loading. */
  const Initial := State(None, None, None, false)

  /**
   * `setAuth`: record a session; the loading flag is kept. The key is absent when the
   * login answer carried none (a user without an active key), though the type says string.
   */
  function SetAuth(s: State, token: string, user: Option<SessionUser>, apiKey: Option<string>): (r: State)
    ensures r.token == Some(token) && r.user == user && r.apiKey == apiKey
    ensures r.isLoading == s.isLoading
  {
    s.(token := Some(token), user := user, apiKey := apiKey)
  }

  /** `logout`: forget the session; the loading flag is kept. */
  function Logout(s: State): (r: State)
    ensures r.token.None? && r.user.None? && r.apiKey.None?
    ensures r.isLoading == s.isLoading
  {
    s.(token := None, user := None, apiKey := None)
  }

  /** `!!token`: signed in exactly when there is a non-empty token. */
  predicate IsAuthenticated(s: State) {
    s.token.Some? && s.token.value != ""
  }

  /** Signing in and then out returns to the initial state. */
  lemma SetAuthThenLogout(token: string, user: Option<SessionUser>, apiKey: Option<string>)
    ensures Logout(SetAuth(Initial, token, user, apiKey)) == Initial
  {
  }

  /** Logging out is idempotent and always ends the session. */
  lemma LogoutIsIdempotent(s: State)
    ensures Logout(Logout(s)) == Logout(s)
    ensures !IsAuthenticated(Logout(s))
  {
  }

  /** A session counts as signed in only when its token is not empty; a later session replaces an earlier one. */
  lemma SetAuthAuthenticates(s: State, token: string, user: Option<SessionUser>, apiKey: Option<string>,
                             token2: string, user2: Option<SessionUser>, apiKey2: Option<string>)
    ensures IsAuthenticated(SetAuth(s, token, user, apiKey)) <==> token != ""
    ensures SetAuth(SetAuth(s, token, user, apiKey), token2, user2, apiKey2) == SetAuth(s, token2, user2, apiKey2)
  {
  }
}

=== FILE: bearer.dfy ===
/**
 * The Bearer-token gate shared by the key-management routes and the dashboard: the
 * `Authorization` header must start with `Bearer `, and the rest of it must verify as a
 * signed session token. Signature and issuer checking is an input (`Verifier`).
 */
module BearerGate {
  import opened Wrappers
  import opened Js
  import opened AppContext

  /** What a verified session token carries. */
  datatype TokenPayload = TokenPayload(userId: string, email: string)

  /** `verifyToken(token)`: the payload of a valid token, absent when verification throws. */
  type Verifier = string -> Option<TokenPayload>

  const BearerPrefix := "Bearer "

  /** The 401 answers of the gate. */
  datatype Refusal = Unauthorized | InvalidToken {
    function Message(): string {
      match this
      case Unauthorized => "Unauthorized"
      case InvalidToken => "Invalid token"
    }
  }

  /**
   * The gate: no header or no `Bearer ` prefix is `Unauthorized`; otherwise the header
   * minus its first seven characters is verified, and a failure is `InvalidToken`.
   */
  function Authenticate(header: Option<string>, verify: Verifier): (r: Result<TokenPayload, Refusal>)
    ensures header.None? || !StartsWith(header.value, BearerPrefix) ==> r == Err(Unauthorized)
    ensures r.Ok? ==> exists token :: header == Some(BearerPrefix + token) && verify(token) == Some(r.value)
    ensures r == Err(InvalidToken) ==> exists token :: header == Some(BearerPrefix + token) && verify(token).None?
  {
    match header
    case None => Err(Unauthorized)
    case Some(auth) =>
      if !StartsWith(auth, BearerPrefix) then Err(Unauthorized)
      else
        var token := auth[7..];
        assert auth == BearerPrefix + token;
        match verify(token)
        case None => Err(InvalidToken)
        case Some(payload) => Ok(payload)
  }

  /** A header `Bearer <token>` is decided by the token alone. */
  lemma TokenIsRestOfHeader(token: string, verify: Verifier)
    ensures verify(token).Some? ==> Authenticate(Some(BearerPrefix + token), verify) == Ok(verify(token).value)
    ensures verify(token).None? ==> Authenticate(Some(BearerPrefix + token), verify) == Err(InvalidToken)
  {
    assert (BearerPrefix + token)[7..] == token;
  }

  /**
   * A header is refused before any token check exactly when it does not begin with the
   * seven characters `Bearer ` as written: `bearer x` and `Bearerx` are both refused.
   */
  lemma PrefixIsExact(header: string, verify: Verifier)
    ensures Authenticate(Some(header), verify) == Err(Unauthorized) <==> !StartsWith(header, BearerPrefix)
    ensures Authenticate(Some("bearer x"), verify) == Err(Unauthorized)
    ensures Authenticate(Some("Bearerx"), verify) == Err(Unauthorized)
  {
    assert "bearer x"[0] != BearerPrefix[0];
    assert "Bearerx"[6] != BearerPrefix[6];
  }
}

=== FILE: cache.dfy ===
/**
 * The two-tier metadata cache: an optional fast key-value tier (Redis, entries named
 * `ogify:meta:<hash>` that expire on their own) in front of a durable table of rows keyed
 * by the URL hash. Reads try the fast tier, then the durable tier; writes go to both;
 * every tier failure except in the cleanup job is swallowed.
 *
 * The clock, the configured lifetime and the health of each tier are inputs (`Env`). A
 * fast-tier entry holds the JSON text of the metadata, modelled by the value it encodes:
 * the metadata holds only strings and a string map, which survive `JSON.stringify` and
 * `JSON.parse` unchanged, absent fields staying absent.
 */
module Cache {
  import opened Wrappers
  import opened Js
  import opened UrlHash
  import opened Extractor

  const Prefix := "ogify:meta:"

  /** `CACHE_TTL`: the configured lifetime in hours, in seconds. */
  function TtlSeconds(ttlHours: int): (s: int)
    ensures s == ttlHours * 3600
    ensures ttlHours > 0 <==> s > 0
  {
    ttlHours * 60 * 60
  }

  /** The fast tier is not configured, configured but failing every call, or healthy. */
  datatype FastTier = Disabled | Down | Up

  /** The environment of one cache call: tier health, the clock (ms) and the lifetime setting. */
  datatype Env = Env(fast: FastTier, durableUp: bool, now: int, ttlHours: int)

  /** A fast-tier entry: the cached value and the instant it expires. */
  datatype FastEntry = FastEntry(payload: Metadata, expiresAt: int)

  /**
   * A durable row: the URL that created it, the stored columns (there are none for `url`,
   * `author` and `keywords`), when it was last refreshed (absent until the first update:
   * creation leaves it to the table's default) and when it expires.
   */
  datatype Row = Row(url: string, data: Metadata, fetchedAt: Option<int>, expiresAt: int)

  datatype Store = Store(fast: map<string, FastEntry>, durable: map<string, Row>)

  /** The fast-tier name of a URL. */
  function FastKey(url: string): string {
    Prefix + HashUrl(url)
  }

  // ---------------------------------------------------------------------------------------
  // The durable row's columns.

  /**
   * The fifteen string columns of a durable row, in table order: title, description,
   * image, siteName, pageType, locale, the six Twitter-card fields, favicon, themeColor
   * and canonical.
   */
  function StringColumns(m: Metadata): (cols: seq<Option<string>>)
    ensures |cols| == 15
  {
    [m.title, m.description, m.image, m.siteName, m.pageType, m.locale,
     m.twitterCard, m.twitterSite, m.twitterCreator, m.twitterTitle, m.twitterDescription, m.twitterImage,
     m.favicon, m.themeColor, m.canonical]
  }

  /** The columns a row created from `m` holds: no url, author or keywords, and `rawMeta || {}`. */
  function Columns(m: Metadata): (c: Metadata)
    ensures c.url.None? && c.author.None? && c.keywords.None?
    ensures c.rawMeta == Some(m.rawMeta.GetOr(map[]))
    ensures StringColumns(c) == StringColumns(m)
  {
    m.(url := None, author := None, keywords := None, rawMeta := Some(m.rawMeta.GetOr(map[])))
  }

  /** `new ?? prev` for one column: an absent value in an update leaves the column as it was. */
  function Keep(update: Option<string>, prev: Option<string>): Option<string> {
    if update.Some? then update else prev
  }

  /**
   * The columns after an update with `m`: the database leaves a column alone when the
   * update does not define it, so a field the new metadata lacks keeps its previous value.
   */
  function Merge(prev: Metadata, m: Metadata): (c: Metadata)
    ensures c.url == prev.url && c.author == prev.author && c.keywords == prev.keywords
    ensures c.rawMeta == Some(m.rawMeta.GetOr(map[]))
    ensures var after, update, before := StringColumns(c), StringColumns(m), StringColumns(prev);
            forall i :: 0 <= i < 15 ==> after[i] == (if update[i].Some? then update[i] else before[i])
  {
    Metadata(
      Keep(m.title, prev.title), Keep(m.description, prev.description), Keep(m.image, prev.image),
      Keep(m.siteName, prev.siteName), Keep(m.pageType, prev.pageType), Keep(m.locale, prev.locale),
      prev.url,
      Keep(m.twitterCard, prev.twitterCard), Keep(m.twitterSite, prev.twitterSite),
      Keep(m.twitterCreator, prev.twitterCreator), Keep(m.twitterTitle, prev.twitterTitle),
      Keep(m.twitterDescription, prev.twitterDescription), Keep(m.twitterImage, prev.twitterImage),
      Keep(m.favicon, prev.favicon), Keep(m.themeColor, prev.themeColor), Keep(m.canonical, prev.canonical),
      prev.author, prev.keywords,
      Some(m.rawMeta.GetOr(map[])))
  }

  /**
   * The metadata a durable hit returns: every column read with `|| undefined` (so an
   * empty string comes back absent), `rawMeta` as stored, and no url, author or keywords.
   */
  function FromRow(c: Metadata): (m: Metadata)
    ensures m.url.None? && m.author.None? && m.keywords.None?
    ensures m.rawMeta == c.rawMeta
    ensures var read, stored := StringColumns(m), StringColumns(c);
            forall i :: 0 <= i < 15 ==> read[i] == (if stored[i].Some? && stored[i].value != "" then stored[i] else None)
  {
    Metadata(
      Blank(c.title), Blank(c.description), Blank(c.image), Blank(c.siteName), Blank(c.pageType),
      Blank(c.locale), None,
      Blank(c.twitterCard), Blank(c.twitterSite), Blank(c.twitterCreator), Blank(c.twitterTitle),
      Blank(c.twitterDescription), Blank(c.twitterImage),
      Blank(c.favicon), Blank(c.themeColor), Blank(c.canonical), None, None,
      c.rawMeta)
  }

  // ---------------------------------------------------------------------------------------
  // The operations.

  /**
   * The fast tier serves `key`: it is healthy and holds an entry whose expiry has not
   * passed (a key with a TTL is still served at its expiry instant).
   */
  predicate FastHit(env: Env, store: Store, key: string) {
    env.fast == Up && key in store.fast && env.now <= store.fast[key].expiresAt
  }

  /** The durable tier serves `hash`: it is reachable and holds a row that has not expired. */
  predicate DurableHit(env: Env, store: Store, hash: string) {
    env.durableUp && hash in store.durable && store.durable[hash].expiresAt > env.now
  }

  /**
   * `getCachedMetadata(url)`: the fast-tier value when it serves the key, else the
   * durable row read back when it serves the hash, else nothing. Never fails.
   */
  function Get(env: Env, store: Store, url: string): (r: Option<Metadata>)
    ensures FastHit(env, store, FastKey(url)) ==> r == Some(store.fast[FastKey(url)].payload)
    ensures !FastHit(env, store, FastKey(url)) && DurableHit(env, store, HashUrl(url)) ==>
              r == Some(FromRow(store.durable[HashUrl(url)].data))
    ensures r.None? <==> !FastHit(env, store, FastKey(url)) && !DurableHit(env, store, HashUrl(url))
  {
    var hash := HashUrl(url);
    var key := Prefix + hash;
    if FastHit(env, store, key) then Some(store.fast[key].payload)
    else if DurableHit(env, store, hash) then Some(FromRow(store.durable[hash].data))
    else None
  }

  /** When an entry written now expires. */
  function ExpiresAt(env: Env): int {
    env.now + TtlSeconds(env.ttlHours) * 1000
  }

  /**
   * `setCachedMetadata(url, m)`: write the fast tier (a non-positive lifetime makes the
   * write fail, which is swallowed) and upsert the durable row: a new row records the URL;
   * an existing row keeps its URL, merges the columns and records the refresh.
   */
  function Set(env: Env, store: Store, url: string, m: Metadata): (s: Store)
    ensures env.fast == Up && TtlSeconds(env.ttlHours) > 0 ==>
              s.fast == store.fast[FastKey(url) := FastEntry(m, ExpiresAt(env))]
    ensures !(env.fast == Up && TtlSeconds(env.ttlHours) > 0) ==> s.fast == store.fast
    ensures !env.durableUp ==> s.durable == store.durable
    ensures env.durableUp && HashUrl(url) !in store.durable ==>
              s.durable == store.durable[HashUrl(url) := Row(url, Columns(m), None, ExpiresAt(env))]
    ensures env.durableUp && HashUrl(url) in store.durable ==>
              var prev := store.durable[HashUrl(url)];
              s.durable == store.durable[HashUrl(url) := Row(prev.url, Merge(prev.data, m), Some(env.now), ExpiresAt(env))]
  {
    var hash := HashUrl(url);
    var expiresAt := ExpiresAt(env);
    var fast := if env.fast == Up && TtlSeconds(env.ttlHours) > 0
                then store.fast[Prefix + hash := FastEntry(m, expiresAt)] else store.fast;
    var durable :=
      if !env.durableUp then store.durable
      else if hash in store.durable then
        var prev := store.durable[hash];
        store.durable[hash := Row(prev.url, Merge(prev.data, m), Some(env.now), expiresAt)]
      else store.durable[hash := Row(url, Columns(m), None, expiresAt)];
    Store(fast, durable)
  }

  /** `invalidateCache(url)`: drop the entry from each reachable tier; a missing entry is no error. */
  function Invalidate(env: Env, store: Store, url: string): (s: Store)
    ensures FastKey(url) !in s.fast || env.fast != Up
    ensures HashUrl(url) !in s.durable || !env.durableUp
    ensures forall k :: k in s.fast <==> k in store.fast && (k != FastKey(url) || env.fast != Up)
    ensures forall h :: h in s.durable <==> h in store.durable && (h != HashUrl(url) || !env.durableUp)
    ensures forall k :: k in s.fast ==> s.fast[k] == store.fast[k]
    ensures forall h :: h in s.durable ==> s.durable[h] == store.durable[h]
  {
    var hash := HashUrl(url);
    var fast := if env.fast == Up then store.fast - {Prefix + hash} else store.fast;
    var durable := if env.durableUp then store.durable - {hash} else store.durable;
    Store(fast, durable)
  }

  /**
   * `cleanExpiredCache()`: delete every durable row that expired strictly before now and
   * report how many went; the fast tier is left to expire on its own. Unlike the other
   * operations this one does not swallow a database failure: `None` is the rejection.
   */
  method CleanExpired(env: Env, store: Store) returns (r: Option<(Store, nat)>)
    ensures !env.durableUp <==> r.None?
    ensures r.Some? ==> r.value.0.fast == store.fast
    ensures r.Some? ==> forall h :: h in r.value.0.durable <==> h in store.durable && store.durable[h].expiresAt >= env.now
    ensures r.Some? ==> forall h :: h in r.value.0.durable ==> r.value.0.durable[h] == store.durable[h]
    ensures r.Some? ==> r.value.1 == |store.durable| - |r.value.0.durable|
  {
    if !env.durableUp {
      return None;
    }
    var kept := store.durable;
    var removed := 0;
    var pending := store.durable.Keys;
    while pending != {}
      invariant pending <= store.durable.Keys
      invariant kept.Keys <= store.durable.Keys
      invariant forall h :: h in kept ==> kept[h] == store.durable[h]
      invariant forall h :: h in pending ==> h in kept
      invariant forall h :: h in store.durable && h !in pending ==> (h in kept <==> store.durable[h].expiresAt >= env.now)
      invariant removed == |store.durable| - |kept|
      decreases pending
    {
      var h :| h in pending;
      if store.durable[h].expiresAt < env.now {
        kept := kept - {h};
        removed := removed + 1;
      }
      pending := pending - {h};
    }
    return Some((Store(store.fast, kept), removed));
  }

  // ---------------------------------------------------------------------------------------
  // Properties.

  /** Written with a healthy fast tier, a value is read back exactly until it expires. */
  lemma FastRoundTrip(env: Env, store: Store, url: string, m: Metadata, later: Env)
    requires env.fast == Up && env.ttlHours > 0
    requires later.fast == Up && env.now <= later.now <= ExpiresAt(env)
    ensures Get(later, Set(env, store, url, m), url) == Some(m)
  {
  }

  /**
   * Written with only the durable tier reachable, a new value is read back through its
   * columns: text fields with empty strings dropped, url, author and keywords lost, and
   * `rawMeta` present even when the original had none.
   */
  lemma DurableRoundTrip(env: Env, store: Store, url: string, m: Metadata, later: Env)
    requires env.fast != Up && env.durableUp && HashUrl(url) !in store.durable
    requires later.fast != Up && later.durableUp && later.now < ExpiresAt(env)
    ensures var r := Get(later, Set(env, store, url, m), url);
            && r == Some(FromRow(Columns(m)))
            && r.value.url.None? && r.value.author.None? && r.value.keywords.None?
            && r.value.rawMeta == Some(m.rawMeta.GetOr(map[]))
            && (Truthy(m.title) ==> r.value.title == m.title)
  {
  }

  /**
   * A refresh whose metadata lacks a field the row already holds leaves the prev value in
   * place: the durable tier then serves a title the page no longer has.
   */
  lemma StaleColumnSurvivesRefresh(env: Env, store: Store, url: string, m: Metadata)
    requires env.fast != Up && env.durableUp && env.ttlHours > 0
    requires HashUrl(url) in store.durable
    requires Truthy(store.durable[HashUrl(url)].data.title) && m.title.None?
    ensures Get(env, Set(env, store, url, m), url).value.title == store.durable[HashUrl(url)].data.title
  {
  }

  /** Once its lifetime is over, nothing written at `env` is served any more. */
  lemma ExpiredIsMissed(env: Env, store: Store, url: string, m: Metadata, later: Env)
    requires HashUrl(url) !in store.durable && FastKey(url) !in store.fast
    requires later.now > ExpiresAt(env)
    ensures Get(later, Set(env, store, url, m), url).None?
  {
  }

  /** With both tiers healthy, an invalidated URL is a miss. */
  lemma InvalidateThenMiss(env: Env, store: Store, url: string)
    requires env.fast == Up && env.durableUp
    ensures Get(env, Invalidate(env, store, url), url).None?
  {
  }

  /** Writing one URL leaves every entry of a URL with a different hash as it was. */
  lemma SetIsLocal(env: Env, store: Store, url: string, m: Metadata, other: string)
    requires HashUrl(other) != HashUrl(url)
    ensures Get(env, Set(env, store, url, m), other) == Get(env, store, other)
  {
    assert FastKey(other)[|Prefix|..] == HashUrl(other);
    assert FastKey(url)[|Prefix|..] == HashUrl(url);
  }

  /** Distinct URLs share a slot: after caching "Aa", a lookup of "BB" is served "Aa"'s metadata. */
  lemma CollidingUrlsShareAnEntry(env: Env, store: Store, m: Metadata)
    requires env.fast == Up && env.ttlHours > 0
    ensures Get(env, Set(env, store, "Aa", m), "BB") == Some(m)
  {
    KnownCollision();
  }

  /**
   * A row that expires exactly now is no longer served, yet the cleanup (which deletes
   * only rows that expired strictly before now) keeps it.
   */
  lemma BoundaryRowOutlivesCleanup(env: Env, store: Store, url: string)
    requires env.fast != Up && env.durableUp
    requires HashUrl(url) in store.durable && store.durable[HashUrl(url)].expiresAt == env.now
    ensures Get(env, store, url).None?
  {
  }
}

=== FILE: dashboard.dfy ===
/**
 * The dashboard routes behind the Bearer gate: request statistics, the per-day history
 * for charts, and the paginated list of recent requests.
 *
 * The period starts (start of day, of the month, a week ago) are inputs, as instants.
 */
module Dashboard {
  import opened Wrappers
  import opened Js
  import opened BearerGate
  import opened Usage

  /** The user id the gate puts on the context, or the 401 it answers. */
  function Gate(authorization: Option<string>, verify: Verifier): (r: Result<string, Refusal>)
    ensures r.Ok? <==> Authenticate(authorization, verify).Ok?
    ensures r.Ok? ==> exists token :: authorization == Some(BearerPrefix + token)
                                      && verify(token).Some? && verify(token).value.userId == r.value
  {
    match Authenticate(authorization, verify)
    case Ok(payload) => Ok(payload.userId)
    case Err(refusal) => Err(refusal)
  }

  // ---------------------------------------------------------------------------------------
  // `/history`.

  /** One day of the history: `total` counts every row of the day, whatever its endpoint. */
  datatype HistoryDay = HistoryDay(date: string, extract: nat, generate: nat, total: nat)

  /** The user's rows from `start` on, in creation order. */
  function Since(ledger: Ledger, userId: string, start: int): seq<LogRow> {
    Select(ledger.rows, Recent(userId, start))
  }

  /** The filter `{ userId, createdAt: { gte: start } }`. */
  function Recent(userId: string, start: int): LogRow -> bool {
    (x: LogRow) => x.input.userId == userId && x.createdAt >= start
  }

  /** The filter `{ userId }`. */
  function Owned(userId: string): LogRow -> bool {
    (x: LogRow) => x.input.userId == userId
  }

  /** `/history`: one entry per date with rows since `start`, in order of first appearance. */
  function History(ledger: Ledger, userId: string, start: int): (h: seq<HistoryDay>)
    ensures var logs := Since(ledger, userId, start);
            && (forall i :: 0 <= i < |h| ==>
                  && h[i].total == CountOn(logs, h[i].date) > 0
                  && h[i].extract == CountEndpointOn(logs, h[i].date, "extract")
                  && h[i].generate == CountEndpointOn(logs, h[i].date, "generate"))
            && (forall i, j :: 0 <= i < j < |h| ==> h[i].date != h[j].date)
            && (forall d :: CountOn(logs, d) > 0 <==> exists i :: 0 <= i < |h| && h[i].date == d)
  {
    var logs := Since(ledger, userId, start);
    DaysCount(logs);
    Days(logs)
  }

  /** The history entries of the rows read, one per bucket. */
  function Days(logs: seq<LogRow>): seq<HistoryDay> {
    var b := Bucket(logs);
    BucketIsCount(logs);
    seq(|b.dates|, i requires 0 <= i < |b.dates| =>
      var c := b.counts[b.dates[i]];
      HistoryDay(b.dates[i], c.extract, c.generate, c.all))
  }

  /** Each entry counts its date's rows, per endpoint and in all; the dates are exactly those with rows, once each. */
  lemma DaysCount(logs: seq<LogRow>)
    ensures var h := Days(logs);
            && (forall i :: 0 <= i < |h| ==>
                  && h[i].total == CountOn(logs, h[i].date) > 0
                  && h[i].extract == CountEndpointOn(logs, h[i].date, "extract")
                  && h[i].generate == CountEndpointOn(logs, h[i].date, "generate"))
            && (forall i, j :: 0 <= i < j < |h| ==> h[i].date != h[j].date)
            && (forall d :: CountOn(logs, d) > 0 <==> exists i :: 0 <= i < |h| && h[i].date == d)
  {
    var b := Bucket(logs);
    var h := Days(logs);
    BucketIsCount(logs);
    forall d | CountOn(logs, d) > 0 ensures exists i :: 0 <= i < |h| && h[i].date == d {
      var i :| 0 <= i < |b.dates| && b.dates[i] == d;
      assert h[i].date == d;
    }
  }

  /** Sum of the history's daily totals. */
  function SumTotals(days: seq<HistoryDay>): nat {
    if days == [] then 0 else SumTotals(days[..|days| - 1]) + days[|days| - 1].total
  }

  /** The history totals are `SumAll` over the buckets, date by date. */
  lemma {:induction false} SumTotalsIsSumAll(b: Buckets, days: seq<HistoryDay>)
    requires forall d :: d in b.dates ==> d in b.counts
    requires |days| == |b.dates|
    requires forall i :: 0 <= i < |days| ==> days[i].total == b.counts[b.dates[i]].all
    ensures SumTotals(days) == SumAll(b.dates, b.counts)
    decreases |days|
  {
    if days != [] {
      var n := |days| - 1;
      SumTotalsIsSumAll(Buckets(b.dates[..n], b.counts), days[..n]);
    }
  }

  /**
   * Every row since `start` lands in exactly one day: the totals add up to the number of
   * rows, each day's extract and generate counts stay within its total, and no date repeats.
   */
  lemma HistoryAccountsForEveryRow(ledger: Ledger, userId: string, start: int)
    ensures var h := History(ledger, userId, start);
            var logs := Since(ledger, userId, start);
            && SumTotals(h) == |logs|
            && (forall i :: 0 <= i < |h| ==> h[i].extract + h[i].generate <= h[i].total)
            && (forall i :: 0 <= i < |h| ==> h[i].total == CountOn(logs, h[i].date) > 0)
            && (forall i, j :: 0 <= i < j < |h| ==> h[i].date != h[j].date)
  {
    var logs := Since(ledger, userId, start);
    var b := Bucket(logs);
    var h := History(ledger, userId, start);
    BucketIsCount(logs);
    BucketTotalsSumToRows(logs);
    SumTotalsIsSumAll(b, h);
    HistoryDaysWithinTotals(ledger, userId, start);
  }

  /** No day counts more extract and generate rows than it has rows. */
  lemma HistoryDaysWithinTotals(ledger: Ledger, userId: string, start: int)
    ensures var h := History(ledger, userId, start);
            forall i :: 0 <= i < |h| ==> h[i].extract + h[i].generate <= h[i].total
  {
    var logs := Since(ledger, userId, start);
    var h := History(ledger, userId, start);
    BucketIsCount(logs);
    forall i | 0 <= i < |h| ensures h[i].extract + h[i].generate <= h[i].total {
      TwoEndpointsWithinDay(logs, h[i].date, "extract", "generate");
    }
  }

  // ---------------------------------------------------------------------------------------
  // `/requests`.

  const MaxPageSize := 100

  datatype Pagination = Pagination(total: int, limit: int, offset: int, hasMore: bool)

  /** `limit = Math.min(requested, 100)` and `hasMore = offset + limit < total`. */
  function Paginate(requested: int, offset: int, total: nat): (p: Pagination)
    ensures p.limit <= MaxPageSize && (p.limit == requested || p.limit == MaxPageSize)
    ensures requested <= MaxPageSize ==> p.limit == requested
    ensures p.hasMore <==> p.offset + p.limit < total
    ensures p.total == total && p.offset == offset
  {
    var limit := if requested < MaxPageSize then requested else MaxPageSize;
    Pagination(total, limit, offset, offset + limit < total)
  }

  /** `parseInt`: the number a query value starts with, absent (NaN) when it starts with none. */
  type ParseInt = string -> Option<int>

  /** `orderBy: { createdAt: 'desc' }`: the rows, newest first. */
  function NewestFirst(rows: seq<LogRow>): (r: seq<LogRow>)
    ensures |r| == |rows|
    ensures forall i :: 0 <= i < |r| ==> r[i] == rows[|rows| - 1 - i]
  {
    if rows == [] then [] else [rows[|rows| - 1]] + NewestFirst(rows[..|rows| - 1])
  }

  /** `skip` then `take`: at most `take` rows from position `skip`, none past the end. */
  function Take(rows: seq<LogRow>, skip: nat, take: nat): (r: seq<LogRow>)
    ensures |r| == if skip >= |rows| then 0 else if skip + take < |rows| then take else |rows| - skip
    ensures forall i :: 0 <= i < |r| ==> r[i] == rows[skip + i]
  {
    if skip >= |rows| then [] else rows[skip..if skip + take < |rows| then skip + take else |rows|]
  }

  /** All of the user's rows, in creation order. */
  function Mine(ledger: Ledger, userId: string): seq<LogRow> {
    Select(ledger.rows, Owned(userId))
  }

  datatype RequestsPage = RequestsPage(logs: seq<LogRow>, pagination: Pagination)

  /**
   * `/requests`: the user's rows newest first, `offset` skipped and at most `limit` shown,
   * with the pagination facts. The query values default to "50" and "0" when missing or
   * empty. A value that is not a number, or is negative, is not a page the route serves.
   */
  function Requests(ledger: Ledger, userId: string, limit: Option<string>, offset: Option<string>, parse: ParseInt)
    : (r: Option<RequestsPage>)
    ensures var l, o := parse(OrElse(limit, "50")), parse(OrElse(offset, "0"));
            r.Some? <==> l.Some? && o.Some? && l.value >= 0 && o.value >= 0
    ensures r.Some? ==>
              var l, o := parse(OrElse(limit, "50")).value, parse(OrElse(offset, "0")).value;
              var mine := Mine(ledger, userId);
              && r.value.pagination == Paginate(l, o, |mine|)
              && r.value.pagination.total == |mine|
              && r.value.logs == Take(NewestFirst(mine), o, r.value.pagination.limit)
  {
    var l, o := parse(OrElse(limit, "50")), parse(OrElse(offset, "0"));
    if l.None? || o.None? || l.value < 0 || o.value < 0 then None
    else
      var mine := NewestFirst(Mine(ledger, userId));
      var p := Paginate(l.value, o.value, |mine|);
      Some(RequestsPage(Take(mine, o.value, p.limit), p))
  }

  /** `hasMore` tells the truth: it holds exactly when the next page, at `offset + limit`, is not empty. */
  lemma HasMoreMeansNextPage(rows: seq<LogRow>, requested: nat, offset: nat)
    requires requested > 0
    ensures var p := Paginate(requested, offset, |rows|);
            p.hasMore <==> |Take(rows, offset + p.limit, p.limit)| > 0
  {
  }

  /**
   * With no `limit` or `offset` in the query (or empty ones), and `parseInt` reading "50"
   * and "0" as those numbers, the page is the newest 50 rows, and more exist exactly when
   * the user has over 50.
   */
  lemma DefaultPage(ledger: Ledger, userId: string, limit: Option<string>, offset: Option<string>, parse: ParseInt)
    requires !Truthy(limit) && !Truthy(offset)
    requires parse("50") == Some(50) && parse("0") == Some(0)
    ensures var r := Requests(ledger, userId, limit, offset, parse);
            var mine := Mine(ledger, userId);
            && r.Some? && r.value.pagination.limit == 50 && r.value.pagination.offset == 0
            && |r.value.logs| == (if |mine| < 50 then |mine| else 50)
            && (forall i :: 0 <= i < |r.value.logs| ==> r.value.logs[i] == mine[|mine| - 1 - i])
            && (r.value.pagination.hasMore <==> |mine| > 50)
  {
    assert OrElse(limit, "50") == "50" && OrElse(offset, "0") == "0";
    var mine := Mine(ledger, userId);
    var page := Take(NewestFirst(mine), 0, 50);
    assert Requests(ledger, userId, limit, offset, parse) == Some(RequestsPage(page, Paginate(50, 0, |mine|)));
  }

  // ---------------------------------------------------------------------------------------
  // `/stats`.

  /** How many rows of `rows` have `endpoint`. */
  function CountEndpoint(rows: seq<LogRow>, endpoint: string): nat {
    if rows == [] then 0
    else CountEndpoint(rows[..|rows| - 1], endpoint) + (if rows[|rows| - 1].input.endpoint == endpoint then 1 else 0)
  }

  /** The `groupBy(['endpoint'])` answer: one count per endpoint that has rows. */
  function GroupByEndpoint(rows: seq<LogRow>): map<string, nat> {
    if rows == [] then map[]
    else
      var g := GroupByEndpoint(rows[..|rows| - 1]);
      var e := rows[|rows| - 1].input.endpoint;
      g[e := if e in g then g[e] + 1 else 1]
  }

  /** `groups.find(e => e.endpoint === name)?._count || 0`. */
  function Breakdown(groups: map<string, nat>, endpoint: string): nat {
    if endpoint in groups then groups[endpoint] else 0
  }

  /** An endpoint is grouped exactly when it has rows, with their number; so the breakdown is that number, 0 when none. */
  lemma {:induction false} BreakdownCounts(rows: seq<LogRow>, endpoint: string)
    ensures endpoint in GroupByEndpoint(rows) <==> CountEndpoint(rows, endpoint) > 0
    ensures Breakdown(GroupByEndpoint(rows), endpoint) == CountEndpoint(rows, endpoint)
  {
    if rows != [] {
      BreakdownCounts(rows[..|rows| - 1], endpoint);
    }
  }

  /** The cache hit rate: "0" when the month has no extract rows, else hits over hits plus misses (one decimal). */
  datatype HitRate = NoExtracts | HitRatio(hits: nat, lookups: nat)

  /** `cached` counts of the month's extract rows: the `cached: true` group and the `cached: false` group. */
  function CacheGroups(rows: seq<LogRow>): (nat, nat) {
    if rows == [] then (0, 0)
    else
      var (h, m) := CacheGroups(rows[..|rows| - 1]);
      var last := rows[|rows| - 1];
      if last.input.endpoint != "extract" then (h, m)
      else if last.input.cached then (h + 1, m) else (h, m + 1)
  }

  function HitRateOf(hits: nat, misses: nat): (r: HitRate)
    ensures r == NoExtracts <==> hits + misses == 0
    ensures r.HitRatio? ==> r.hits <= r.lookups && r.lookups == hits + misses && r.hits == hits
  {
    if hits + misses > 0 then HitRatio(hits, hits + misses) else NoExtracts
  }

  /** Hits and misses split the extract rows between them. */
  lemma {:induction false} CacheGroupsSplitExtracts(rows: seq<LogRow>)
    ensures CacheGroups(rows).0 + CacheGroups(rows).1 == CountEndpoint(rows, "extract")
  {
    if rows != [] {
      CacheGroupsSplitExtracts(rows[..|rows| - 1]);
    }
  }

  datatype Stats = Stats(today: nat, week: nat, month: nat, total: nat, avgLatencyMs: int,
                         hitRate: HitRate, extract: nat, generate: nat)

  /** The summed latency of `rows`. */
  function TotalLatency(rows: seq<LogRow>): int {
    if rows == [] then 0 else TotalLatency(rows[..|rows| - 1]) + rows[|rows| - 1].input.latencyMs
  }

  /** `Math.round(_avg.latencyMs || 0)`: the rounded mean latency, 0 when there are no rows. */
  function MeanLatency(rows: seq<LogRow>): (r: int)
    ensures rows == [] ==> r == 0
    ensures rows != [] ==>
              2 * TotalLatency(rows) - |rows| < 2 * r * |rows| <= 2 * TotalLatency(rows) + |rows|
  {
    if rows == [] then 0 else RoundedMean(TotalLatency(rows), |rows|)
  }

  /** Every latency of `rows` lies in `[lo, hi]`. */
  predicate LatenciesWithin(rows: seq<LogRow>, lo: int, hi: int) {
    forall i :: 0 <= i < |rows| ==> lo <= rows[i].input.latencyMs <= hi
  }

  /** The total of latencies that all lie in `[lo, hi]` lies between `n * lo` and `n * hi`. */
  lemma {:induction false} TotalLatencyWithin(rows: seq<LogRow>, lo: int, hi: int)
    requires LatenciesWithin(rows, lo, hi)
    ensures |rows| * lo <= TotalLatency(rows) <= |rows| * hi
  {
    if rows != [] {
      var init := rows[..|rows| - 1];
      assert LatenciesWithin(init, lo, hi) by {
        forall i | 0 <= i < |init| ensures lo <= init[i].input.latencyMs <= hi {
          assert init[i] == rows[i];
        }
      }
      TotalLatencyWithin(init, lo, hi);
      assert |rows| * lo == |init| * lo + lo;
      assert |rows| * hi == |init| * hi + hi;
    }
  }

  /** The mean of latencies that all lie in `[lo, hi]` lies there too. */
  lemma MeanLatencyWithin(rows: seq<LogRow>, lo: int, hi: int)
    requires rows != [] && LatenciesWithin(rows, lo, hi)
    ensures lo <= MeanLatency(rows) <= hi
  {
    TotalLatencyWithin(rows, lo, hi);
    RoundingStaysWithin(|rows|, MeanLatency(rows), TotalLatency(rows), lo, hi);
  }

  /** A sum between `n * lo` and `n * hi`, divided by `n` and rounded, lies in `[lo, hi]`. */
  lemma RoundingStaysWithin(n: int, r: int, t: int, lo: int, hi: int)
    requires n > 0 && n * lo <= t <= n * hi
    requires 2 * t - n < 2 * r * n <= 2 * t + n
    ensures lo <= r <= hi
  {
    ScaleKeepsOrder(r, hi + 1, n);
    ScaleKeepsOrder(lo - 1, r, n);
  }

  /** Multiplying by a non-negative factor keeps `>=`. */
  lemma ScaleKeepsOrder(a: int, b: int, n: int)
    requires n >= 0
    ensures a >= b ==> a * n >= b * n
  {
  }

  /** The user's rows since `start`, counted (a later start never counts more rows). */
  lemma {:induction false} LaterStartCountsFewer(rows: seq<LogRow>, userId: string, s1: int, s2: int)
    ensures s1 <= s2 ==> |Select(rows, Recent(userId, s2))| <= |Select(rows, Recent(userId, s1))|
  {
    if rows != [] {
      LaterStartCountsFewer(rows[..|rows| - 1], userId, s1, s2);
    }
  }

  /**
   * `/stats`: request counts per period; the month's endpoint breakdown, 0 for an endpoint
   * without rows; and the month's cache hit rate, "0" exactly when it has no extract rows.
   */
  function GetStats(ledger: Ledger, userId: string, startOfDay: int, startOfWeek: int, startOfMonth: int): (s: Stats)
    ensures var month := Since(ledger, userId, startOfMonth);
            && s.month == |month|
            && s.extract == CountEndpoint(month, "extract")
            && s.generate == CountEndpoint(month, "generate")
            && (s.hitRate == NoExtracts <==> CountEndpoint(month, "extract") == 0)
            && (s.hitRate.HitRatio? ==> s.hitRate.lookups == s.extract)
    ensures var month := Since(ledger, userId, startOfMonth);
            s.hitRate == HitRateOf(CacheGroups(month).0, CacheGroups(month).1)
    ensures s.today == |Since(ledger, userId, startOfDay)| && s.week == |Since(ledger, userId, startOfWeek)|
    ensures s.total == |Mine(ledger, userId)|
    ensures s.today == Tally(ledger.rows, Recent(userId, startOfDay))
    ensures s.week == Tally(ledger.rows, Recent(userId, startOfWeek))
    ensures s.month == Tally(ledger.rows, Recent(userId, startOfMonth))
    ensures s.total == Tally(ledger.rows, Owned(userId))
    ensures s.avgLatencyMs == MeanLatency(Since(ledger, userId, startOfDay))
    ensures startOfWeek <= startOfDay ==> s.today <= s.week
    ensures startOfMonth <= startOfWeek ==> s.week <= s.month
  {
    var month := Since(ledger, userId, startOfMonth);
    var groups := GroupByEndpoint(month);
    var (hits, misses) := CacheGroups(month);
    BreakdownCounts(month, "extract");
    BreakdownCounts(month, "generate");
    CacheGroupsSplitExtracts(month);
    LaterStartCountsFewer(ledger.rows, userId, startOfWeek, startOfDay);
    LaterStartCountsFewer(ledger.rows, userId, startOfMonth, startOfWeek);
    SelectSize(ledger.rows, Recent(userId, startOfDay));
    SelectSize(ledger.rows, Recent(userId, startOfWeek));
    SelectSize(ledger.rows, Recent(userId, startOfMonth));
    SelectSize(ledger.rows, Owned(userId));
    var today := Since(ledger, userId, startOfDay);
    Stats(
      |today|,
      |Since(ledger, userId, startOfWeek)|,
      |month|,
      |Mine(ledger, userId)|,
      MeanLatency(today),
      HitRateOf(hits, misses),
      Breakdown(groups, "extract"),
      Breakdown(groups, "generate"))
  }
}

=== FILE: error_handler.dfy ===
/**
 * The application-wide error handler: it turns an error no route caught into a JSON
 * answer, classifying validation failures, timeouts and unreachable URLs, and hiding the
 * message of anything else in production. Whether the server runs in production is an
 * input.
 */
module ErrorHandler {
  import opened Wrappers
  import opened Js
  import opened AppContext

  /** One validation detail: the field's path joined with "." and the validator's message. */
  datatype FieldIssue = FieldIssue(field: string, message: string)

  /**
   * The answer: its status, the `error` text (absent when the error has no message),
   * the optional hint, and the validation details.
   */
  datatype ErrorReply = ErrorReply(status: int, error: Option<string>, hint: Option<string>, details: seq<FieldIssue>)

  /** The four classes, tried in this order. */
  datatype Class = Validation | Timeout | Unreachable | Internal

  /** An error whose message contains "fetch failed"; an error without a message never does. */
  predicate FetchFailed(e: Thrown) {
    e.Failure? && e.message.Some? && Includes(e.message.value, "fetch failed")
  }

  /** The class of an error: the first of the four tests it passes. */
  function Classify(e: Thrown): (c: Class)
    ensures c == Validation <==> e.ValidationFailed?
    ensures c == Timeout <==> e.Failure? && e.name == "AbortError"
    ensures c == Unreachable <==> e.Failure? && e.name != "AbortError" && FetchFailed(e)
  {
    if e.ValidationFailed? then Validation
    else if e.name == "AbortError" then Timeout
    else if FetchFailed(e) then Unreachable
    else Internal
  }

  /** Each issue as a detail, in order. */
  function Details(issues: seq<Issue>): (d: seq<FieldIssue>)
    ensures |d| == |issues|
    ensures forall i :: 0 <= i < |d| ==> d[i] == FieldIssue(Join(issues[i].path, "."), issues[i].message)
  {
    seq(|issues|, i requires 0 <= i < |issues| => FieldIssue(Join(issues[i].path, "."), issues[i].message))
  }

  /** `errorHandler(err)`: one answer per class. */
  function HandleError(e: Thrown, production: bool): (r: ErrorReply)
    ensures Classify(e) == Validation ==>
              r == ErrorReply(400, Some("Validation error"), None, Details(e.issues))
    ensures Classify(e) == Timeout ==> r == ErrorReply(504, Some("Request timeout"), None, [])
    ensures Classify(e) == Unreachable ==>
              r == ErrorReply(502, Some("Failed to fetch URL"), Some("The URL may be unreachable or blocking requests"), [])
    ensures Classify(e) == Internal ==> r.status == 500 && r.hint.None? && r.details == []
    ensures Classify(e) == Internal && production ==> r.error == Some("Internal server error")
    ensures Classify(e) == Internal && !production ==> r.error == e.message
  {
    match Classify(e)
    case Validation => ErrorReply(400, Some("Validation error"), None, Details(e.issues))
    case Timeout => ErrorReply(504, Some("Request timeout"), None, [])
    case Unreachable =>
      ErrorReply(502, Some("Failed to fetch URL"), Some("The URL may be unreachable or blocking requests"), [])
    case Internal => ErrorReply(500, if production then Some("Internal server error") else e.message, None, [])
  }

  /** The status alone tells the class: the four answers never share a status. */
  lemma StatusDeterminesClass(e1: Thrown, e2: Thrown, p1: bool, p2: bool)
    ensures HandleError(e1, p1).status == HandleError(e2, p2).status <==> Classify(e1) == Classify(e2)
  {
  }

  /** Earlier tests win: a timeout whose message says "fetch failed" is still a timeout. */
  lemma TimeoutBeatsFetchFailure(production: bool)
    ensures HandleError(Failure("AbortError", Some("fetch failed"), None), production).status == 504
  {
  }

  /** A message mentioning "fetch failed" anywhere, not only at its start, is a 502. */
  lemma FetchFailedAnywhere(prefix: string, suffix: string, production: bool)
    ensures HandleError(Failure("TypeError", Some(prefix + "fetch failed" + suffix), None), production).status == 502
  {
    assert MatchAt(prefix + "fetch failed" + suffix, "fetch failed", |prefix|);
  }
}

=== FILE: extract_api.dfy ===
/**
 * The metadata extraction routes: `GET /` reads through the cache, falls back to the
 * extractor, writes a fresh result back, logs the request and shapes the answer; `POST
 * /batch` does the same for up to ten URLs, one result per URL in input order.
 *
 * Each call sees one cache environment, one fetch outcome per extraction, the elapsed
 * time and the usage-log outcome as inputs. The URL syntax check of the schema is an
 * input (`isUrl`). The batch's concurrent per-URL work is taken one URL after another.
 */
module ExtractApi {
  import opened Wrappers
  import opened Js
  import opened AppContext
  import opened Extractor
  import opened Cache
  import opened Usage
  import opened RequestLog

  // ---------------------------------------------------------------------------------------
  // Query parsing.

  /** The raw query parameters, each absent when not given. */
  datatype Query = Query(url: Option<string>, cache: Option<string>, fullResponse: Option<string>)

  datatype Params = Params(url: string, useCache: bool, fullResponse: bool)

  /**
   * The schema applied to `{url, cache: cache ?? "true", fullResponse: fullResponse ?? "false"}`:
   * the url must be present and a URL; both flags are `Boolean()` of their string.
   */
  function ParseQuery(q: Query, isUrl: string -> bool): (r: Result<Params, Thrown>)
    ensures r.Ok? <==> q.url.Some? && isUrl(q.url.value)
    ensures r.Ok? ==> r.value.url == q.url.value
    ensures r.Ok? ==> (r.value.useCache <==> q.cache != Some(""))
    ensures r.Ok? ==> (r.value.fullResponse <==> q.fullResponse != Some(""))
    ensures r.Err? ==> r.error.ValidationFailed? && |r.error.issues| == 1 && r.error.issues[0].path == ["url"]
  {
    var useCache := BooleanOf(if q.cache.Some? then q.cache.value else "true");
    var fullResponse := BooleanOf(if q.fullResponse.Some? then q.fullResponse.value else "false");
    match q.url
    case None => Err(ValidationFailed([Issue(["url"], "Required")]))
    case Some(u) =>
      if !isUrl(u) then Err(ValidationFailed([Issue(["url"], "Invalid URL format")]))
      else Ok(Params(u, useCache, fullResponse))
  }

  /** `Boolean()` coercion makes the string "false" true, and an absent `fullResponse` true as well. */
  lemma FlagsAreTruthyStrings(u: string, isUrl: string -> bool)
    requires isUrl(u)
    ensures var p := ParseQuery(Query(Some(u), Some("false"), Some("false")), isUrl);
            p.Ok? && p.value.useCache && p.value.fullResponse
    ensures var p := ParseQuery(Query(Some(u), None, None), isUrl);
            p.Ok? && p.value.useCache && p.value.fullResponse
    ensures var p := ParseQuery(Query(Some(u), Some(""), Some("")), isUrl);
            p.Ok? && !p.value.useCache && !p.value.fullResponse
  {
  }

  // ---------------------------------------------------------------------------------------
  // The answer.

  datatype OpenGraph = OpenGraph(
    title: Option<string>, description: Option<string>, image: Option<string>,
    siteName: Option<string>, pageType: Option<string>, locale: Option<string>)

  datatype TwitterCard = TwitterCard(
    card: Option<string>, site: Option<string>, creator: Option<string>,
    title: Option<string>, description: Option<string>, image: Option<string>)

  datatype PageMeta = PageMeta(favicon: Option<string>, themeColor: Option<string>, canonical: Option<string>)

  datatype ExtractData = ExtractData(
    url: string, openGraph: OpenGraph, twitterCard: TwitterCard, meta: PageMeta,
    raw: Option<map<string, string>>)

  /**
   * The `data` object: the requested URL, the Open Graph fields as found, the Twitter
   * card with each of title, description and image falling back to its Open Graph
   * counterpart when the Twitter value is absent or empty, and the raw tags only when
   * the full response is asked for and they exist.
   */
  function Shape(url: string, m: Metadata, fullResponse: bool): (d: ExtractData)
    ensures d.url == url
    ensures d.openGraph.title == m.title && d.openGraph.description == m.description && d.openGraph.image == m.image
    ensures Truthy(m.twitterTitle) ==> d.twitterCard.title == m.twitterTitle
    ensures !Truthy(m.twitterTitle) ==> d.twitterCard.title == m.title
    ensures Truthy(m.twitterDescription) ==> d.twitterCard.description == m.twitterDescription
    ensures !Truthy(m.twitterDescription) ==> d.twitterCard.description == m.description
    ensures Truthy(m.twitterImage) ==> d.twitterCard.image == m.twitterImage
    ensures !Truthy(m.twitterImage) ==> d.twitterCard.image == m.image
    ensures d.raw.Some? <==> fullResponse && m.rawMeta.Some?
    ensures d.raw.Some? ==> d.raw == m.rawMeta
  {
    ExtractData(
      url,
      OpenGraph(m.title, m.description, m.image, m.siteName, m.pageType, m.locale),
      TwitterCard(m.twitterCard, m.twitterSite, m.twitterCreator,
                  Or(m.twitterTitle, m.title), Or(m.twitterDescription, m.description), Or(m.twitterImage, m.image)),
      PageMeta(m.favicon, m.themeColor, m.canonical),
      if fullResponse && m.rawMeta.Some? then m.rawMeta else None)
  }

  /** Where the Twitter card has its own non-empty value, the Open Graph value is never used. */
  lemma TwitterValueWins(url: string, m: Metadata, fullResponse: bool, title: string)
    requires title != "" && m.twitterTitle == Some(title)
    ensures Shape(url, m, fullResponse).twitterCard.title == Some(title)
  {
  }

  /** The three answers of `GET /`: the extracted data, a 400 validation error, or a 500. */
  datatype Reply =
    | Extracted(cached: bool, latencyMs: int, data: ExtractData)
    | Invalid(issues: seq<Issue>)
    | Failed(message: string)
  {
    function Status(): int {
      match this
      case Extracted(_, _, _) => 200
      case Invalid(_) => 400
      case Failed(_) => 500
    }
  }

  datatype Outcome = Outcome(reply: Reply, store: Store, ledger: Ledger)

  /** `err.status || 500`. */
  function LoggedStatus(status: Option<int>): (s: int)
    ensures s == 500 || (status.Some? && s == status.value)
    ensures s != 0
  {
    if status.Some? && status.value != 0 then status.value else 500
  }

  /** The log row of one extraction, when a key is on the context. */
  function Log(ledger: Ledger, apiKey: Option<ApiKeyContext>, url: Option<string>, status: int,
               latency: int, cached: bool, client: Client, log: LogEnv): Ledger
  {
    Record(ledger, apiKey, "extract", url, status, latency, cached, client, log)
  }

  /**
   * The handler's `catch`: a validation failure is a 400 with its issues and is not
   * logged; anything else is logged with its own status (or 500) against the queried URL
   * and answered with a 500 carrying its message, or a fixed one when it has none.
   */
  function Catch(e: Thrown, q: Query, apiKey: Option<ApiKeyContext>, client: Client,
                 store: Store, ledger: Ledger, latency: int, log: LogEnv): (o: Outcome)
    ensures o.store == store
    ensures e.ValidationFailed? ==> o.reply == Invalid(e.issues) && o.ledger == ledger
    ensures e.Failure? ==> o.reply == Failed(OrElse(e.message, "Failed to extract metadata"))
    ensures e.Failure? ==> o.ledger == Log(ledger, apiKey, q.url, LoggedStatus(e.status), latency, false, client, log)
  {
    match e
    case ValidationFailed(issues) => Outcome(Invalid(issues), store, ledger)
    case Failure(_, message, status) =>
      Outcome(Failed(OrElse(message, "Failed to extract metadata")), store,
              Log(ledger, apiKey, q.url, LoggedStatus(status), latency, false, client, log))
  }

  /** The metadata a lookup found, when the flags let the cache be consulted. */
  function Lookup(env: Env, store: Store, p: Params): Option<Metadata> {
    if p.useCache then Get(env, store, p.url) else None
  }

  /**
   * `GET /`: parse the query; consult the cache when allowed; on a miss run the extractor
   * and, when the cache is allowed, write its result back; log the request; shape the
   * answer. Every thrown value goes to `Catch`.
   */
  function HandleExtract(q: Query, isUrl: string -> bool, apiKey: Option<ApiKeyContext>, client: Client,
                         env: Env, store: Store, fetched: Fetched, resolve: Resolver,
                         ledger: Ledger, latency: int, log: LogEnv): (o: Outcome)
    ensures ParseQuery(q, isUrl).Err? ==> o.reply.Status() == 400 && o.ledger == ledger && o.store == store
    ensures o.reply.Status() == 400 <==> o.reply.Invalid?
    ensures o.reply.Extracted? ==> ParseQuery(q, isUrl).Ok? && o.reply.data.url == q.url.value
  {
    match ParseQuery(q, isUrl)
    case Err(e) => Catch(e, q, apiKey, client, store, ledger, latency, log)
    case Ok(p) =>
      match Lookup(env, store, p)
      case Some(m) =>
        Outcome(Extracted(true, latency, Shape(p.url, m, p.fullResponse)), store,
                Log(ledger, apiKey, Some(p.url), 200, latency, true, client, log))
      case None =>
        match ExtractMetadata(p.url, fetched, resolve)
        case Err(e) => Catch(e, q, apiKey, client, store, ledger, latency, log)
        case Ok(m) =>
          var written := if p.useCache then Set(env, store, p.url, m) else store;
          Outcome(Extracted(false, latency, Shape(p.url, m, p.fullResponse)), written,
                  Log(ledger, apiKey, Some(p.url), 200, latency, false, client, log))
  }

  /**
   * `cached` is true exactly when the cache was allowed and found the URL; then the
   * answer is built from the cached value, the extractor is not consulted and nothing is
   * written. Otherwise the answer comes from the extractor.
   */
  lemma CachedMeansCacheHit(q: Query, isUrl: string -> bool, apiKey: Option<ApiKeyContext>, client: Client,
                            env: Env, store: Store, fetched: Fetched, resolve: Resolver,
                            ledger: Ledger, latency: int, log: LogEnv)
    requires ParseQuery(q, isUrl).Ok?
    ensures var p := ParseQuery(q, isUrl).value;
            var o := HandleExtract(q, isUrl, apiKey, client, env, store, fetched, resolve, ledger, latency, log);
            && (o.reply.Extracted? && o.reply.cached <==> p.useCache && Get(env, store, p.url).Some?)
            && (o.reply.Extracted? && o.reply.cached ==>
                  o.store == store && o.reply.data == Shape(p.url, Get(env, store, p.url).value, p.fullResponse))
            && (o.reply.Extracted? && !o.reply.cached ==>
                  ExtractMetadata(p.url, fetched, resolve).Ok?
                  && o.reply.data == Shape(p.url, ExtractMetadata(p.url, fetched, resolve).value, p.fullResponse))
  {
  }

  /**
   * The cache is written only after a fresh extraction and only when allowed; with the
   * cache not allowed, or on a failed extraction, the store is left as it was.
   */
  lemma WriteOnlyOnMiss(q: Query, isUrl: string -> bool, apiKey: Option<ApiKeyContext>, client: Client,
                        env: Env, store: Store, fetched: Fetched, resolve: Resolver,
                        ledger: Ledger, latency: int, log: LogEnv)
    requires ParseQuery(q, isUrl).Ok?
    ensures var p := ParseQuery(q, isUrl).value;
            var o := HandleExtract(q, isUrl, apiKey, client, env, store, fetched, resolve, ledger, latency, log);
            && (!p.useCache ==> o.store == store)
            && (o.reply.Failed? ==> o.store == store)
            && (p.useCache && Get(env, store, p.url).None? && ExtractMetadata(p.url, fetched, resolve).Ok? ==>
                  o.store == Set(env, store, p.url, ExtractMetadata(p.url, fetched, resolve).value))
  {
  }

  /**
   * A failure other than validation is always a 500, whatever status the error carries;
   * that status (or 500) only reaches the usage log, against the queried URL, not cached.
   */
  lemma FailureIsAlways500(q: Query, isUrl: string -> bool, apiKey: Option<ApiKeyContext>, client: Client,
                           env: Env, store: Store, message: Option<string>, status: int, resolve: Resolver,
                           ledger: Ledger, latency: int, log: LogEnv)
    requires ParseQuery(q, isUrl).Ok?
    requires !ParseQuery(q, isUrl).value.useCache
    requires status != 0
    ensures var e := Failure("TypeError", message, Some(status));
            var o := HandleExtract(q, isUrl, apiKey, client, env, store, FetchThrew(e), resolve, ledger, latency, log);
            && o.reply == Failed(OrElse(message, "Failed to extract metadata"))
            && o.reply.Status() == 500
            && o.ledger == Log(ledger, apiKey, q.url, status, latency, false, client, log)
  {
  }

  /** The row a successful extraction appends. */
  lemma LoggedRow(ledger: Ledger, k: ApiKeyContext, url: string, cached: bool, client: Client, latency: int, log: LogEnv)
    requires log.accepted >= 1
    ensures var r := Log(ledger, Some(k), Some(url), 200, latency, cached, client, log);
            && |r.rows| == |ledger.rows| + 1
            && var row := r.rows[|ledger.rows|].input;
            && row.status == 200 && row.endpoint == "extract" && row.url == Some(url)
            && row.cached == cached && row.apiKeyId == k.id && row.userId == k.userId
  {
  }

  /** A successful extraction with a key on the context is logged as a 200 for the parsed URL. */
  lemma SuccessIsLogged(q: Query, isUrl: string -> bool, k: ApiKeyContext, client: Client,
                        env: Env, store: Store, fetched: Fetched, resolve: Resolver,
                        ledger: Ledger, latency: int, log: LogEnv)
    requires log.accepted >= 1
    ensures var o := HandleExtract(q, isUrl, Some(k), client, env, store, fetched, resolve, ledger, latency, log);
            o.reply.Extracted? ==>
              && |o.ledger.rows| == |ledger.rows| + 1
              && var row := o.ledger.rows[|ledger.rows|].input;
              && row.status == 200 && row.endpoint == "extract" && row.url == q.url
              && row.cached == o.reply.cached && row.apiKeyId == k.id && row.userId == k.userId
  {
    var o := HandleExtract(q, isUrl, Some(k), client, env, store, fetched, resolve, ledger, latency, log);
    if o.reply.Extracted? {
      var p := ParseQuery(q, isUrl).value;
      if Lookup(env, store, p).Some? {
        assert o.ledger == Log(ledger, Some(k), Some(p.url), 200, latency, true, client, log);
        LoggedRow(ledger, k, p.url, true, client, latency, log);
      } else {
        assert o.ledger == Log(ledger, Some(k), Some(p.url), 200, latency, false, client, log);
        LoggedRow(ledger, k, p.url, false, client, latency, log);
      }
    }
  }

  // ---------------------------------------------------------------------------------------
  // `POST /batch`.

  const MaxBatch := 10

  /**
   * The request body: unreadable as JSON, or a `null` body whose `urls` cannot be read
   * (with the error's message); an object whose `urls` is not an array of strings, such as
   * `{"urls": "x"}` or `{"urls": [1]}`, with the issues the validator reports for it; or
   * an object with its `urls` member.
   */
  datatype BatchBody =
    | Unreadable(message: Option<string>)
    | Mistyped(issues: seq<Issue>)
    | Body(urls: Option<seq<string>>)

  /**
   * The array schema: `urls` must be present, hold at most ten entries, and each entry
   * must be a URL. Issues are reported in the validator's order: the length first, then
   * each bad entry by its index.
   */
  function ValidateUrls(urls: Option<seq<string>>, isUrl: string -> bool): (r: Result<seq<string>, Thrown>)
    ensures r.Ok? <==> urls.Some? && |urls.value| <= MaxBatch && forall i :: 0 <= i < |urls.value| ==> isUrl(urls.value[i])
    ensures r.Ok? ==> r.value == urls.value
    ensures r.Err? ==> r.error.ValidationFailed? && |r.error.issues| > 0
  {
    match urls
    case None => Err(ValidationFailed([Issue([], "Required")]))
    case Some(us) =>
      var tooMany := if |us| > MaxBatch then [Issue([], "Array must contain at most 10 element(s)")] else [];
      var bad := UrlIssues(us, isUrl, 0);
      if tooMany == [] && bad == [] then Ok(us) else Err(ValidationFailed(tooMany + bad))
  }

  /** One issue per entry of `us` that is not a URL, its path the entry's index (counted from `from`). */
  function UrlIssues(us: seq<string>, isUrl: string -> bool, from: nat): (r: seq<Issue>)
    ensures r == [] <==> forall i :: 0 <= i < |us| ==> isUrl(us[i])
    ensures |r| <= |us|
    decreases |us|
  {
    if us == [] then []
    else
      var rest := UrlIssues(us[1..], isUrl, from + 1);
      assert forall i :: 1 <= i < |us| ==> us[i] == us[1..][i - 1];
      if isUrl(us[0]) then rest else [Issue([Decimal(from)], "Invalid url")] + rest
  }

  /** One batch entry: the metadata (with where it came from), or the failure and the URL it was for. */
  datatype Item = Settled(url: string, meta: Metadata, cached: bool) | Rejected(url: string, error: Option<string>)

  /** What fetching the `i`-th URL of the batch produced. */
  type Fetcher = (nat, string) -> Fetched

  /**
   * One URL of the batch: a cache hit is returned as found; otherwise the extractor runs
   * and its result is written to the cache unconditionally. The entry's `url` is the
   * metadata's own `url` when it has one (the spread overrides it), else the requested URL.
   */
  function Settle(env: Env, store: Store, url: string, fetched: Fetched, resolve: Resolver): (r: (Item, Store))
    ensures r.0.Rejected? ==> r.0.url == url && r.1 == store
    ensures r.0.Settled? ==> r.0.url == r.0.meta.url.GetOr(url)
    ensures r.0.Settled? && r.0.cached <==> Get(env, store, url).Some?
    ensures r.0.Settled? && r.0.cached ==> r.0.meta == Get(env, store, url).value && r.1 == store
    ensures !(r.0.Settled? && r.0.cached) ==>
              (r.0.Rejected? <==> ExtractMetadata(url, fetched, resolve).Err?)
    ensures r.0.Settled? && !r.0.cached ==>
              && Ok(r.0.meta) == ExtractMetadata(url, fetched, resolve)
              && r.1 == Set(env, store, url, r.0.meta)
  {
    match Get(env, store, url)
    case Some(m) => (Settled(m.url.GetOr(url), m, true), store)
    case None =>
      match ExtractMetadata(url, fetched, resolve)
      case Err(e) => (Rejected(url, e.Message()), store)
      case Ok(m) => (Settled(m.url.GetOr(url), m, false), Set(env, store, url, m))
  }

  /**
   * What an entry says about its URL, whatever the cache held: a rejection names the URL
   * and comes from a failed extraction; a settled entry is named by its metadata's `url`
   * (or the URL), and when not cached it is exactly what the extractor produced.
   */
  predicate Fits(item: Item, url: string, fetched: Fetched, resolve: Resolver) {
    && (item.Rejected? ==> item.url == url && ExtractMetadata(url, fetched, resolve).Err?)
    && (item.Settled? ==> item.url == item.meta.url.GetOr(url))
    && (item.Settled? && !item.cached ==> ExtractMetadata(url, fetched, resolve) == Ok(item.meta))
  }

  lemma SettleFits(env: Env, store: Store, url: string, fetched: Fetched, resolve: Resolver)
    ensures Fits(Settle(env, store, url, fetched, resolve).0, url, fetched, resolve)
  {
  }

  /** The batch's entries, the `i`-th URL being URL number `from + i`, each seeing the cache the earlier ones left. */
  function SettleAll(env: Env, store: Store, urls: seq<string>, fetch: Fetcher, resolve: Resolver, from: nat): (r: (seq<Item>, Store))
    ensures |r.0| == |urls|
    ensures forall i :: 0 <= i < |urls| ==> Fits(r.0[i], urls[i], fetch(from + i, urls[i]), resolve)
    decreases |urls|
  {
    if urls == [] then ([], store)
    else
      var first := Settle(env, store, urls[0], fetch(from, urls[0]), resolve);
      SettleFits(env, store, urls[0], fetch(from, urls[0]), resolve);
      var rest := SettleAll(env, first.1, urls[1..], fetch, resolve, from + 1);
      var fits := (it: Item, k: nat, u: string) => Fits(it, u, fetch(k, u), resolve);
      ConsFits(first.0, rest.0, urls, from, fits);
      ([first.0] + rest.0, rest.1)
  }

  /** A property holding of the first entry and, shifted by one, of the rest holds of every entry. */
  lemma ConsFits(item: Item, rest: seq<Item>, urls: seq<string>, from: nat, fits: (Item, nat, string) -> bool)
    requires |urls| > 0 && |rest| == |urls| - 1
    requires fits(item, from, urls[0])
    requires forall i :: 0 <= i < |rest| ==> fits(rest[i], from + 1 + i, urls[1..][i])
    ensures forall i :: 0 <= i < |urls| ==> fits(([item] + rest)[i], from + i, urls[i])
  {
    forall i | 0 <= i < |urls|
      ensures fits(([item] + rest)[i], from + i, urls[i])
    {
      if i > 0 {
        assert ([item] + rest)[i] == rest[i - 1];
        assert urls[i] == urls[1..][i - 1];
        assert from + i == from + 1 + (i - 1);
      }
    }
  }

  /** The answers of `POST /batch`: the entries (the envelope succeeds whatever they hold), a 400, or a 500. */
  datatype BatchReply =
    | Batch(latencyMs: int, items: seq<Item>)
    | BatchInvalid(issues: seq<Issue>)
    | BatchFailed(message: string)
  {
    function Status(): int {
      match this
      case Batch(_, _) => 200
      case BatchInvalid(_) => 400
      case BatchFailed(_) => 500
    }
  }

  /** `POST /batch`: validate the URLs, settle each in turn, and answer the entries in input order. */
  function HandleBatch(body: BatchBody, isUrl: string -> bool, env: Env, store: Store,
                       fetch: Fetcher, resolve: Resolver, latency: int): (r: (BatchReply, Store))
    ensures body.Unreadable? ==> r.0 == BatchFailed(OrElse(body.message, "Batch extraction failed")) && r.1 == store
    ensures body.Body? ==>
              (r.0.Status() == 400 <==>
                 body.urls.None? || |body.urls.value| > MaxBatch || exists i :: 0 <= i < |body.urls.value| && !isUrl(body.urls.value[i]))
    ensures body.Mistyped? ==> r.0 == BatchInvalid(body.issues) && r.1 == store
    ensures r.0.Status() == 400 ==> r.1 == store
    ensures r.0.Batch? ==> body.Body? && body.urls.Some? && |r.0.items| == |body.urls.value| <= MaxBatch
    ensures r.0.Batch? ==> forall i :: 0 <= i < |r.0.items| && r.0.items[i].Rejected? ==> r.0.items[i].url == body.urls.value[i]
  {
    match body
    case Unreadable(message) => (BatchFailed(OrElse(message, "Batch extraction failed")), store)
    case Mistyped(issues) => (BatchInvalid(issues), store)
    case Body(urls) =>
      match ValidateUrls(urls, isUrl)
      case Err(e) => (BatchInvalid(e.issues), store)
      case Ok(us) =>
        var (items, last) := SettleAll(env, store, us, fetch, resolve, 0);
        (Batch(latency, items), last)
  }

  /** Ten valid URLs are accepted and eleven are refused, whatever they are. */
  lemma BatchSizeBound(us: seq<string>, isUrl: string -> bool, env: Env, store: Store,
                       fetch: Fetcher, resolve: Resolver, latency: int)
    requires forall i :: 0 <= i < |us| ==> isUrl(us[i])
    ensures |us| <= 10 ==> HandleBatch(Body(Some(us)), isUrl, env, store, fetch, resolve, latency).0.Batch?
    ensures |us| == 11 ==> HandleBatch(Body(Some(us)), isUrl, env, store, fetch, resolve, latency).0.Status() == 400
  {
  }
}

=== FILE: extractor.dfy ===
/**
 * The metadata extractor: fetch a page, insist on an HTML answer, and read OpenGraph,
 * Twitter Card and general `<meta>`/`<link>` values out of it.
 *
 * The HTML parser is replaced by its result: a `Page` lists the `<meta>` and `<link>`
 * elements in document order with their attributes, and the text of `<title>`. The
 * network answer and URL resolution (`new URL(ref, base).href`) are inputs.
 */
module Extractor {
  import opened Wrappers
  import opened Js
  import opened AppContext

  /** Everything the extractor can report about a page; every field may be absent. */
  datatype Metadata = Metadata(
    // OpenGraph
    title: Option<string>,
    description: Option<string>,
    image: Option<string>,
    siteName: Option<string>,
    pageType: Option<string>,
    locale: Option<string>,
    url: Option<string>,
    // Twitter Card
    twitterCard: Option<string>,
    twitterSite: Option<string>,
    twitterCreator: Option<string>,
    twitterTitle: Option<string>,
    twitterDescription: Option<string>,
    twitterImage: Option<string>,
    // General
    favicon: Option<string>,
    themeColor: Option<string>,
    canonical: Option<string>,
    author: Option<string>,
    keywords: Option<string>,
    // Every named meta tag, by name
    rawMeta: Option<map<string, string>>)

  /** One element of the parsed page, with its attributes. */
  datatype Element = Element(attrs: map<string, string>)

  /** `$el.attr(name)`. */
  function Attr(e: Element, name: string): Option<string> {
    if name in e.attrs then Some(e.attrs[name]) else None
  }

  /** What the extractor reads from a parsed page. */
  datatype Page = Page(metas: seq<Element>, links: seq<Element>, titleText: string)

  /** An attribute-equality selector, `tag[attr="value"]`. */
  datatype Selector = Selector(attr: string, value: string)

  predicate Matches(e: Element, sel: Selector) {
    Attr(e, sel.attr) == Some(sel.value)
  }

  /** The position of the first element the selector matches. */
  function FirstMatch(elems: seq<Element>, sel: Selector): (r: Option<nat>)
    ensures r.Some? ==> r.value < |elems| && Matches(elems[r.value], sel)
    ensures r.Some? ==> forall j :: 0 <= j < r.value ==> !Matches(elems[j], sel)
    ensures r.None? ==> forall j :: 0 <= j < |elems| ==> !Matches(elems[j], sel)
    decreases |elems|
  {
    if elems == [] then None
    else if Matches(elems[0], sel) then Some(0)
    else
      match FirstMatch(elems[1..], sel)
      case None => None
      case Some(k) => Some(k + 1)
  }

  /**
   * `$(selector).attr(name)`: the attribute of the FIRST matching element only; a later
   * match is never consulted, even when the first one lacks the attribute.
   */
  function FirstAttr(elems: seq<Element>, sel: Selector, name: string): Option<string> {
    match FirstMatch(elems, sel)
    case None => None
    case Some(k) => Attr(elems[k], name)
  }

  /** The `content` attribute a meta selector yields. */
  function Content(page: Page, sel: Selector): Option<string> {
    FirstAttr(page.metas, sel, "content")
  }

  /** The position of the first selector whose content is a non-empty string. */
  function FirstYield(page: Page, sels: seq<Selector>): (r: Option<nat>)
    ensures r.Some? ==> r.value < |sels| && Truthy(Content(page, sels[r.value]))
    ensures r.Some? ==> forall j :: 0 <= j < r.value ==> !Truthy(Content(page, sels[j]))
    ensures r.None? ==> forall j :: 0 <= j < |sels| ==> !Truthy(Content(page, sels[j]))
    decreases |sels|
  {
    if sels == [] then None
    else if Truthy(Content(page, sels[0])) then Some(0)
    else
      match FirstYield(page, sels[1..])
      case None => None
      case Some(k) => Some(k + 1)
  }

  /** A value with no white space at either end. */
  predicate Trimmed(s: string) {
    s == [] || (!IsSpace(s[0]) && !IsSpace(s[|s| - 1]))
  }

  /**
   * `getMeta(selectors)`: the trimmed content of the first selector whose content is a
   * non-empty string; absent when no selector yields one.
   */
  function GetMeta(page: Page, sels: seq<Selector>): (r: Option<string>)
    ensures r.Some? <==> FirstYield(page, sels).Some?
    ensures r.Some? ==> r.value == Trim(Content(page, sels[FirstYield(page, sels).value]).value)
    ensures r.Some? ==> Trimmed(r.value)
    decreases |sels|
  {
    if sels == [] then None
    else if Truthy(Content(page, sels[0])) then Yield(page, sels[0])
    else
      var rest := GetMeta(page, sels[1..]);
      FirstYieldTail(page, sels);
      rest
  }

  /** Past a selector that yields nothing, the first yield is found in the rest. */
  lemma FirstYieldTail(page: Page, sels: seq<Selector>)
    requires sels != [] && !Truthy(Content(page, sels[0]))
    ensures FirstYield(page, sels).Some? <==> FirstYield(page, sels[1..]).Some?
    ensures FirstYield(page, sels).Some? ==>
              sels[FirstYield(page, sels).value] == sels[1..][FirstYield(page, sels[1..]).value]
  {
  }

  /** The trimmed content of one selector, when it yields a non-empty string. */
  function Yield(page: Page, sel: Selector): (r: Option<string>)
    requires Truthy(Content(page, sel))
    ensures r.Some? && r.value == Trim(Content(page, sel).value) && Trimmed(r.value)
  {
    Some(Trim(Content(page, sel).value))
  }

  // ---------------------------------------------------------------------------------------
  // The raw meta map.

  /** `name || property || itemprop`. */
  function NameOf(e: Element): Option<string> {
    Or(Or(Attr(e, "name"), Attr(e, "property")), Attr(e, "itemprop"))
  }

  /** The element writes `rawMeta[key]`: its name is `key` and both name and content are non-empty. */
  predicate Writes(e: Element, key: string) {
    Truthy(NameOf(e)) && NameOf(e).value == key && Truthy(Attr(e, "content"))
  }

  /** The `rawMeta` record: the meta tags folded in document order, a later tag overwriting an earlier one. */
  function CollectRaw(metas: seq<Element>): map<string, string>
    decreases |metas|
  {
    if metas == [] then map[]
    else
      var before := CollectRaw(metas[..|metas| - 1]);
      var last := metas[|metas| - 1];
      if Truthy(NameOf(last)) && Truthy(Attr(last, "content")) then before[NameOf(last).value := Attr(last, "content").value]
      else before
  }

  /** The tag at `i` is the last one that writes `key`. */
  predicate LastWriter(metas: seq<Element>, key: string, i: nat) {
    i < |metas| && Writes(metas[i], key) && forall j :: i < j < |metas| ==> !Writes(metas[j], key)
  }

  /**
   * `rawMeta` has one entry per name some meta tag writes, holding the untrimmed content
   * of the LAST tag that writes it.
   */
  lemma {:induction false} CollectRawLastWins(metas: seq<Element>, key: string)
    ensures key in CollectRaw(metas) <==> exists i :: 0 <= i < |metas| && Writes(metas[i], key)
    ensures key in CollectRaw(metas) ==>
              exists i: nat :: LastWriter(metas, key, i) && CollectRaw(metas)[key] == Attr(metas[i], "content").value
    decreases |metas|
  {
    if metas != [] {
      var init := metas[..|metas| - 1];
      var n := |metas| - 1;
      var last := metas[n];
      CollectRawLastWins(init, key);
      assert forall i :: 0 <= i < |init| ==> init[i] == metas[i];
      if Writes(last, key) {
        assert LastWriter(metas, key, n);
      } else if key in CollectRaw(init) {
        var i: nat :| LastWriter(init, key, i) && CollectRaw(init)[key] == Attr(init[i], "content").value;
        assert LastWriter(metas, key, i);
      } else {
        assert !(exists i :: 0 <= i < n && Writes(metas[i], key));
      }
    }
  }

  // ---------------------------------------------------------------------------------------
  // Resolving references.

  /** `new URL(ref, base).href`, absent when the constructor throws. */
  type Resolver = (string, string) -> Option<string>

  /**
   * `resolveUrl`: absent stays absent, an empty reference becomes absent, a reference
   * starting with `http` is kept verbatim, anything else is resolved against the page URL.
   */
  function ResolveUrl(ref: Option<string>, base: string, resolve: Resolver): (r: Option<string>)
    ensures r.Some? ==> Truthy(ref)
    ensures r.Some? ==> StartsWith(r.value, "http") || r == resolve(ref.value, base)
    ensures Truthy(ref) && StartsWith(ref.value, "http") ==> r == ref
    ensures Truthy(ref) && !StartsWith(ref.value, "http") ==> r == resolve(ref.value, base)
  {
    if !Truthy(ref) then None
    else if StartsWith(ref.value, "http") then ref
    else resolve(ref.value, base)
  }

  /** `$('link[rel="…"]').attr('href')`. */
  function LinkHref(page: Page, rel: string): Option<string> {
    FirstAttr(page.links, Selector("rel", rel), "href")
  }

  /**
   * The favicon: the first non-empty of the `icon`, `shortcut icon` and `apple-touch-icon`
   * hrefs, resolved against the page when it does not start with `http`.
   */
  function Favicon(page: Page, base: string, resolve: Resolver): (r: Option<string>)
    ensures var found := Or(Or(LinkHref(page, "icon"), LinkHref(page, "shortcut icon")), LinkHref(page, "apple-touch-icon"));
            && (Truthy(found) && !StartsWith(found.value, "http") ==> r == resolve(found.value, base))
            && (Truthy(found) && StartsWith(found.value, "http") ==> r == found)
            && (!Truthy(found) ==> r == LinkHref(page, "apple-touch-icon"))
  {
    var found := Or(Or(LinkHref(page, "icon"), LinkHref(page, "shortcut icon")), LinkHref(page, "apple-touch-icon"));
    if Truthy(found) && !StartsWith(found.value, "http") then resolve(found.value, base) else found
  }

  // ---------------------------------------------------------------------------------------
  // Reading a page.

  /** `getMeta(['meta[property="…"]'])`. */
  function Og(page: Page, property: string): Option<string> {
    GetMeta(page, [Selector("property", property)])
  }

  /** `getMeta(['meta[name="…"]'])`. */
  function Named(page: Page, name: string): Option<string> {
    GetMeta(page, [Selector("name", name)])
  }

  function OgImage(page: Page): Option<string> {
    GetMeta(page, [Selector("property", "og:image"), Selector("property", "og:image:url")])
  }

  function TwitterImage(page: Page): Option<string> {
    GetMeta(page, [Selector("name", "twitter:image"), Selector("name", "twitter:image:src")])
  }

  /** `og:title || twitter:title || <title> text trimmed || meta[name=title]`. */
  function Title(page: Page): Option<string> {
    Or(Or(Or(Og(page, "og:title"), Named(page, "twitter:title")), Some(Trim(page.titleText))), Named(page, "title"))
  }

  /** `og:description || twitter:description || meta[name=description] || meta[itemprop=description]`. */
  function Description(page: Page): Option<string> {
    Or(Or(Og(page, "og:description"), Named(page, "twitter:description")),
       GetMeta(page, [Selector("name", "description"), Selector("itemprop", "description")]))
  }

  /** `parseHtml`: the metadata of a parsed page fetched from `base`. */
  function ParseHtml(page: Page, base: string, resolve: Resolver): (m: Metadata)
    ensures m.url.Some? && m.rawMeta.Some?
    ensures m.rawMeta.value == CollectRaw(page.metas)
    ensures Truthy(Og(page, "og:url")) ==> m.url == Og(page, "og:url")
    ensures !Truthy(Og(page, "og:url")) ==> m.url == Some(base)
    ensures Truthy(OgImage(page)) ==> m.image == ResolveUrl(OgImage(page), base, resolve)
    ensures !Truthy(OgImage(page)) ==> m.image == ResolveUrl(TwitterImage(page), base, resolve)
    ensures m.image.Some? ==> Truthy(OgImage(page)) || Truthy(TwitterImage(page))
    ensures m.twitterImage.Some? ==> Truthy(TwitterImage(page))
    ensures !Truthy(OgImage(page)) ==> m.image == m.twitterImage
    ensures m.canonical == LinkHref(page, "canonical")
    ensures m.twitterImage == ResolveUrl(TwitterImage(page), base, resolve)
    ensures m.title == Title(page) && m.description == Description(page)
    ensures m.favicon == Favicon(page, base, resolve)
    ensures m.siteName == Og(page, "og:site_name") && m.pageType == Og(page, "og:type") &&
            m.locale == Og(page, "og:locale")
    ensures m.twitterCard == Named(page, "twitter:card") && m.twitterSite == Named(page, "twitter:site") &&
            m.twitterCreator == Named(page, "twitter:creator")
    ensures m.twitterTitle == Named(page, "twitter:title") &&
            m.twitterDescription == Named(page, "twitter:description")
    ensures m.themeColor == Named(page, "theme-color") && m.author == Named(page, "author") &&
            m.keywords == Named(page, "keywords")
  {
    var twitterImage := TwitterImage(page);
    Metadata(
      title := Title(page),
      description := Description(page),
      image := ResolveUrl(Or(OgImage(page), twitterImage), base, resolve),
      siteName := Og(page, "og:site_name"),
      pageType := Og(page, "og:type"),
      locale := Og(page, "og:locale"),
      url := Some(OrElse(Og(page, "og:url"), base)),
      twitterCard := Named(page, "twitter:card"),
      twitterSite := Named(page, "twitter:site"),
      twitterCreator := Named(page, "twitter:creator"),
      twitterTitle := Named(page, "twitter:title"),
      twitterDescription := Named(page, "twitter:description"),
      twitterImage := ResolveUrl(twitterImage, base, resolve),
      favicon := Favicon(page, base, resolve),
      themeColor := Named(page, "theme-color"),
      canonical := LinkHref(page, "canonical"),
      author := Named(page, "author"),
      keywords := Named(page, "keywords"),
      rawMeta := Some(CollectRaw(page.metas)))
  }

  /** Title and description never carry white space at either end, whichever source supplied them. */
  lemma TitleAndDescriptionTrimmed(page: Page)
    ensures Title(page).Some? ==> Trimmed(Title(page).value)
    ensures Description(page).Some? ==> Trimmed(Description(page).value)
  {
    var title := Title(page);
    assert title.Some? ==> title in {Og(page, "og:title"), Named(page, "twitter:title"),
                                     Some(Trim(page.titleText)), Named(page, "title")};
    var description := Description(page);
    assert description.Some? ==> description in {Og(page, "og:description"), Named(page, "twitter:description"),
                                                  GetMeta(page, [Selector("name", "description"), Selector("itemprop", "description")])};
  }

  /** Element `i` is the first `<meta>` the selector matches. */
  predicate FirstTag(page: Page, sel: Selector, i: nat) {
    && i < |page.metas| && Matches(page.metas[i], sel)
    && forall j :: 0 <= j < i ==> !Matches(page.metas[j], sel)
  }

  /** No `<meta>` matches the selector. */
  predicate NoTag(page: Page, sel: Selector) {
    forall j :: 0 <= j < |page.metas| ==> !Matches(page.metas[j], sel)
  }

  /** The content of the first `<meta>` element `i`, which is there and not blank once trimmed. */
  predicate NonBlankContent(page: Page, i: nat) {
    i < |page.metas| && Truthy(Attr(page.metas[i], "content")) && Trim(Attr(page.metas[i], "content").value) != ""
  }

  function TrimmedContent(page: Page, i: nat): string
    requires NonBlankContent(page, i)
  {
    Trim(Attr(page.metas[i], "content").value)
  }

  /** A one-selector `getMeta` yields the trimmed content of the first tag it matches. */
  lemma TagYields(page: Page, sel: Selector, i: nat)
    requires FirstTag(page, sel, i) && NonBlankContent(page, i)
    ensures GetMeta(page, [sel]) == Some(TrimmedContent(page, i)) && Truthy(GetMeta(page, [sel]))
  {
    FirstContent(page, sel, i);
    assert [sel][0] == sel;
  }

  /** The content a selector yields is that of the first tag it matches. */
  lemma FirstContent(page: Page, sel: Selector, i: nat)
    requires FirstTag(page, sel, i)
    ensures Content(page, sel) == Attr(page.metas[i], "content")
  {
    var first := FirstMatch(page.metas, sel);
    assert first.Some? && first.value == i;
  }

  /** A one-selector `getMeta` that matches no tag yields nothing. */
  lemma NoTagYieldsNothing(page: Page, sel: Selector)
    requires NoTag(page, sel)
    ensures GetMeta(page, [sel]) == None
  {
    assert FirstMatch(page.metas, sel).None?;
    assert [sel][0] == sel;
  }

  /** The first `og:title` tag with non-blank content decides the title, whatever else the page says. */
  lemma OpenGraphTitleWins(page: Page, base: string, resolve: Resolver, i: nat)
    requires FirstTag(page, Selector("property", "og:title"), i) && NonBlankContent(page, i)
    ensures ParseHtml(page, base, resolve).title == Some(TrimmedContent(page, i))
  {
    TagYields(page, Selector("property", "og:title"), i);
  }

  /** With no `og:title` tag, the first `twitter:title` tag with non-blank content decides the title. */
  lemma TwitterTitleIsSecond(page: Page, base: string, resolve: Resolver, i: nat)
    requires NoTag(page, Selector("property", "og:title"))
    requires FirstTag(page, Selector("name", "twitter:title"), i) && NonBlankContent(page, i)
    ensures ParseHtml(page, base, resolve).title == Some(TrimmedContent(page, i))
  {
    NoTagYieldsNothing(page, Selector("property", "og:title"));
    TagYields(page, Selector("name", "twitter:title"), i);
  }

  /** With no OpenGraph or Twitter title, a non-blank `<title>` gives the title, trimmed. */
  lemma TitleElementIsFallback(page: Page, base: string, resolve: Resolver)
    requires NoTag(page, Selector("property", "og:title"))
    requires NoTag(page, Selector("name", "twitter:title"))
    requires Trim(page.titleText) != ""
    ensures ParseHtml(page, base, resolve).title == Some(Trim(page.titleText))
  {
    NoTagYieldsNothing(page, Selector("property", "og:title"));
    NoTagYieldsNothing(page, Selector("name", "twitter:title"));
  }

  /**
   * Only when the OpenGraph and Twitter titles are missing and `<title>` is blank does
   * `meta[name="title"]` give the title.
   */
  lemma NamedTitleIsLast(page: Page, base: string, resolve: Resolver, i: nat)
    requires NoTag(page, Selector("property", "og:title"))
    requires NoTag(page, Selector("name", "twitter:title"))
    requires Trim(page.titleText) == ""
    requires FirstTag(page, Selector("name", "title"), i) && NonBlankContent(page, i)
    ensures ParseHtml(page, base, resolve).title == Some(TrimmedContent(page, i))
  {
    NoTagYieldsNothing(page, Selector("property", "og:title"));
    NoTagYieldsNothing(page, Selector("name", "twitter:title"));
    TagYields(page, Selector("name", "title"), i);
  }

  /** The first `og:description` tag with non-blank content decides the description. */
  lemma OpenGraphDescriptionWins(page: Page, base: string, resolve: Resolver, i: nat)
    requires FirstTag(page, Selector("property", "og:description"), i) && NonBlankContent(page, i)
    ensures ParseHtml(page, base, resolve).description == Some(TrimmedContent(page, i))
  {
    TagYields(page, Selector("property", "og:description"), i);
  }

  /** With no `og:description` tag, the first non-blank `twitter:description` decides it. */
  lemma TwitterDescriptionIsSecond(page: Page, base: string, resolve: Resolver, i: nat)
    requires NoTag(page, Selector("property", "og:description"))
    requires FirstTag(page, Selector("name", "twitter:description"), i) && NonBlankContent(page, i)
    ensures ParseHtml(page, base, resolve).description == Some(TrimmedContent(page, i))
  {
    NoTagYieldsNothing(page, Selector("property", "og:description"));
    TagYields(page, Selector("name", "twitter:description"), i);
  }

  /** With neither, the first non-blank `meta[name="description"]` decides it. */
  lemma NamedDescriptionIsThird(page: Page, base: string, resolve: Resolver, i: nat)
    requires NoTag(page, Selector("property", "og:description"))
    requires NoTag(page, Selector("name", "twitter:description"))
    requires FirstTag(page, Selector("name", "description"), i) && NonBlankContent(page, i)
    ensures ParseHtml(page, base, resolve).description == Some(TrimmedContent(page, i))
  {
    NoTagYieldsNothing(page, Selector("property", "og:description"));
    NoTagYieldsNothing(page, Selector("name", "twitter:description"));
    var sels := [Selector("name", "description"), Selector("itemprop", "description")];
    FirstContent(page, sels[0], i);
    assert GetMeta(page, sels) == Yield(page, sels[0]);
  }

  /** With none of those three, the first non-blank `meta[itemprop="description"]` decides it. */
  lemma ItempropDescriptionIsLast(page: Page, base: string, resolve: Resolver, i: nat)
    requires NoTag(page, Selector("property", "og:description"))
    requires NoTag(page, Selector("name", "twitter:description"))
    requires NoTag(page, Selector("name", "description"))
    requires FirstTag(page, Selector("itemprop", "description"), i) && NonBlankContent(page, i)
    ensures ParseHtml(page, base, resolve).description == Some(TrimmedContent(page, i))
  {
    NoTagYieldsNothing(page, Selector("property", "og:description"));
    NoTagYieldsNothing(page, Selector("name", "twitter:description"));
    var sels := [Selector("name", "description"), Selector("itemprop", "description")];
    assert FirstMatch(page.metas, sels[0]).None?;
    assert sels[1..] == [Selector("itemprop", "description")];
    TagYields(page, Selector("itemprop", "description"), i);
    assert GetMeta(page, sels) == GetMeta(page, sels[1..]);
  }

  /** A page with no `og:url` reports the URL it was fetched from. */
  lemma UrlDefaultsToFetchedUrl(page: Page, base: string, resolve: Resolver)
    requires NoTag(page, Selector("property", "og:url"))
    ensures ParseHtml(page, base, resolve).url == Some(base)
  {
    NoTagYieldsNothing(page, Selector("property", "og:url"));
  }

  // ---------------------------------------------------------------------------------------
  // Fetching.

  /**
   * What `fetch` produced: a response (after following redirects) with its status, the
   * `content-type` header and the parsed body; or a thrown error (an `AbortError` once
   * the 10-second abort has fired, or a network failure).
   */
  datatype Fetched =
    | Response(ok: bool, status: int, statusText: string, contentType: Option<string>, page: Page)
    | FetchThrew(error: Thrown)

  /** The content type is one the extractor reads. */
  predicate IsHtml(contentType: Option<string>) {
    var ct := OrElse(contentType, "");
    Includes(ct, "text/html") || Includes(ct, "application/xhtml")
  }

  /**
   * `extractMetadata(url)`: a non-2xx status and a non-HTML content type are errors with
   * fixed messages; an error thrown by `fetch` propagates unchanged; otherwise the page
   * is parsed against `url`.
   */
  function ExtractMetadata(url: string, fetched: Fetched, resolve: Resolver): (r: Result<Metadata, Thrown>)
    ensures fetched.FetchThrew? ==> r == Err(fetched.error)
    ensures fetched.Response? && !fetched.ok ==>
              r == Err(Thrown.Plain("HTTP " + Decimal(fetched.status) + ": " + fetched.statusText))
    ensures fetched.Response? && fetched.ok && !IsHtml(fetched.contentType) ==>
              r == Err(Thrown.Plain("URL does not return HTML content"))
    ensures r.Ok? <==> fetched.Response? && fetched.ok && IsHtml(fetched.contentType)
    ensures r.Ok? ==> r.value.url.Some? && r.value.rawMeta.Some?
    ensures r.Ok? ==> r.value == ParseHtml(fetched.page, url, resolve)
  {
    match fetched
    case FetchThrew(e) => Err(e)
    case Response(ok, status, statusText, contentType, page) =>
      if !ok then Err(Thrown.Plain("HTTP " + Decimal(status) + ": " + statusText))
      else if !IsHtml(contentType) then Err(Thrown.Plain("URL does not return HTML content"))
      else Ok(ParseHtml(page, url, resolve))
  }
}

=== FILE: generate_api.dfy ===
/**
 * The image route: validate the query against the image schema, pick the template by
 * name (an unknown name picks the default one), build its element tree, log the request,
 * and answer the picture as SVG or PNG with a long-lived cache header; and the listing of
 * the registered templates.
 *
 * `Number()` coercion of a query string (`None` for NaN) and the URL check are inputs;
 * the rendering itself is not modelled, only whether it fails and at which stage.
 */
module GenerateApi {
  import opened Wrappers
  import opened Js
  import opened AppContext
  import opened Usage
  import opened RequestLog
  import opened Templates

  /** The raw query parameters, each absent when not given. */
  datatype GenerateQuery = GenerateQuery(
    title: Option<string>, description: Option<string>, template: Option<string>, theme: Option<string>,
    width: Option<string>, height: Option<string>, logo: Option<string>, background: Option<string>,
    textColor: Option<string>, fontSize: Option<string>, fontFamily: Option<string>, format: Option<string>)

  /** `Number(s)`, absent when the result is NaN. */
  type Num = string -> Option<real>

  datatype Format = Png | Svg

  datatype Params = Params(
    title: string, description: Option<string>, template: string, theme: Theme,
    width: real, height: real, logo: Option<string>, background: Option<string>,
    textColor: Option<string>, fontSize: Option<real>, fontFamily: Option<string>, format: Format)

  const MaxTitle := 200
  const MaxDescription := 500

  // ---------------------------------------------------------------------------------------
  // One field at a time.

  /** A string no longer than `max`; required or optional. */
  function LimitedString(field: string, raw: Option<string>, max: nat, required: bool): (r: Result<Option<string>, Issue>)
    ensures r.Ok? <==> (raw.Some? || !required) && (raw.Some? ==> |raw.value| <= max)
    ensures r.Ok? ==> r.value == raw
    ensures r.Err? ==> r.error.path == [field]
  {
    match raw
    case None => if required then Err(Issue([field], "Required")) else Ok(None)
    case Some(s) =>
      if |s| > max then Err(Issue([field], "String must contain at most " + Decimal(max) + " character(s)"))
      else Ok(raw)
  }

  /** A coerced number within `[lo, hi]`; an absent value is `dflt` when there is one. */
  function Bounded(field: string, raw: Option<string>, num: Num, lo: int, hi: int, dflt: Option<real>): (r: Result<Option<real>, Issue>)
    ensures raw.None? ==> r == Ok(dflt)
    ensures raw.Some? ==> (r.Ok? <==> num(raw.value).Some? && lo as real <= num(raw.value).value <= hi as real)
    ensures raw.Some? && r.Ok? ==> r.value == num(raw.value)
    ensures r.Err? ==> r.error.path == [field]
  {
    match raw
    case None => Ok(dflt)
    case Some(s) =>
      match num(s)
      case None => Err(Issue([field], "Expected number, received nan"))
      case Some(n) =>
        if n < lo as real then Err(Issue([field], "Number must be greater than or equal to " + Decimal(lo)))
        else if n > hi as real then Err(Issue([field], "Number must be less than or equal to " + Decimal(hi)))
        else Ok(Some(n))
  }

  /** `z.enum(['light', 'dark']).default('dark')`. */
  function ThemeOf(raw: Option<string>): (r: Result<Theme, Issue>)
    ensures r.Ok? <==> raw.None? || raw == Some("light") || raw == Some("dark")
    ensures r == Ok(Light) <==> raw == Some("light")
  {
    match raw
    case None => Ok(Dark)
    case Some(s) =>
      if s == "light" then Ok(Light)
      else if s == "dark" then Ok(Dark)
      else Err(Issue(["theme"], "Invalid enum value. Expected 'light' | 'dark', received '" + s + "'"))
  }

  /** `z.enum(['png', 'svg']).default('png')`. */
  function FormatOf(raw: Option<string>): (r: Result<Format, Issue>)
    ensures r.Ok? <==> raw.None? || raw == Some("png") || raw == Some("svg")
    ensures r == Ok(Svg) <==> raw == Some("svg")
  {
    match raw
    case None => Ok(Png)
    case Some(s) =>
      if s == "png" then Ok(Png)
      else if s == "svg" then Ok(Svg)
      else Err(Issue(["format"], "Invalid enum value. Expected 'png' | 'svg', received '" + s + "'"))
  }

  /** An optional URL. */
  function LogoOf(raw: Option<string>, isUrl: string -> bool): (r: Result<Option<string>, Issue>)
    ensures r.Ok? <==> raw.None? || isUrl(raw.value)
    ensures r.Ok? ==> r.value == raw
  {
    if raw.Some? && !isUrl(raw.value) then Err(Issue(["logo"], "Invalid url")) else Ok(raw)
  }

  function IssuesOf<T>(r: Result<T, Issue>): seq<Issue> {
    if r.Err? then [r.error] else []
  }

  // ---------------------------------------------------------------------------------------
  // The schema.

  /**
   * `generateSchema.parse(query)`: every field is checked and every failing field reports
   * one issue, in schema order; the query parses exactly when no field fails.
   */
  function ParseGenerate(q: GenerateQuery, num: Num, isUrl: string -> bool): (r: Result<Params, Thrown>)
    ensures r.Ok? <==> && LimitedString("title", q.title, MaxTitle, true).Ok?
                       && LimitedString("description", q.description, MaxDescription, false).Ok?
                       && ThemeOf(q.theme).Ok?
                       && Bounded("width", q.width, num, 200, 2400, Some(1200.0)).Ok?
                       && Bounded("height", q.height, num, 200, 1260, Some(630.0)).Ok?
                       && LogoOf(q.logo, isUrl).Ok?
                       && Bounded("fontSize", q.fontSize, num, 12, 120, None).Ok?
                       && FormatOf(q.format).Ok?
    ensures r.Err? ==> r.error.ValidationFailed? && |r.error.issues| > 0
    ensures r.Ok? ==> r.value.template == q.template.GetOr("default")
    ensures r.Ok? ==> && r.value.title == q.title.value && r.value.description == q.description
                      && r.value.background == q.background && r.value.textColor == q.textColor
                      && r.value.fontFamily == q.fontFamily && r.value.logo == q.logo
  {
    var title := LimitedString("title", q.title, MaxTitle, true);
    var description := LimitedString("description", q.description, MaxDescription, false);
    var theme := ThemeOf(q.theme);
    var width := Bounded("width", q.width, num, 200, 2400, Some(1200.0));
    var height := Bounded("height", q.height, num, 200, 1260, Some(630.0));
    var logo := LogoOf(q.logo, isUrl);
    var fontSize := Bounded("fontSize", q.fontSize, num, 12, 120, None);
    var format := FormatOf(q.format);
    var issues := IssuesOf(title) + IssuesOf(description) + IssuesOf(theme) + IssuesOf(width)
                  + IssuesOf(height) + IssuesOf(logo) + IssuesOf(fontSize) + IssuesOf(format);
    if issues != [] then Err(ValidationFailed(issues))
    else
      Ok(Params(title.value.value, description.value, q.template.GetOr("default"), theme.value,
                width.value.value, height.value.value, logo.value, q.background, q.textColor,
                fontSize.value, q.fontFamily, format.value))
  }

  /** Accepted dimensions lie within their bounds, and absent ones are 1200 by 630. */
  lemma DimensionsInBounds(q: GenerateQuery, num: Num, isUrl: string -> bool)
    ensures var r := ParseGenerate(q, num, isUrl);
            r.Ok? ==> && 200.0 <= r.value.width <= 2400.0 && 200.0 <= r.value.height <= 1260.0
                      && (q.width.None? ==> r.value.width == 1200.0)
                      && (q.height.None? ==> r.value.height == 630.0)
                      && (r.value.fontSize.Some? ==> 12.0 <= r.value.fontSize.value <= 120.0)
  {
  }

  /** The title is required and bounded at 200 characters. */
  lemma TitleLimit(q: GenerateQuery, num: Num, isUrl: string -> bool)
    ensures q.title.None? ==> ParseGenerate(q, num, isUrl).Err?
    ensures q.title.Some? && |q.title.value| > MaxTitle ==> ParseGenerate(q, num, isUrl).Err?
  {
  }

  /** With only a title given, everything takes its default: dark theme, PNG, 1200 by 630, the default template. */
  lemma Defaults(title: string, num: Num, isUrl: string -> bool)
    requires |title| <= MaxTitle
    ensures var q := GenerateQuery(Some(title), None, None, None, None, None, None, None, None, None, None, None);
            var r := ParseGenerate(q, num, isUrl);
            && r.Ok? && r.value.theme == Dark && r.value.format == Png
            && r.value.width == 1200.0 && r.value.height == 630.0 && r.value.template == "default"
  {
  }

  // ---------------------------------------------------------------------------------------
  // The handler.

  const CacheControl := "public, max-age=31536000, immutable"

  /** Where rendering fails, if it does: building the SVG (fonts, layout) or converting it to PNG. */
  datatype RenderFailure = Rendered | SvgFailed(error: Thrown) | PngFailed(error: Thrown)

  /** The answers of the image route. */
  datatype GenerateReply =
    | Image(format: Format, template: TemplateId, tree: Node, width: real, height: real)
    | Invalid(issues: seq<Issue>)
    | Failed(message: string)
  {
    /** The headers of an image answer: its content type and the long-lived cache policy. */
    function Headers(): seq<(string, string)>
      requires Image?
    {
      [("Content-Type", ContentType(format)), ("Cache-Control", CacheControl)]
    }

    function Status(): int {
      match this
      case Image(_, _, _, _, _) => 200
      case Invalid(_) => 400
      case Failed(_) => 500
    }
  }

  /** SVG answers are `image/svg+xml` and PNG answers `image/png`; both share the cache policy. */
  function ContentType(f: Format): string {
    match f
    case Svg => "image/svg+xml"
    case Png => "image/png"
  }

  /** The template's input: the parsed fields, the theme always given. */
  function PropsOf(p: Params): (props: Props)
    ensures props.title == p.title && props.description == p.description && props.theme == Some(p.theme)
    ensures props.background == p.background && props.textColor == p.textColor
  {
    Props(p.title, p.description, Some(p.theme), p.logo, p.background, p.textColor, p.fontSize)
  }

  /** The `catch`: validation failures are 400 with their issues, anything else a 500 with its message or a fixed one. */
  function CatchGenerate(e: Thrown): (r: GenerateReply)
    ensures e.ValidationFailed? ==> r == Invalid(e.issues)
    ensures e.Failure? ==> r == Failed(OrElse(e.message, "Failed to generate image"))
  {
    match e
    case ValidationFailed(issues) => Invalid(issues)
    case Failure(_, message, _) => Failed(OrElse(message, "Failed to generate image"))
  }

  /**
   * The answer for parsed parameters: build the tree of `getTemplate(template)`; render
   * the SVG; log the request (no URL, never cached); answer SVG as is or convert to PNG,
   * with the same headers either way. A failure before logging is not logged.
   */
  function Respond(p: Params, render: RenderFailure, apiKey: Option<ApiKeyContext>, client: Client,
                   ledger: Ledger, latency: int, log: LogEnv): (r: (GenerateReply, Ledger))
    ensures r.0.Image? <==> render == Rendered || (render.PngFailed? && p.format == Svg)
    ensures r.0.Image? ==> && r.0.format == p.format
                           && r.0.template == GetTemplate(p.template)
                           && r.0.tree == Render(GetTemplate(p.template), PropsOf(p))
                           && r.0.width == p.width && r.0.height == p.height
    ensures r.0.Image? ==> r.0.Headers() == [("Content-Type", if p.format == Svg then "image/svg+xml" else "image/png"),
                                             ("Cache-Control", "public, max-age=31536000, immutable")]
    ensures render.SvgFailed? ==> r == (CatchGenerate(render.error), ledger)
    ensures !render.SvgFailed? ==> r.1 == Record(ledger, apiKey, "generate", None, 200, latency, false, client, log)
  {
    var id := GetTemplate(p.template);
    var tree := Render(id, PropsOf(p));
    match render
    case SvgFailed(e) => (CatchGenerate(e), ledger)
    case PngFailed(e) =>
      var logged := Record(ledger, apiKey, "generate", None, 200, latency, false, client, log);
      if p.format == Svg then (Image(Svg, id, tree, p.width, p.height), logged)
      else (CatchGenerate(e), logged)
    case Rendered =>
      (Image(p.format, id, tree, p.width, p.height), Record(ledger, apiKey, "generate", None, 200, latency, false, client, log))
  }

  /** `GET /og`: a query that does not parse is a 400 with its issues, not logged; otherwise `Respond`. */
  function HandleGenerate(q: GenerateQuery, num: Num, isUrl: string -> bool, render: RenderFailure,
                          apiKey: Option<ApiKeyContext>, client: Client, ledger: Ledger, latency: int, log: LogEnv)
    : (r: (GenerateReply, Ledger))
    ensures ParseGenerate(q, num, isUrl).Err? ==> r.0.Invalid? && r.0.Status() == 400 && r.1 == ledger
    ensures ParseGenerate(q, num, isUrl).Ok? ==>
              r == Respond(ParseGenerate(q, num, isUrl).value, render, apiKey, client, ledger, latency, log)
  {
    var parsed := ParseGenerate(q, num, isUrl);
    if parsed.Err? then (CatchGenerate(parsed.error), ledger)
    else Respond(parsed.value, render, apiKey, client, ledger, latency, log)
  }

  /** A template name not in the registry renders the default template rather than failing. */
  lemma UnknownTemplateIsDefault(p: Params, apiKey: Option<ApiKeyContext>, client: Client,
                                 ledger: Ledger, latency: int, log: LogEnv)
    requires forall i :: 0 <= i < |Registry| ==> Registry[i].key != p.template
    ensures var r := Respond(p, Rendered, apiKey, client, ledger, latency, log).0;
            r.Image? && r.template == DefaultId && r.tree == DefaultTemplate(PropsOf(p))
  {
    RegistryIsFaithful(p.template);
  }

  /** A PNG conversion failure comes after the request was logged; a layout failure before. */
  lemma PngFailureIsLogged(q: GenerateQuery, num: Num, isUrl: string -> bool, e: Thrown, k: ApiKeyContext,
                           client: Client, ledger: Ledger, latency: int, log: LogEnv)
    requires ParseGenerate(q, num, isUrl).Ok? && ParseGenerate(q, num, isUrl).value.format == Png
    requires e.Failure? && log.accepted >= 1
    ensures var r := HandleGenerate(q, num, isUrl, PngFailed(e), Some(k), client, ledger, latency, log);
            r.0.Status() == 500 && |r.1.rows| == |ledger.rows| + 1 && r.1.rows[|ledger.rows|].input.endpoint == "generate"
  {
  }

  // ---------------------------------------------------------------------------------------
  // `GET /og/templates`.

  datatype Listed = Listed(id: string, name: string, description: string, preview: string)

  const PreviewPrefix := "/api/v1/og?title=Preview&template="

  /** One entry per registered template, in registry order, with its preview link. */
  function Listing(): (r: seq<Listed>)
    ensures |r| == |Registry|
    ensures forall i :: 0 <= i < |r| ==> r[i].id == Registry[i].key && r[i].name == Registry[i].name
                                         && r[i].description == Registry[i].description
                                         && r[i].preview == PreviewPrefix + Registry[i].key
  {
    seq(|Registry|, i requires 0 <= i < |Registry| =>
      Listed(Registry[i].key, Registry[i].name, Registry[i].description, PreviewPrefix + Registry[i].key))
  }

  /** Every listed id, used as a template name, renders the template it lists, and no id repeats. */
  lemma ListingIsUsable()
    ensures forall i :: 0 <= i < |Listing()| ==> GetTemplate(Listing()[i].id) == Registry[i].id
    ensures forall i, j :: 0 <= i < j < |Listing()| ==> Listing()[i].id != Listing()[j].id
  {
    RegistryKeysDistinct();
    forall i | 0 <= i < |Listing()| ensures GetTemplate(Listing()[i].id) == Registry[i].id {
      RegistryIsFaithful(Registry[i].key);
    }
  }
}

=== FILE: generator_page.dfy ===
/**
 * The meta-tag generator page: the form's six text fields become a block of HTML meta
 * tags (plain, Open Graph and Twitter), with a placeholder for every empty field, and
 * the title and description carry an over-length flag.
 *
 * The block is built from structured lines and rendered line by line; `new URL(url).hostname`
 * is an input (`Hostname`), absent when the constructor throws.
 */
module GeneratorPage {
  import opened Wrappers
  import opened Js

  /** The form state: every field starts as the empty string. */
  datatype Form = Form(title: string, description: string, url: string, imageUrl: string, siteName: string, twitterHandle: string)

  /** `new URL(url).hostname`, absent when the URL does not parse. */
  type Hostname = string -> Option<string>

  const TitleMax := 60
  const DescMax := 160
  const TitleInputMax := 100
  const DescInputMax := 300

  const DefaultTitle := "Your Title"
  const DefaultDescription := "Your description here"
  const DefaultUrl := "https://example.com"
  const DefaultDomain := "example.com"

  /** The meta tags of the block, each with its attribute and name. */
  datatype Tag =
    | Description | OgUrl | OgType | OgTitle | OgDescription | OgImage | OgSiteName
    | TwitterCard | TwitterDomain | TwitterUrl | TwitterTitle | TwitterDescription | TwitterImage | TwitterSite
  {
    /** Open Graph tags and three of the Twitter ones use `property`, the rest `name`. */
    function Attr(): string {
      match this
      case OgUrl | OgType | OgTitle | OgDescription | OgImage | OgSiteName | TwitterDomain | TwitterUrl => "property"
      case _ => "name"
    }

    function Name(): string {
      match this
      case Description => "description"
      case OgUrl => "og:url"
      case OgType => "og:type"
      case OgTitle => "og:title"
      case OgDescription => "og:description"
      case OgImage => "og:image"
      case OgSiteName => "og:site_name"
      case TwitterCard => "twitter:card"
      case TwitterDomain => "twitter:domain"
      case TwitterUrl => "twitter:url"
      case TwitterTitle => "twitter:title"
      case TwitterDescription => "twitter:description"
      case TwitterImage => "twitter:image"
      case TwitterSite => "twitter:site"
    }
  }

  /** One line of the generated block. */
  datatype Line =
    | Comment(text: string)
    | TitleTag(text: string)
    | Meta(tag: Tag, content: string)
    | Empty

  function Render(l: Line): string {
    match l
    case Comment(text) => "<!-- " + text + " -->"
    case TitleTag(text) => "<title>" + text + "</title>"
    case Meta(tag, content) => "<meta " + tag.Attr() + "=\"" + tag.Name() + "\" content=\"" + content + "\">"
    case Empty => ""
  }

  /** The domain shown in `twitter:domain`: the URL's host when there is a URL that parses. */
  function Domain(url: string, hostname: Hostname): (d: string)
    ensures url == "" || hostname(url).None? ==> d == DefaultDomain
    ensures url != "" && hostname(url).Some? ==> d == hostname(url).value
  {
    if url != "" && hostname(url).Some? then hostname(url).value else DefaultDomain
  }

  /** The `twitter:site` content: one `@`, then the handle minus its first `@`. */
  function Site(handle: string): (s: string)
    ensures |s| >= 1 && s[0] == '@'
    ensures '@' !in handle ==> s == "@" + handle
  {
    "@" + RemoveFirst(handle, '@')
  }

  /** The plain HTML group: its comment, the title, the description and a blank line. */
  function HtmlGroup(title: string, description: string): (ls: seq<Line>)
    ensures |ls| == 4
  {
    [ Comment("HTML Meta Tags"), TitleTag(title), Meta(Description, description), Empty ]
  }

  /** The Open Graph group; an empty site name leaves an empty line. */
  function OpenGraphGroup(url: string, title: string, description: string, image: string, siteName: string): (ls: seq<Line>)
    ensures |ls| == 8
  {
    [ Comment("Open Graph Meta Tags"),
      Meta(OgUrl, url),
      Meta(OgType, "website"),
      Meta(OgTitle, title),
      Meta(OgDescription, description),
      Meta(OgImage, image),
      if siteName != "" then Meta(OgSiteName, siteName) else Empty,
      Empty ]
  }

  /** The Twitter group; an empty handle leaves an empty line. */
  function TwitterGroup(domain: string, url: string, title: string, description: string, image: string, handle: string): (ls: seq<Line>)
    ensures |ls| == 9
  {
    [ Comment("Twitter Meta Tags"),
      Meta(TwitterCard, "summary_large_image"),
      Meta(TwitterDomain, domain),
      Meta(TwitterUrl, url),
      Meta(TwitterTitle, title),
      Meta(TwitterDescription, description),
      Meta(TwitterImage, image),
      if handle != "" then Meta(TwitterSite, Site(handle)) else Empty,
      Empty ]
  }

  const Footer := Comment("Meta Tags Generated via Ogify")

  /** The lines of the block, in order, with a placeholder for every empty field. */
  function Lines(f: Form, hostname: Hostname): (ls: seq<Line>)
    ensures |ls| == 22
  {
    var title := OrElse(Some(f.title), DefaultTitle);
    var description := OrElse(Some(f.description), DefaultDescription);
    var url := OrElse(Some(f.url), DefaultUrl);
    HtmlGroup(title, description)
    + OpenGraphGroup(url, title, description, f.imageUrl, f.siteName)
    + TwitterGroup(Domain(f.url, hostname), url, title, description, f.imageUrl, f.twitterHandle)
    + [Footer]
  }

  /** Each line rendered, in order. */
  function RenderAll(ls: seq<Line>): (r: seq<string>)
    ensures |r| == |ls| && forall i :: 0 <= i < |ls| ==> r[i] == Render(ls[i])
  {
    seq(|ls|, i requires 0 <= i < |ls| => Render(ls[i]))
  }

  /** `generateCode()`: the rendered lines joined by newlines. */
  function Code(f: Form, hostname: Hostname): (code: string)
    ensures Render(Comment("HTML Meta Tags")) + "\n" <= code
    ensures var tail := "\n" + Render(Footer);
            |tail| <= |code| && code[|code| - |tail|..] == tail
  {
    var ls := Lines(f, hostname);
    var rendered := RenderAll(ls);
    assert ls[0] == Comment("HTML Meta Tags");
    assert ls[21] == Footer;
    JoinStartsWith(rendered, "\n");
    JoinEndsWith(rendered, "\n");
    Join(rendered, "\n")
  }

  /** The content of the first `Meta` line at or after position `k` with that tag. */
  function ContentFrom(ls: seq<Line>, tag: Tag, k: nat): Option<string>
    decreases |ls| - k
  {
    if k >= |ls| then None
    else if ls[k].Meta? && ls[k].tag == tag then Some(ls[k].content)
    else ContentFrom(ls, tag, k + 1)
  }

  /** The content of the first `Meta` line with that tag, absent when there is none. */
  function ContentOf(ls: seq<Line>, tag: Tag): Option<string> {
    ContentFrom(ls, tag, 0)
  }

  /** Whether line `i` is a `Meta` line with that tag. */
  predicate Carries(ls: seq<Line>, tag: Tag, i: int)
    requires 0 <= i < |ls|
  {
    ls[i].Meta? && ls[i].tag == tag
  }

  /** The scan from `k` reports the first line from `k` on that carries the tag, or none. */
  lemma {:induction false} ContentFromIsFirst(ls: seq<Line>, tag: Tag, k: nat)
    ensures var r := ContentFrom(ls, tag, k);
            && (r.Some? ==> exists i :: k <= i < |ls| && ls[i] == Meta(tag, r.value)
                                      && forall j :: k <= j < i ==> !Carries(ls, tag, j))
            && (r.None? ==> forall i :: k <= i < |ls| ==> !Carries(ls, tag, i))
    decreases |ls| - k
  {
    if k < |ls| && !Carries(ls, tag, k) {
      ContentFromIsFirst(ls, tag, k + 1);
    }
  }

  /** Reading a tag gives the content of its first line, and none when no line carries it. */
  lemma ContentOfIsFirst(ls: seq<Line>, tag: Tag)
    ensures var r := ContentOf(ls, tag);
            && (r.Some? ==> exists i :: 0 <= i < |ls| && ls[i] == Meta(tag, r.value)
                                      && forall j :: 0 <= j < i ==> !Carries(ls, tag, j))
            && (r.None? ==> forall i :: 0 <= i < |ls| ==> !Carries(ls, tag, i))
  {
    ContentFromIsFirst(ls, tag, 0);
  }

  /** One step of the scan. */
  lemma Unroll(ls: seq<Line>, tag: Tag, k: nat)
    requires k < |ls|
    ensures ContentFrom(ls, tag, k) == if ls[k].Meta? && ls[k].tag == tag then Some(ls[k].content) else ContentFrom(ls, tag, k + 1)
  {
  }

  /** Scanning `a + b` from inside `a` finishes `a` before it starts on `b`. */
  lemma {:induction false} ContentFromAppend(a: seq<Line>, b: seq<Line>, tag: Tag, k: nat)
    requires k <= |a|
    ensures ContentFrom(a + b, tag, k) == if ContentFrom(a, tag, k).Some? then ContentFrom(a, tag, k) else ContentFrom(b, tag, 0)
    decreases |a| - k
  {
    if k < |a| {
      assert (a + b)[k] == a[k];
      ContentFromAppend(a, b, tag, k + 1);
    } else {
      ContentFromShift(a, b, tag, 0);
    }
  }

  /** Scanning `a + b` past `a` is scanning `b`. */
  lemma {:induction false} ContentFromShift(a: seq<Line>, b: seq<Line>, tag: Tag, k: nat)
    requires k <= |b|
    ensures ContentFrom(a + b, tag, |a| + k) == ContentFrom(b, tag, k)
    decreases |b| - k
  {
    if k < |b| {
      assert (a + b)[|a| + k] == b[k];
      ContentFromShift(a, b, tag, k + 1);
    }
  }

  /** A later group is consulted only when the earlier one lacks the tag. */
  lemma ContentOfAppend(a: seq<Line>, b: seq<Line>, tag: Tag)
    ensures ContentOf(a + b, tag) == if ContentOf(a, tag).Some? then ContentOf(a, tag) else ContentOf(b, tag)
  {
    ContentFromAppend(a, b, tag, 0);
  }

  /** The plain HTML group holds only the description tag. */
  lemma HtmlGroupContent(title: string, description: string, tag: Tag)
    ensures ContentOf(HtmlGroup(title, description), tag) == if tag == Description then Some(description) else None
  {
    var g := HtmlGroup(title, description);
    Unroll(g, tag, 3);
    Unroll(g, tag, 2);
    Unroll(g, tag, 1);
    Unroll(g, tag, 0);
  }

  /** The Open Graph group holds the `og:` tags, the site name only when it is non-empty. */
  lemma OpenGraphGroupContent(url: string, title: string, description: string, image: string, siteName: string, tag: Tag)
    ensures ContentOf(OpenGraphGroup(url, title, description, image, siteName), tag)
              == match tag
                 case OgUrl => Some(url)
                 case OgType => Some("website")
                 case OgTitle => Some(title)
                 case OgDescription => Some(description)
                 case OgImage => Some(image)
                 case OgSiteName => if siteName != "" then Some(siteName) else None
                 case _ => None
  {
    var g := OpenGraphGroup(url, title, description, image, siteName);
    Unroll(g, tag, 7);
    Unroll(g, tag, 6);
    Unroll(g, tag, 5);
    Unroll(g, tag, 4);
    Unroll(g, tag, 3);
    Unroll(g, tag, 2);
    Unroll(g, tag, 1);
    Unroll(g, tag, 0);
  }

  /** The Twitter group holds the `twitter:` tags, the site only when a handle was given. */
  lemma TwitterGroupContent(domain: string, url: string, title: string, description: string, image: string, handle: string, tag: Tag)
    ensures ContentOf(TwitterGroup(domain, url, title, description, image, handle), tag)
              == match tag
                 case TwitterCard => Some("summary_large_image")
                 case TwitterDomain => Some(domain)
                 case TwitterUrl => Some(url)
                 case TwitterTitle => Some(title)
                 case TwitterDescription => Some(description)
                 case TwitterImage => Some(image)
                 case TwitterSite => if handle != "" then Some(Site(handle)) else None
                 case _ => None
  {
    var g := TwitterGroup(domain, url, title, description, image, handle);
    Unroll(g, tag, 8);
    Unroll(g, tag, 7);
    Unroll(g, tag, 6);
    Unroll(g, tag, 5);
    Unroll(g, tag, 4);
    Unroll(g, tag, 3);
    Unroll(g, tag, 2);
    Unroll(g, tag, 1);
    Unroll(g, tag, 0);
  }

  /**
   * What each tag of the block should say, stated field by field: the typed value or its
   * placeholder, the fixed type and card, the domain, and the optional site name and handle.
   */
  function Expected(f: Form, hostname: Hostname, tag: Tag): Option<string> {
    match tag
    case Description | OgDescription | TwitterDescription => Some(if f.description != "" then f.description else DefaultDescription)
    case OgTitle | TwitterTitle => Some(if f.title != "" then f.title else DefaultTitle)
    case OgUrl | TwitterUrl => Some(if f.url != "" then f.url else DefaultUrl)
    case OgImage | TwitterImage => Some(f.imageUrl)
    case OgType => Some("website")
    case TwitterCard => Some("summary_large_image")
    case TwitterDomain => Some(Domain(f.url, hostname))
    case OgSiteName => if f.siteName != "" then Some(f.siteName) else None
    case TwitterSite => if f.twitterHandle != "" then Some(Site(f.twitterHandle)) else None
  }

  /** Reading any tag back from the block gives what the form says it should. */
  lemma ContentIsExpected(f: Form, hostname: Hostname, tag: Tag)
    ensures ContentOf(Lines(f, hostname), tag) == Expected(f, hostname, tag)
  {
    var title := OrElse(Some(f.title), DefaultTitle);
    var description := OrElse(Some(f.description), DefaultDescription);
    var url := OrElse(Some(f.url), DefaultUrl);
    var g1 := HtmlGroup(title, description);
    var g2 := OpenGraphGroup(url, title, description, f.imageUrl, f.siteName);
    var g3 := TwitterGroup(Domain(f.url, hostname), url, title, description, f.imageUrl, f.twitterHandle);
    assert Lines(f, hostname) == g1 + (g2 + (g3 + [Footer]));
    ContentOfAppend(g1, g2 + (g3 + [Footer]), tag);
    ContentOfAppend(g2, g3 + [Footer], tag);
    ContentOfAppend(g3, [Footer], tag);
    Unroll([Footer], tag, 0);
    HtmlGroupContent(title, description, tag);
    OpenGraphGroupContent(url, title, description, f.imageUrl, f.siteName, tag);
    TwitterGroupContent(Domain(f.url, hostname), url, title, description, f.imageUrl, f.twitterHandle, tag);
  }

  /** The Twitter tag carrying the same field as an Open Graph tag. */
  function TwitterCounterpart(t: Tag): Option<Tag> {
    match t
    case OgTitle => Some(TwitterTitle)
    case OgDescription => Some(TwitterDescription)
    case OgUrl => Some(TwitterUrl)
    case OgImage => Some(TwitterImage)
    case _ => None
  }

  /** Each Open Graph tag and its Twitter counterpart always say the same thing. */
  lemma OpenGraphAndTwitterAgree(f: Form, hostname: Hostname, t: Tag)
    requires TwitterCounterpart(t).Some?
    ensures ContentOf(Lines(f, hostname), t).Some?
    ensures ContentOf(Lines(f, hostname), t) == ContentOf(Lines(f, hostname), TwitterCounterpart(t).value)
  {
    var u := TwitterCounterpart(t).value;
    assert Expected(f, hostname, t) == Expected(f, hostname, u) != None;
    ContentIsExpected(f, hostname, t);
    ContentIsExpected(f, hostname, u);
  }

  /** The plain description tag says what both description tags say. */
  lemma DescriptionsAgree(f: Form, hostname: Hostname)
    ensures ContentOf(Lines(f, hostname), Description) == ContentOf(Lines(f, hostname), OgDescription)
  {
    ContentIsExpected(f, hostname, Description);
    ContentIsExpected(f, hostname, OgDescription);
  }

  /** An empty form yields the placeholders and every tag but the two optional ones. */
  lemma EmptyFormShowsPlaceholders(hostname: Hostname, t: Tag)
    ensures var c := ContentOf(Lines(Form("", "", "", "", "", ""), hostname), t);
            && (c.None? <==> t == OgSiteName || t == TwitterSite)
            && (t == Description ==> c == Some(DefaultDescription))
            && (t == OgTitle ==> c == Some(DefaultTitle))
            && (t == OgUrl ==> c == Some(DefaultUrl))
            && (t == TwitterDomain ==> c == Some(DefaultDomain))
  {
    ContentIsExpected(Form("", "", "", "", "", ""), hostname, t);
  }

  /** Typing the handle with or without its leading `@` gives the same `twitter:site` tag. */
  lemma AtSignIsOptional(f: Form, handle: string, hostname: Hostname)
    requires handle != "" && '@' !in handle
    ensures Lines(f.(twitterHandle := "@" + handle), hostname) == Lines(f.(twitterHandle := handle), hostname)
  {
    var h := "@" + handle;
    assert IndexOf(h, '@') == 0;
    assert RemoveFirst(h, '@') == handle;
  }

  /** The handle input's change handler: the typed value minus its first `@`. */
  function HandleInput(value: string): (h: string)
    ensures |h| == |value| - (if '@' in value then 1 else 0)
    ensures '@' in value ==> multiset(h) + multiset{'@'} == multiset(value)
    ensures '@' !in value ==> h == value
  {
    var r := RemoveFirst(value, '@');
    if '@' in value then
      var i := IndexOf(value, '@');
      assert value == value[..i] + [value[i]] + value[i + 1..];
      r
    else r
  }

  /** A handle typed as `@name` is stored as `name` and emitted as `@name`. */
  lemma TypedHandleRoundTrip(name: string)
    requires '@' !in name
    ensures Site(HandleInput("@" + name)) == "@" + name
  {
    var v := "@" + name;
    assert IndexOf(v, '@') == 0;
    assert RemoveFirst(v, '@') == name;
  }

  /** The inputs' `maxLength`: text beyond the cap does not enter the field. */
  function Capped(value: string, max: nat): (r: string)
    ensures |r| <= max && |r| <= |value| && r == value[..|r|]
    ensures |value| <= max ==> r == value
  {
    if |value| <= max then value else value[..max]
  }

  /** The over-length flags shown under the title and description. */
  datatype Flags = Flags(titleTooLong: bool, descriptionTooLong: bool)

  function FlagsOf(f: Form): (r: Flags)
    ensures r.titleTooLong <==> |f.title| > TitleMax
    ensures r.descriptionTooLong <==> |f.description| > DescMax
  {
    Flags(|f.title| > TitleMax, |f.description| > DescMax)
  }

  /**
   * The flags measure the typed text, not what the block shows: an empty title is not
   * flagged though the block shows the placeholder, and the input caps leave room for
   * text over the recommendation, so both flags can be raised.
   */
  lemma FlagsMeasureTypedText(f: Form, title: string, description: string, hostname: Hostname)
    requires |title| > TitleInputMax && |description| > DescInputMax
    ensures !FlagsOf(f.(title := "", description := "")).titleTooLong
    ensures Lines(f.(title := ""), hostname)[1] == TitleTag(DefaultTitle)
    ensures var g := f.(title := Capped(title, TitleInputMax), description := Capped(description, DescInputMax));
            FlagsOf(g).titleTooLong && FlagsOf(g).descriptionTooLong
  {
  }
}

=== FILE: js.dfy ===
/**
 * The parts of JavaScript's value semantics the server and the front end lean on:
 * truthiness of optional strings, `||`, `Boolean()` coercion, `trim`, `includes`,
 * `startsWith`, `replace` of a single character, `slice(-n)`, `repeat`, `join`, and
 * `Number.prototype.toString(radix)` on non-negative integers.
 *
 * Strings are sequences of Unicode scalar values; JavaScript measures length in UTF-16
 * code units, which differs only for characters outside the Basic Multilingual Plane.
 */
module Js {
  import opened Wrappers

  /** `!!s` for an optional string: `undefined` and `""` are falsy, every other string is truthy. */
  predicate Truthy(s: Option<string>) {
    s.Some? && s.value != ""
  }

  /** `a || b` on optional strings: the left operand when truthy, otherwise the right one. */
  function Or(a: Option<string>, b: Option<string>): Option<string> {
    if Truthy(a) then a else b
  }

  /** `a || "literal"`: the left operand when truthy, otherwise the literal. */
  function OrElse(a: Option<string>, literal: string): string {
    if Truthy(a) then a.value else literal
  }

  /** `s || undefined`: the empty string becomes absent. */
  function Blank(a: Option<string>): Option<string> {
    if Truthy(a) then a else None
  }

  /** `Boolean(s)` for a string: only the empty string is false. */
  predicate BooleanOf(s: string) {
    s != ""
  }

  /** `s.startsWith(p)`. */
  predicate StartsWith(s: string, p: string) {
    p <= s
  }

  /** `sub` occurs in `s` starting at index `i`. */
  predicate MatchAt(s: string, sub: string, i: nat) {
    i + |sub| <= |s| && s[i..i + |sub|] == sub
  }

  /** `s.includes(sub)`: `sub` occurs somewhere in `s`. */
  function Includes(s: string, sub: string): (r: bool)
    ensures r <==> exists i: nat :: MatchAt(s, sub, i)
    decreases |s|
  {
    if |s| < |sub| then false
    else if s[..|sub|] == sub then assert MatchAt(s, sub, 0); true
    else
      var rest := Includes(s[1..], sub);
      assert forall i: nat :: MatchAt(s[1..], sub, i) <==> MatchAt(s, sub, i + 1) by {
        forall i: nat ensures MatchAt(s[1..], sub, i) <==> MatchAt(s, sub, i + 1) {
          if i + 1 + |sub| <= |s| {
            assert s[1..][i..i + |sub|] == s[i + 1..i + 1 + |sub|];
          }
        }
      }
      assert forall i: nat :: MatchAt(s, sub, i) ==> i >= 1;
      assert rest ==> exists i: nat :: MatchAt(s, sub, i) by {
        if rest {
          var j: nat :| MatchAt(s[1..], sub, j);
          assert MatchAt(s, sub, j + 1);
        }
      }
      assert (exists i: nat :: MatchAt(s, sub, i)) ==> rest by {
        if exists i: nat :: MatchAt(s, sub, i) {
          var j: nat :| MatchAt(s, sub, j);
          assert MatchAt(s[1..], sub, j - 1);
        }
      }
      rest
  }

  /** The characters `String.prototype.trim` removes: ECMAScript WhiteSpace and LineTerminator. */
  predicate IsSpace(c: char) {
    || c == '\t' || c == '\n' || c == '\U{B}' || c == '\U{C}' || c == '\r' || c == ' '
    || c == '\U{A0}' || c == '\U{1680}' || ('\U{2000}' <= c <= '\U{200A}')
    || c == '\U{2028}' || c == '\U{2029}' || c == '\U{202F}' || c == '\U{205F}'
    || c == '\U{3000}' || c == '\U{FEFF}'
  }

  /** `s.trimStart()`: a suffix of `s` whose dropped prefix is all white space. */
  function TrimStart(s: string): (r: string)
    ensures |r| <= |s| && r == s[|s| - |r|..]
    ensures forall k :: 0 <= k < |s| - |r| ==> IsSpace(s[k])
    ensures r != [] ==> !IsSpace(r[0])
  {
    if s != [] && IsSpace(s[0]) then TrimStart(s[1..]) else s
  }

  /** `s.trimEnd()`: a prefix of `s` whose dropped suffix is all white space. */
  function TrimEnd(s: string): (r: string)
    ensures |r| <= |s| && r == s[..|r|]
    ensures forall k :: |r| <= k < |s| ==> IsSpace(s[k])
    ensures r != [] ==> !IsSpace(r[|r| - 1])
  {
    if s != [] && IsSpace(s[|s| - 1]) then TrimEnd(s[..|s| - 1]) else s
  }

  /** `r` is the window of `s` at `i`, and everything outside it is white space. */
  predicate TrimWindow(s: string, r: string, i: nat) {
    && i + |r| <= |s| && r == s[i..i + |r|]
    && (forall k :: 0 <= k < i ==> IsSpace(s[k]))
    && (forall k :: i + |r| <= k < |s| ==> IsSpace(s[k]))
  }

  /**
   * `s.trim()`: the window of `s` left after removing white space at both ends; what is
   * removed is white space and what is kept neither starts nor ends with it.
   */
  function Trim(s: string): (r: string)
    ensures exists i: nat :: TrimWindow(s, r, i)
    ensures r != [] ==> !IsSpace(r[0]) && !IsSpace(r[|r| - 1])
  {
    var t := TrimStart(s);
    var r := TrimEnd(t);
    var i := |s| - |t|;
    assert TrimWindow(s, r, i) by {
      assert t == s[i..];
      assert r == t[..|r|];
      assert r == s[i..i + |r|];
      forall k | i + |r| <= k < |s| ensures IsSpace(s[k]) {
        assert s[k] == t[k - i];
      }
    }
    r
  }

  /** `s.indexOf(c)`, with `|s|` standing for "not found". */
  function IndexOf(s: string, c: char): (i: nat)
    ensures i <= |s| && c !in s[..i]
    ensures i < |s| ==> s[i] == c
    ensures i == |s| <==> c !in s
  {
    if s == [] then 0
    else if s[0] == c then 0
    else
      var j := IndexOf(s[1..], c);
      assert s[..j + 1] == [s[0]] + s[1..][..j];
      j + 1
  }

  /** `s.replace(c, "")` with a one-character pattern: only the first occurrence is removed. */
  function RemoveFirst(s: string, c: char): (r: string)
    ensures c !in s ==> r == s
    ensures c in s ==> r == s[..IndexOf(s, c)] + s[IndexOf(s, c) + 1..]
  {
    var i := IndexOf(s, c);
    if i < |s| then s[..i] + s[i + 1..] else s
  }

  /** `s.slice(-n)` for `n > 0`: the last `n` characters, or all of `s` when it is shorter. */
  function SliceLast(s: string, n: nat): (r: string)
    ensures |r| == if |s| < n then |s| else n
    ensures s == s[..|s| - |r|] + r
  {
    if |s| < n then s else s[|s| - n..]
  }

  /** `c.repeat(n)` for a one-character string. */
  function Repeat(c: char, n: nat): (r: string)
    ensures |r| == n && forall k :: 0 <= k < n ==> r[k] == c
  {
    if n == 0 then "" else Repeat(c, n - 1) + [c]
  }

  /** `parts.join(sep)`. */
  function Join(parts: seq<string>, sep: string): string
    decreases |parts|
  {
    if |parts| == 0 then ""
    else if |parts| == 1 then parts[0]
    else Join(parts[..|parts| - 1], sep) + sep + parts[|parts| - 1]
  }

  /** A join of two or more parts begins with the first part and the separator. */
  lemma {:induction false} JoinStartsWith(parts: seq<string>, sep: string)
    requires |parts| >= 2
    ensures parts[0] + sep <= Join(parts, sep)
    decreases |parts|
  {
    if |parts| > 2 {
      var init := parts[..|parts| - 1];
      JoinStartsWith(init, sep);
      assert init[0] == parts[0];
    }
  }

  /** A join of two or more parts ends with the separator and the last part. */
  lemma JoinEndsWith(parts: seq<string>, sep: string)
    requires |parts| >= 2
    ensures var j := Join(parts, sep); var tail := sep + parts[|parts| - 1];
            |tail| <= |j| && j[|j| - |tail|..] == tail
  {
  }

  // ---------------------------------------------------------------------------------------
  // Number.prototype.toString(radix) on non-negative integers, digits 0-9a-z.

  /** The digit character for a value below 36: `0`-`9`, then `a`-`z`. */
  function DigitChar(d: nat): char
    requires d < 36
  {
    if d < 10 then (48 + d) as char else (87 + d) as char
  }

  /** The value of a digit character of the given radix. */
  function DigitValue(c: char): nat {
    if '0' <= c <= '9' then c as int - 48
    else if 'a' <= c <= 'z' then c as int - 87
    else 0
  }

  /** `c` is one of the first `radix` digit characters. */
  predicate IsDigitOf(c: char, radix: nat) {
    ('0' <= c <= '9' || 'a' <= c <= 'z') && DigitValue(c) < radix
  }

  lemma DigitRoundTrip(d: nat)
    requires d < 36
    ensures DigitValue(DigitChar(d)) == d
    ensures IsDigitOf(DigitChar(d), d + 1)
  {
  }

  /** Euclidean division facts for a positive divisor, stated once for the digit proofs. */
  lemma DivMod(n: nat, radix: nat)
    requires 2 <= radix
    ensures n == (n / radix) * radix + n % radix
    ensures 0 <= n % radix < radix
    ensures n >= radix ==> 1 <= n / radix < n
    ensures n < radix ==> n / radix == 0 && n % radix == n
  {
  }

  /** `n.toString(radix)` for a non-negative integer: digits only, and a zero digit in front only for zero itself. */
  function ToRadix(n: nat, radix: nat): (r: string)
    requires 2 <= radix <= 36
    ensures |r| >= 1
    ensures forall k :: 0 <= k < |r| ==> IsDigitOf(r[k], radix)
    ensures r[0] == '0' <==> n == 0
    decreases n
  {
    DivMod(n, radix);
    var d := DigitChar(n % radix);
    DigitRoundTrip(n % radix);
    assert IsDigitOf(d, radix);
    if n < radix then
      DigitRoundTrip(n);
      [d]
    else
      var hi := ToRadix(n / radix, radix);
      hi + [d]
  }

  /** The value of a string of digits read most significant first (an independent reader). */
  function FromRadix(s: string, radix: nat): nat
    decreases |s|
  {
    if s == [] then 0 else FromRadix(s[..|s| - 1], radix) * radix + DigitValue(s[|s| - 1])
  }

  /** Reading back what `ToRadix` wrote gives the original number. */
  lemma {:induction false} RadixRoundTrip(n: nat, radix: nat)
    requires 2 <= radix <= 36
    ensures FromRadix(ToRadix(n, radix), radix) == n
    decreases n
  {
    DivMod(n, radix);
    DigitRoundTrip(n % radix);
    if n >= radix {
      var hi := ToRadix(n / radix, radix);
      var s := hi + [DigitChar(n % radix)];
      assert s[..|s| - 1] == hi;
      RadixRoundTrip(n / radix, radix);
      assert FromRadix(s, radix) == FromRadix(hi, radix) * radix + n % radix;
      assert FromRadix(hi, radix) == n / radix;
    }
  }

  /** `ToRadix` is injective: distinct numbers render differently. */
  lemma RadixInjective(m: nat, n: nat, radix: nat)
    requires 2 <= radix <= 36
    requires ToRadix(m, radix) == ToRadix(n, radix)
    ensures m == n
  {
    RadixRoundTrip(m, radix);
    RadixRoundTrip(n, radix);
  }

  function Pow(b: nat, k: nat): nat {
    if k == 0 then 1 else b * Pow(b, k - 1)
  }

  lemma MulMonotone(a: nat, b: nat, c: nat)
    requires a >= b
    ensures a * c >= b * c
  {
  }

  /** A number below `radix^k` takes at most `k` digits. */
  lemma {:induction false} RadixLength(n: nat, radix: nat, k: nat)
    requires 2 <= radix <= 36 && 1 <= k
    requires n < Pow(radix, k)
    ensures |ToRadix(n, radix)| <= k
    decreases k
  {
    if n >= radix {
      var p := Pow(radix, k - 1);
      var q := n / radix;
      DivMod(n, radix);
      assert Pow(radix, k) == radix * p;
      assert q < p by {
        if q >= p {
          MulMonotone(q, p, radix);
        }
      }
      RadixLength(q, radix, k - 1);
    }
  }

  /** `String(n)` for an integer. */
  function Decimal(n: int): string {
    if n < 0 then "-" + ToRadix(-n, 10) else ToRadix(n, 10)
  }
}

=== FILE: rate_limit.dfy ===
/**
 * The fixed-window rate limiter that runs before every extraction and image request.
 *
 * A request is counted under `ratelimit:ip:<address>` (no API key, at most 10 per window)
 * or `ratelimit:key:<id>` (the key's own allowance). The counter lives in Redis when Redis
 * is configured and answers, and otherwise in a process-local map of windows, which a
 * periodic sweep empties of finished windows. The clock reading `now` (milliseconds) is an
 * input; the in-memory path has no suspension point between its read and its write, so a
 * sequential model matches the single-threaded event loop.
 */
module RateLimit {
  import opened Wrappers
  import opened Js
  import opened AppContext

  const WindowMs := 60_000
  const DefaultMax := 60
  const AnonymousMax := 10

  datatype Config = Config(windowMs: int, max: int)

  /** One identity's counter: requests seen in the window and the instant the window ends. */
  datatype Window = Window(count: int, resetAt: int)

  /** The process-local fallback store. */
  type Store = map<string, Window>

  /** The counter name and the limits the middleware chose for a request. */
  datatype Identity = Identity(identifier: string, config: Config)

  // ---------------------------------------------------------------------------------------
  // Identity resolution.

  /** `x-forwarded-for || x-real-ip || 'unknown'`. */
  function ClientAddress(forwardedFor: Option<string>, realIp: Option<string>): string {
    OrElse(Or(forwardedFor, realIp), "unknown")
  }

  /** The counter name and limits for a request, from the API key on the context if any. */
  function Identify(apiKey: Option<ApiKeyContext>, forwardedFor: Option<string>, realIp: Option<string>): (r: Identity)
    ensures r.config.windowMs == WindowMs
    ensures apiKey.None? ==> r.identifier == "ip:" + ClientAddress(forwardedFor, realIp) && r.config.max == AnonymousMax
    ensures apiKey.Some? ==> r.identifier == "key:" + apiKey.value.id
    ensures apiKey.Some? && apiKey.value.rateLimit != 0 ==> r.config.max == apiKey.value.rateLimit
    ensures apiKey.Some? && apiKey.value.rateLimit == 0 ==> r.config.max == DefaultMax
  {
    match apiKey
    case None => Identity("ip:" + ClientAddress(forwardedFor, realIp), Config(60000, 10))
    case Some(k) =>
      var max := if k.rateLimit != 0 then k.rateLimit else DefaultMax;
      Identity("key:" + k.id, Config(60 * 1000, max))
  }

  /** The name the counter is stored under. */
  function CounterKey(identifier: string): string {
    "ratelimit:" + identifier
  }

  /**
   * Two requests share a counter exactly when both are anonymous from the same address or
   * both carry keys with the same id: the two namespaces never meet.
   */
  lemma SharedCounterMeansSameIdentity(
    a1: Option<ApiKeyContext>, f1: Option<string>, r1: Option<string>,
    a2: Option<ApiKeyContext>, f2: Option<string>, r2: Option<string>)
    ensures CounterKey(Identify(a1, f1, r1).identifier) == CounterKey(Identify(a2, f2, r2).identifier)
        <==> ((a1.None? && a2.None? && ClientAddress(f1, r1) == ClientAddress(f2, r2))
              || (a1.Some? && a2.Some? && a1.value.id == a2.value.id))
  {
    var k1 := CounterKey(Identify(a1, f1, r1).identifier);
    var k2 := CounterKey(Identify(a2, f2, r2).identifier);
    var p := "ratelimit:";
    if k1 == k2 {
      assert k1[10] == k2[10];
      if a1.None? && a2.None? {
        var x1 := ClientAddress(f1, r1);
        var x2 := ClientAddress(f2, r2);
        assert k1 == p + "ip:" + x1 && k2 == p + "ip:" + x2;
        assert x1 == k1[13..] && x2 == k2[13..];
      } else if a1.Some? && a2.Some? {
        assert a1.value.id == k1[14..] && a2.value.id == k2[14..];
      }
    }
  }

  // ---------------------------------------------------------------------------------------
  // The decision both paths share.

  /** The three `X-RateLimit-*` header values. */
  datatype Headers = Headers(limit: int, remaining: int, reset: int)

  /** Either the request goes on to the handler, or it is answered 429 with `retryAfter` seconds. */
  datatype Verdict = Proceed | TooManyRequests(retryAfter: int)

  datatype Decision = Decision(headers: Headers, verdict: Verdict)

  /** `Math.ceil(x / 1000)` on an integer number of milliseconds. */
  function CeilSeconds(x: int): (r: int)
    ensures (r - 1) * 1000 < x <= r * 1000
  {
    -((-x) / 1000)
  }

  /**
   * The headers and verdict for a counted request: the counter already includes this
   * request, and the request that takes the count past `max` is the first one refused.
   */
  function Decide(config: Config, count: int, resetAt: int, now: int): (d: Decision)
    ensures d.headers.limit == config.max
    ensures d.headers.remaining >= 0 && d.headers.remaining >= config.max - count
    ensures count <= config.max ==> d.headers.remaining == config.max - count
    ensures count >= config.max ==> d.headers.remaining == 0
    ensures (d.headers.reset - 1) * 1000 < resetAt <= d.headers.reset * 1000
    ensures d.verdict.Proceed? <==> count <= config.max
    ensures d.verdict.TooManyRequests? ==>
              (d.verdict.retryAfter - 1) * 1000 < resetAt - now <= d.verdict.retryAfter * 1000
  {
    var remaining := if config.max - count > 0 then config.max - count else 0;
    var headers := Headers(config.max, remaining, CeilSeconds(resetAt));
    if count > config.max then Decision(headers, TooManyRequests(CeilSeconds(resetAt - now)))
    else Decision(headers, Proceed)
  }

  // ---------------------------------------------------------------------------------------
  // The in-memory path.

  /** The store after counting one request, and the window that request landed in. */
  datatype Counted = Counted(store: Store, window: Window)

  /**
   * Counts one request for `key` at `now`: a missing window, or one whose end is strictly
   * before `now`, is replaced by a fresh one ending `windowMs` from now; the count then
   * rises by one. No other key's window changes.
   */
  function CountRequest(store: Store, key: string, config: Config, now: int): (r: Counted)
    ensures key in r.store && r.store[key] == r.window
    ensures forall k :: k != key ==> (k in r.store <==> k in store)
    ensures forall k :: k in store && k != key ==> r.store[k] == store[k]
    ensures key !in store || store[key].resetAt < now ==> r.window == Window(1, now + config.windowMs)
    ensures key in store && store[key].resetAt >= now ==>
              r.window == Window(store[key].count + 1, store[key].resetAt)
    ensures config.windowMs >= 0 ==> r.window.resetAt >= now
  {
    var entry := if key !in store || store[key].resetAt < now then Window(0, now + config.windowMs) else store[key];
    var counted := Window(entry.count + 1, entry.resetAt);
    Counted(store[key := counted], counted)
  }

  /** `inMemoryRateLimit`: count the request locally, then decide. */
  function InMemoryRateLimit(store: Store, key: string, config: Config, now: int): (r: (Store, Decision))
    ensures var c := CountRequest(store, key, config, now);
            r == (c.store, Decide(config, c.window.count, c.window.resetAt, now))
    ensures config.windowMs >= 0 && r.1.verdict.TooManyRequests? ==> r.1.verdict.retryAfter >= 0
  {
    var c := CountRequest(store, key, config, now);
    (c.store, Decide(config, c.window.count, c.window.resetAt, now))
  }

  /** The windows successive requests for one key land in, from an initial store. */
  function Replay(store: Store, key: string, config: Config, times: seq<int>): (ws: seq<Window>)
    ensures |ws| == |times|
    decreases |times|
  {
    if times == [] then []
    else
      var c := CountRequest(store, key, config, times[0]);
      [c.window] + Replay(c.store, key, config, times[1..])
  }

  /** While requests arrive no later than the window's end, each one adds exactly one. */
  lemma {:induction false} ReplayInsideWindow(store: Store, key: string, config: Config, times: seq<int>, c: int, resetAt: int)
    requires key in store && store[key] == Window(c, resetAt)
    requires forall i :: 0 <= i < |times| ==> times[i] <= resetAt
    ensures forall i :: 0 <= i < |times| ==> Replay(store, key, config, times)[i] == Window(c + i + 1, resetAt)
    decreases |times|
  {
    if times != [] {
      var next := CountRequest(store, key, config, times[0]);
      ReplayInsideWindow(next.store, key, config, times[1..], c + 1, resetAt);
      var ws := Replay(store, key, config, times);
      var rest := Replay(next.store, key, config, times[1..]);
      assert ws == [next.window] + rest;
      forall i | 1 <= i < |ws| ensures ws[i] == Window(c + i + 1, resetAt) {
        assert ws[i] == rest[i - 1];
        assert rest[i - 1] == Window(c + 1 + (i - 1) + 1, resetAt);
      }
    }
  }

  /**
   * A burst that starts a fresh window and stays within it: the i-th request (from 0) is
   * counted as i + 1, so exactly the first `max` pass and every later one is refused
   * while still being counted.
   */
  lemma FreshWindowCounts(store: Store, key: string, config: Config, times: seq<int>)
    requires |times| > 0
    requires key !in store || store[key].resetAt < times[0]
    requires forall i :: 0 <= i < |times| ==> times[i] <= times[0] + config.windowMs
    ensures var ws := Replay(store, key, config, times);
            forall i :: 0 <= i < |times| ==> ws[i] == Window(i + 1, times[0] + config.windowMs)
  {
    var first := CountRequest(store, key, config, times[0]);
    var ws := Replay(store, key, config, times);
    var rest := Replay(first.store, key, config, times[1..]);
    assert ws == [first.window] + rest;
    ReplayInsideWindow(first.store, key, config, times[1..], 1, times[0] + config.windowMs);
    forall i | 1 <= i < |times| ensures ws[i] == Window(i + 1, times[0] + config.windowMs) {
      assert ws[i] == rest[i - 1];
    }
  }

  lemma FreshWindowAdmitsExactlyMax(store: Store, key: string, config: Config, times: seq<int>)
    requires |times| > 0
    requires key !in store || store[key].resetAt < times[0]
    requires forall i :: 0 <= i < |times| ==> times[i] <= times[0] + config.windowMs
    ensures var ws := Replay(store, key, config, times);
            forall i :: 0 <= i < |times| ==>
              && ws[i].count == i + 1
              && (Decide(config, ws[i].count, ws[i].resetAt, times[i]).verdict.Proceed? <==> i < config.max)
  {
    FreshWindowCounts(store, key, config, times);
  }

  /** The request that finds its window finished starts over at one and passes when `max >= 1`. */
  lemma WindowResetsAfterItsEnd(store: Store, key: string, config: Config, now: int)
    requires key in store && store[key].resetAt < now
    requires config.max >= 1
    ensures var r := InMemoryRateLimit(store, key, config, now);
            r.0[key].count == 1 && r.1.verdict.Proceed?
  {
  }

  // ---------------------------------------------------------------------------------------
  // The sweep.

  /** `swept` is `store` without the windows that ended strictly before `now`. */
  ghost predicate SweptOf(swept: Store, store: Store, now: int) {
    && (forall k :: k in swept <==> k in store && store[k].resetAt >= now)
    && (forall k :: k in swept ==> swept[k] == store[k])
  }

  /** The body of the periodic cleanup: delete every window whose end is before `now`. */
  method Sweep(store: Store, now: int) returns (swept: Store)
    ensures forall k :: k in swept <==> k in store && store[k].resetAt >= now
    ensures forall k :: k in swept ==> swept[k] == store[k]
  {
    swept := store;
    var pending := store.Keys;
    while pending != {}
      invariant pending <= store.Keys
      invariant forall k :: k in swept ==> k in store && swept[k] == store[k]
      invariant forall k :: k in pending ==> k in swept
      invariant forall k :: k in store && k !in pending ==> (k in swept <==> store[k].resetAt >= now)
      decreases pending
    {
      var k :| k in pending;
      if store[k].resetAt < now {
        swept := swept - {k};
      }
      pending := pending - {k};
    }
  }

  /**
   * The sweep is invisible to later requests: every window it deletes would have been
   * replaced anyway by the next request for that key.
   */
  lemma SweepIsUnobservable(store: Store, swept: Store, now: int, key: string, config: Config, later: int)
    requires SweptOf(swept, store, now)
    requires later >= now
    ensures CountRequest(swept, key, config, later).window == CountRequest(store, key, config, later).window
  {
  }

  // ---------------------------------------------------------------------------------------
  // The Redis path.

  /**
   * What the Redis client did for one request: no client configured; the MULTI threw;
   * or it answered the INCR and PTTL replies (absent when missing) and, if `pexpire` was
   * needed, whether it succeeded.
   */
  datatype Redis = NoRedis | RedisThrew | RedisAnswered(incr: Option<int>, pttl: Option<int>, pexpireOk: bool)

  /** `value || fallback` on a numeric reply: missing and zero both take the fallback. */
  function NumberOr(reply: Option<int>, fallback: int): int {
    if reply.Some? && reply.value != 0 then reply.value else fallback
  }

  /**
   * Whether Redis decides the request: it answered, and either reported a time to live or
   * accepted the `pexpire` that arms a fresh key. Otherwise the local store decides.
   */
  predicate RedisDecides(redis: Redis) {
    redis.RedisAnswered? && (NumberOr(redis.pttl, -1) != -1 || redis.pexpireOk)
  }

  /** `checkRateLimit`: the Redis counter when it answers, the local store otherwise. */
  function CheckRateLimit(redis: Redis, store: Store, identifier: string, config: Config, now: int): (r: (Store, Decision))
    ensures r.1.headers.limit == config.max && r.1.headers.remaining >= 0
    ensures RedisDecides(redis) ==> r.0 == store
    ensures RedisDecides(redis) ==> (r.1.verdict.Proceed? <==> NumberOr(redis.incr, 1) <= config.max)
    ensures RedisDecides(redis) ==>
              var ttl := NumberOr(redis.pttl, -1);
              r.1 == Decide(config, NumberOr(redis.incr, 1), if ttl == -1 then now + config.windowMs else now + ttl, now)
    ensures !RedisDecides(redis) ==> r == InMemoryRateLimit(store, CounterKey(identifier), config, now)
  {
    var key := CounterKey(identifier);
    match redis
    case NoRedis => InMemoryRateLimit(store, key, config, now)
    case RedisThrew => InMemoryRateLimit(store, key, config, now)
    case RedisAnswered(incr, pttl, pexpireOk) =>
      var current := NumberOr(incr, 1);
      var ttl := NumberOr(pttl, -1);
      if ttl == -1 then
        if pexpireOk then (store, Decide(config, current, now + config.windowMs, now))
        else InMemoryRateLimit(store, key, config, now)
      else (store, Decide(config, current, now + ttl, now))
  }

  /** The middleware: choose identity and limits, then check. `Proceed` means `next()` runs. */
  function RateLimiter(apiKey: Option<ApiKeyContext>, forwardedFor: Option<string>, realIp: Option<string>,
                       redis: Redis, store: Store, now: int): (r: (Store, Decision))
    ensures var id := Identify(apiKey, forwardedFor, realIp);
            r == CheckRateLimit(redis, store, id.identifier, id.config, now)
    ensures r.1.headers.limit == Identify(apiKey, forwardedFor, realIp).config.max
    ensures r.1.headers.remaining >= 0
  {
    var id := Identify(apiKey, forwardedFor, realIp);
    CheckRateLimit(redis, store, id.identifier, id.config, now)
  }

  /** Anonymous callers from one address get ten requests a minute; the eleventh is refused. */
  lemma AnonymousEleventhRequestRefused(store: Store, forwardedFor: Option<string>, realIp: Option<string>, times: seq<int>)
    requires |times| == 11
    requires var key := CounterKey("ip:" + ClientAddress(forwardedFor, realIp));
             key !in store || store[key].resetAt < times[0]
    requires forall i :: 0 <= i < 11 ==> times[i] <= times[0] + WindowMs
    ensures var id := Identify(None, forwardedFor, realIp);
            var ws := Replay(store, CounterKey(id.identifier), id.config, times);
            && (forall i :: 0 <= i < 10 ==> Decide(id.config, ws[i].count, ws[i].resetAt, times[i]).verdict.Proceed?)
            && Decide(id.config, ws[10].count, ws[10].resetAt, times[10]).verdict.TooManyRequests?
  {
    var id := Identify(None, forwardedFor, realIp);
    FreshWindowAdmitsExactlyMax(store, CounterKey(id.identifier), id.config, times);
  }

  // ---------------------------------------------------------------------------------------
  // Redis itself, as an atomic counter with an expiry.

  /** A Redis integer key: its value and, once `pexpire` ran, the instant it disappears. */
  datatype Counter = Counter(value: int, expiresAt: Option<int>)

  /** A key is gone only once its expiry instant has passed; at that instant it is still there. */
  predicate Live(c: Counter, now: int) {
    c.expiresAt.None? || c.expiresAt.value >= now
  }

  /** `MULTI; INCR key; PTTL key; EXEC` on a healthy server: the new counters and the two replies. */
  function IncrThenPttl(counters: map<string, Counter>, key: string, now: int): (r: (map<string, Counter>, int, int))
    ensures r.2 == -1 || r.2 >= 0
    ensures key in r.0 && r.0[key].value == r.1
    ensures forall k :: k != key ==> (k in r.0 <==> k in counters) && (k in counters ==> r.0[k] == counters[k])
    ensures key in counters && Live(counters[key], now) ==>
              r.1 == counters[key].value + 1 && r.0[key].expiresAt == counters[key].expiresAt
    ensures key in counters && Live(counters[key], now) && counters[key].expiresAt.Some? ==>
              r.2 == counters[key].expiresAt.value - now
    ensures key !in counters || !Live(counters[key], now) ==> r.1 == 1 && r.2 == -1 && r.0[key].expiresAt.None?
  {
    var c := if key in counters && Live(counters[key], now) then counters[key] else Counter(0, None);
    var next := Counter(c.value + 1, c.expiresAt);
    var pttl := if c.expiresAt.None? then -1 else c.expiresAt.value - now;
    (counters[key := next], next.value, pttl)
  }

  /**
   * One request on the Redis path of a healthy server whose `pexpire` succeeds: the
   * counters after `INCR`, `PTTL` and, when the reply asks for it, `pexpire`, and the
   * decision `checkRateLimit` takes on those replies.
   */
  function RedisRequest(counters: map<string, Counter>, store: Store, identifier: string, config: Config, now: int)
    : (r: (map<string, Counter>, Decision))
  {
    var key := CounterKey(identifier);
    var (after, incr, pttl) := IncrThenPttl(counters, key, now);
    var armed := if NumberOr(Some(pttl), -1) == -1 then after[key := Counter(incr, Some(now + config.windowMs))] else after;
    (armed, CheckRateLimit(RedisAnswered(Some(incr), Some(pttl), true), store, identifier, config, now).1)
  }

  /** The Redis counter and the local window hold the same count and the same end. */
  predicate Mirrors(counters: map<string, Counter>, store: Store, key: string) {
    && key in counters && key in store
    && counters[key].value == store[key].count >= 0
    && counters[key].expiresAt == Some(store[key].resetAt)
  }

  /**
   * Except at the very instant a window ends, a healthy Redis and the path taken without
   * Redis agree request for request: same count, same headers, same verdict, and they
   * keep mirroring each other, both inside the window and once it has passed.
   */
  lemma RedisAgreesWithFallback(counters: map<string, Counter>, store: Store, identifier: string, config: Config, now: int)
    requires Mirrors(counters, store, CounterKey(identifier))
    requires now != store[CounterKey(identifier)].resetAt
    ensures var (c2, d1) := RedisRequest(counters, store, identifier, config, now);
            var (s2, d2) := CheckRateLimit(NoRedis, store, identifier, config, now);
            d1 == d2 && Mirrors(c2, s2, CounterKey(identifier))
  {
    var key := CounterKey(identifier);
    var (after, incr, pttl) := IncrThenPttl(counters, key, now);
    if now < store[key].resetAt {
      assert incr == store[key].count + 1 && pttl == store[key].resetAt - now;
    } else {
      assert incr == 1 && pttl == -1;
    }
  }

  /**
   * At the instant a window ends both paths count on, since neither considers the window
   * over yet; but Redis reports no time left, so `checkRateLimit` re-arms the key for a
   * whole window, while the local window keeps its end.
   */
  lemma WindowEndRearmsOnlyRedis(counters: map<string, Counter>, store: Store, identifier: string, config: Config, now: int)
    requires Mirrors(counters, store, CounterKey(identifier))
    requires now == store[CounterKey(identifier)].resetAt
    ensures var key := CounterKey(identifier);
            var n := store[key].count + 1;
            var (c2, d1) := RedisRequest(counters, store, identifier, config, now);
            var (s2, d2) := CheckRateLimit(NoRedis, store, identifier, config, now);
            && c2[key] == Counter(n, Some(now + config.windowMs)) && s2[key] == Window(n, now)
            && d1 == Decide(config, n, now + config.windowMs, now) && d2 == Decide(config, n, now, now)
            && (d1.verdict.Proceed? <==> d2.verdict.Proceed?)
  {
    var key := CounterKey(identifier);
    var (after, incr, pttl) := IncrThenPttl(counters, key, now);
    assert incr == store[key].count + 1 && pttl == 0;
  }
}

=== FILE: request_log.dfy ===
/**
 * The usage-log call the API handlers make after answering: when a key is on the
 * context, one `logUsage` with the key's owner and id, the endpoint, the URL, the status,
 * the latency, whether the answer was cached, and the client's user agent and address.
 */
module RequestLog {
  import opened Wrappers
  import opened Js
  import opened AppContext
  import opened Usage

  /** Request headers the usage log records: `user-agent`, `x-forwarded-for`, `x-real-ip`. */
  datatype Client = Client(userAgent: Option<string>, forwardedFor: Option<string>, realIp: Option<string>)

  /** The usage log's environment: the instant, its calendar date, and how many writes complete. */
  datatype LogEnv = LogEnv(now: int, date: string, accepted: nat)

  /** `x-forwarded-for || x-real-ip`: the forwarded address unless absent or empty. */
  function Address(client: Client): (r: Option<string>)
    ensures Truthy(client.forwardedFor) ==> r == client.forwardedFor
    ensures !Truthy(client.forwardedFor) ==> r == client.realIp
  {
    Or(client.forwardedFor, client.realIp)
  }

  /**
   * The handler's log call: nothing without a key; with one, the ledger gains the row
   * describing this request when the database accepts it, and never fails.
   */
  function Record(ledger: Ledger, apiKey: Option<ApiKeyContext>, endpoint: string, url: Option<string>,
                  status: int, latency: int, cached: bool, client: Client, log: LogEnv): (r: Ledger)
    ensures apiKey.None? || log.accepted == 0 ==> r == ledger
    ensures apiKey.Some? && log.accepted >= 1 ==>
              && r.rows == ledger.rows + [LogRow(LogInput(apiKey.value.userId, apiKey.value.id, endpoint, url, status,
                                                          latency, cached, client.userAgent, Address(client)),
                                                 log.now, log.date)]
              && r.lastUsedAt.Keys == ledger.lastUsedAt.Keys
  {
    match apiKey
    case None => ledger
    case Some(k) =>
      LogUsage(ledger, LogInput(k.userId, k.id, endpoint, url, status, latency, cached, client.userAgent, Address(client)),
               log.now, log.date, log.accepted)
  }
}

=== FILE: templates.dfy ===
/**
 * The Open Graph image templates: each builds an element tree (a root box, nested boxes,
 * an `h1` with the title and, when there is a description, a `p` with it) that the
 * renderer turns into an image; and the registry that names them.
 *
 * Style values are kept as text; numeric ones (`700`, `1.2`, `0`) as their decimal form.
 */
module Templates {
  import opened Wrappers
  import opened Js

  datatype Theme = Light | Dark

  /**
   * What a template is given. The logo and the font size are passed on but no template
   * reads them; only the minimal template reads the background and the text colour.
   */
  datatype Props = Props(
    title: string,
    description: Option<string>,
    theme: Option<Theme>,
    logo: Option<string>,
    background: Option<string>,
    textColor: Option<string>,
    fontSize: Option<real>)

  /** An element: its tag, its inline style, and no children, a text child, or child elements. */
  datatype Node = Node(tag: string, style: map<string, string>, children: Children)

  datatype Children = NoChildren | Text(text: string) | Nodes(nodes: seq<Node>)

  /** `theme = 'dark'` as a parameter default: an omitted theme is dark. */
  predicate IsDark(p: Props) {
    p.theme.GetOr(Dark) == Dark
  }

  /** `[heading, description && paragraph].filter(Boolean)`: the paragraph only for a non-empty description. */
  function Lines(heading: Node, p: Props, paragraphStyle: map<string, string>): (r: seq<Node>)
    ensures |r| == if Truthy(p.description) then 2 else 1
    ensures r[0] == heading
    ensures Truthy(p.description) ==> r[1] == Node("p", paragraphStyle, Text(p.description.value))
  {
    if Truthy(p.description) then [heading, Node("p", paragraphStyle, Text(p.description.value))] else [heading]
  }

  // ---------------------------------------------------------------------------------------
  // The five templates.

  const DarkGradient := "linear-gradient(135deg, #1a1a2e 0%, #16213e 50%, #0f3460 100%)"
  const LightGradient := "linear-gradient(135deg, #667eea 0%, #764ba2 100%)"
  const AccentGradient := "linear-gradient(135deg, #6366f1 0%, #8b5cf6 50%, #d946ef 100%)"

  /** Clean gradient background with centered text. */
  function DefaultTemplate(p: Props): (r: Node)
    ensures TextsOf(r, "h1") == [p.title] && TextsOf(r, "p") == Expected(p, "p")
  {
    var dark := IsDark(p);
    var heading := Node("h1", map["fontSize" := "64px", "fontWeight" := "700", "color" := "#ffffff",
                                  "lineHeight" := "1.2", "margin" := "0",
                                  "textShadow" := "0 2px 20px rgba(0,0,0,0.3)"], Text(p.title));
    var paragraph := map["fontSize" := "28px", "color" := "rgba(255,255,255,0.85)", "marginTop" := "24px",
                         "lineHeight" := "1.4"];
    var root := Node("div", map["height" := "100%", "width" := "100%", "display" := "flex", "flexDirection" := "column",
                                "alignItems" := "center", "justifyContent" := "center",
                                "background" := if dark then DarkGradient else LightGradient, "padding" := "60px"],
      Nodes([Node("div", map["display" := "flex", "flexDirection" := "column", "alignItems" := "center",
                             "textAlign" := "center", "maxWidth" := "90%"],
                  Nodes(Lines(heading, p, paragraph)))]));
    NestedTexts(root, p, "h1");
    NestedTexts(root, p, "p");
    root
  }

  /** Simple solid colour with bottom-aligned text; the background and text colour may be overridden. */
  function MinimalTemplate(p: Props): (r: Node)
    ensures TextsOf(r, "h1") == [p.title] && TextsOf(r, "p") == Expected(p, "p")
  {
    var dark := IsDark(p);
    var heading := Node("h1", map["fontSize" := "72px", "fontWeight" := "700",
                                  "color" := OrElse(p.textColor, if dark then "#ffffff" else "#000000"),
                                  "lineHeight" := "1.1", "margin" := "0"], Text(p.title));
    var paragraph := map["fontSize" := "32px",
                         "color" := OrElse(p.textColor, if dark then "rgba(255,255,255,0.7)" else "rgba(0,0,0,0.6)"),
                         "marginTop" := "16px"];
    var root := Node("div", map["height" := "100%", "width" := "100%", "display" := "flex", "flexDirection" := "column",
                                "justifyContent" := "flex-end",
                                "background" := OrElse(p.background, if dark then "#000000" else "#ffffff"),
                                "padding" := "60px"],
      Nodes(Lines(heading, p, paragraph)));
    FlatTexts(root, p, "h1");
    FlatTexts(root, p, "p");
    root
  }

  /** Centered card with shadow. */
  function CardTemplate(p: Props): (r: Node)
    ensures TextsOf(r, "h1") == [p.title] && TextsOf(r, "p") == Expected(p, "p")
  {
    var dark := IsDark(p);
    var heading := Node("h1", map["fontSize" := "56px", "fontWeight" := "700",
                                  "color" := if dark then "#ffffff" else "#1a1a1a",
                                  "lineHeight" := "1.2", "margin" := "0"], Text(p.title));
    var paragraph := map["fontSize" := "26px", "color" := if dark then "rgba(255,255,255,0.7)" else "rgba(0,0,0,0.6)",
                         "marginTop" := "20px", "lineHeight" := "1.4"];
    var root := Node("div", map["height" := "100%", "width" := "100%", "display" := "flex", "alignItems" := "center",
                                "justifyContent" := "center", "background" := if dark then "#0a0a0a" else "#f5f5f5",
                                "padding" := "40px"],
      Nodes([Node("div", map["display" := "flex", "flexDirection" := "column", "alignItems" := "center",
                             "justifyContent" := "center", "textAlign" := "center",
                             "background" := if dark then "#1a1a1a" else "#ffffff", "borderRadius" := "24px",
                             "padding" := "60px 80px",
                             "boxShadow" := if dark then "0 25px 50px -12px rgba(0,0,0,0.5)"
                                            else "0 25px 50px -12px rgba(0,0,0,0.15)",
                             "maxWidth" := "85%"],
                  Nodes(Lines(heading, p, paragraph)))]));
    NestedTexts(root, p, "h1");
    NestedTexts(root, p, "p");
    root
  }

  /** Left-aligned text beside a gradient accent bar. */
  function SplitTemplate(p: Props): (r: Node)
    ensures TextsOf(r, "h1") == [p.title] && TextsOf(r, "p") == Expected(p, "p")
  {
    var dark := IsDark(p);
    var heading := Node("h1", map["fontSize" := "64px", "fontWeight" := "700",
                                  "color" := if dark then "#ffffff" else "#1a1a1a",
                                  "lineHeight" := "1.15", "margin" := "0"], Text(p.title));
    var paragraph := map["fontSize" := "28px", "color" := if dark then "rgba(255,255,255,0.7)" else "rgba(0,0,0,0.6)",
                         "marginTop" := "24px", "lineHeight" := "1.4"];
    var root := Node("div", map["height" := "100%", "width" := "100%", "display" := "flex",
                                "background" := if dark then "#0f0f0f" else "#ffffff"],
      Nodes([Node("div", map["width" := "12px",
                             "background" := "linear-gradient(180deg, #6366f1 0%, #8b5cf6 50%, #d946ef 100%)"],
                  NoChildren),
             Node("div", map["flex" := "1", "display" := "flex", "flexDirection" := "column",
                             "justifyContent" := "center", "padding" := "60px 80px"],
                  Nodes(Lines(heading, p, paragraph)))]));
    BarTexts(root, p, "h1");
    BarTexts(root, p, "p");
    root
  }

  /** Text on a plain panel framed by a gradient border. */
  function BorderTemplate(p: Props): (r: Node)
    ensures TextsOf(r, "h1") == [p.title] && TextsOf(r, "p") == Expected(p, "p")
  {
    var dark := IsDark(p);
    var heading := Node("h1", map["fontSize" := "60px", "fontWeight" := "700",
                                  "color" := if dark then "#ffffff" else "#1a1a1a",
                                  "lineHeight" := "1.2", "margin" := "0"], Text(p.title));
    var paragraph := map["fontSize" := "26px", "color" := if dark then "rgba(255,255,255,0.7)" else "rgba(0,0,0,0.6)",
                         "marginTop" := "20px", "lineHeight" := "1.4"];
    var root := Node("div", map["height" := "100%", "width" := "100%", "display" := "flex", "alignItems" := "center",
                                "justifyContent" := "center", "background" := AccentGradient, "padding" := "8px"],
      Nodes([Node("div", map["width" := "100%", "height" := "100%", "display" := "flex",
                             "flexDirection" := "column", "alignItems" := "center", "justifyContent" := "center",
                             "textAlign" := "center", "background" := if dark then "#0a0a0a" else "#ffffff",
                             "padding" := "60px"],
                  Nodes(Lines(heading, p, paragraph)))]));
    NestedTexts(root, p, "h1");
    NestedTexts(root, p, "p");
    root
  }

  // ---------------------------------------------------------------------------------------
  // The registry.

  datatype TemplateId = DefaultId | MinimalId | CardId | SplitId | BorderId

  /** A registry entry: its key, display name and description. */
  datatype TemplateConfig = TemplateConfig(key: string, name: string, description: string, id: TemplateId)

  /** The registry, in declaration order. */
  const Registry: seq<TemplateConfig> := [
    TemplateConfig("default", "Default", "Clean gradient background with centered text", DefaultId),
    TemplateConfig("minimal", "Minimal", "Simple solid color with bottom-aligned text", MinimalId),
    TemplateConfig("card", "Card", "Centered card with shadow", CardId),
    TemplateConfig("split", "Split", "Left-aligned with gradient accent bar", SplitId),
    TemplateConfig("border", "Border", "Gradient border effect", BorderId)
  ]

  /** The template a registry entry names. */
  function Render(id: TemplateId, p: Props): (r: Node)
    ensures TextsOf(r, "h1") == [p.title] && TextsOf(r, "p") == Expected(p, "p")
  {
    match id
    case DefaultId => DefaultTemplate(p)
    case MinimalId => MinimalTemplate(p)
    case CardId => CardTemplate(p)
    case SplitId => SplitTemplate(p)
    case BorderId => BorderTemplate(p)
  }

  /** The template registered under `name` in `entries`: the first entry with that key. */
  function Find(entries: seq<TemplateConfig>, name: string): (r: Option<TemplateId>)
    ensures r.Some? <==> exists i :: 0 <= i < |entries| && entries[i].key == name
    ensures r.Some? ==> exists i :: 0 <= i < |entries| && entries[i].key == name && entries[i].id == r.value
                                    && forall j :: 0 <= j < i ==> entries[j].key != name
  {
    if entries == [] then None
    else if entries[0].key == name then Some(entries[0].id)
    else
      var r := Find(entries[1..], name);
      assert forall i :: 1 <= i < |entries| ==> entries[i] == entries[1..][i - 1];
      if r.Some? then
        var k :| 0 <= k < |entries[1..]| && entries[1..][k].key == name && entries[1..][k].id == r.value
                 && forall j :: 0 <= j < k ==> entries[1..][j].key != name;
        assert entries[k + 1].key == name;
        r
      else r
  }

  /**
   * `templates[name]?.fn || templates.default.fn`: the entry registered under exactly
   * that key, and the default template for every other name.
   */
  function GetTemplate(name: string): (id: TemplateId)
    ensures (exists i :: 0 <= i < |Registry| && Registry[i].key == name) || id == DefaultId
  {
    Find(Registry, name).GetOr(DefaultId)
  }

  /** Registry keys differ already in their first letter, and so do not repeat. */
  lemma RegistryKeysDistinct()
    ensures forall i :: 0 <= i < |Registry| ==> |Registry[i].key| > 0
    ensures forall i, j :: 0 <= i < j < |Registry| ==> Registry[i].key[0] != Registry[j].key[0]
    ensures forall i, j :: 0 <= i < j < |Registry| ==> Registry[i].key != Registry[j].key && Registry[i].id != Registry[j].id
  {
    assert Registry[0].key[0] == 'd' && Registry[1].key[0] == 'm' && Registry[2].key[0] == 'c';
    assert Registry[3].key[0] == 's' && Registry[4].key[0] == 'b';
  }

  /**
   * Each registered key gives its own template, and every other name the default one: an
   * unknown template name is never an error.
   */
  lemma RegistryIsFaithful(name: string)
    ensures forall i :: 0 <= i < |Registry| && Registry[i].key == name ==> GetTemplate(name) == Registry[i].id
    ensures (forall i :: 0 <= i < |Registry| ==> Registry[i].key != name) ==> GetTemplate(name) == DefaultId
  {
    RegistryKeysDistinct();
    var r := Find(Registry, name);
    if r.Some? {
      var k :| 0 <= k < |Registry| && Registry[k].key == name && Registry[k].id == r.value;
      assert forall i :: 0 <= i < |Registry| && Registry[i].key == name ==> i == k;
    }
  }

  // ---------------------------------------------------------------------------------------
  // What every template shows.

  /** The text children of every `tag` element of the tree, in document order. */
  function TextsOf(n: Node, tag: string): seq<string>
    decreases n, 1
  {
    (if n.tag == tag && n.children.Text? then [n.children.text] else [])
    + (if n.children.Nodes? then TextsAll(n.children.nodes, tag) else [])
  }

  function TextsAll(ns: seq<Node>, tag: string): seq<string>
    decreases ns, 0
  {
    if ns == [] then [] else TextsOf(ns[0], tag) + TextsAll(ns[1..], tag)
  }

  /** What a tag's texts should be: the title for the heading, the non-empty description for the paragraph. */
  function Expected(p: Props, tag: string): seq<string> {
    if tag == "h1" then [p.title]
    else if tag == "p" && Truthy(p.description) then [p.description.value]
    else []
  }

  /** The lines a template shows: a heading with the title, then a paragraph exactly for a non-empty description. */
  predicate ShowsLines(ls: seq<Node>, p: Props) {
    && |ls| == (if Truthy(p.description) then 2 else 1)
    && ls[0].tag == "h1" && ls[0].children == Text(p.title)
    && (|ls| == 2 ==> ls[1].tag == "p" && ls[1].children == Text(p.description.value))
  }

  lemma LinesTexts(ls: seq<Node>, p: Props, tag: string)
    requires ShowsLines(ls, p)
    requires tag == "h1" || tag == "p"
    ensures TextsAll(ls, tag) == Expected(p, tag)
  {
    assert TextsOf(ls[0], tag) == if tag == "h1" then [p.title] else [];
    if |ls| == 2 {
      assert TextsOf(ls[1], tag) == if tag == "p" then [p.description.value] else [];
      TwoKids(ls[0], ls[1], tag);
      assert ls == [ls[0], ls[1]];
    } else {
      OneKid(ls[0], tag);
      assert ls == [ls[0]];
    }
  }

  lemma OneKid(n: Node, tag: string)
    ensures TextsAll([n], tag) == TextsOf(n, tag)
  {
    assert [n][1..] == [];
  }

  lemma TwoKids(a: Node, b: Node, tag: string)
    ensures TextsAll([a, b], tag) == TextsOf(a, tag) + TextsOf(b, tag)
  {
    assert [a, b][1..] == [b];
    OneKid(b, tag);
  }

  /** A box's texts are its children's, for the heading and paragraph tags. */
  lemma BoxTexts(n: Node, tag: string)
    requires n.tag == "div" && n.children.Nodes?
    requires tag == "h1" || tag == "p"
    ensures TextsOf(n, tag) == TextsAll(n.children.nodes, tag)
  {
  }

  /** A box holding one box that holds the lines shows exactly the expected texts. */
  lemma NestedTexts(root: Node, p: Props, tag: string)
    requires root.tag == "div" && root.children.Nodes? && |root.children.nodes| == 1
    requires root.children.nodes[0].tag == "div" && root.children.nodes[0].children.Nodes?
    requires ShowsLines(root.children.nodes[0].children.nodes, p)
    requires tag == "h1" || tag == "p"
    ensures TextsOf(root, tag) == Expected(p, tag)
  {
    var inner := root.children.nodes[0];
    BoxTexts(root, tag);
    assert root.children.nodes == [inner];
    OneKid(inner, tag);
    BoxTexts(inner, tag);
    LinesTexts(inner.children.nodes, p, tag);
  }

  /** A box holding the lines directly shows exactly the expected texts. */
  lemma FlatTexts(root: Node, p: Props, tag: string)
    requires root.tag == "div" && root.children.Nodes? && ShowsLines(root.children.nodes, p)
    requires tag == "h1" || tag == "p"
    ensures TextsOf(root, tag) == Expected(p, tag)
  {
    BoxTexts(root, tag);
    LinesTexts(root.children.nodes, p, tag);
  }

  /** A box holding a childless bar and then a box with the lines shows exactly the expected texts. */
  lemma BarTexts(root: Node, p: Props, tag: string)
    requires root.tag == "div" && root.children.Nodes? && |root.children.nodes| == 2
    requires root.children.nodes[0].children.NoChildren?
    requires root.children.nodes[1].tag == "div" && root.children.nodes[1].children.Nodes?
    requires ShowsLines(root.children.nodes[1].children.nodes, p)
    requires tag == "h1" || tag == "p"
    ensures TextsOf(root, tag) == Expected(p, tag)
  {
    var bar := root.children.nodes[0];
    var inner := root.children.nodes[1];
    BoxTexts(root, tag);
    assert root.children.nodes == [bar, inner];
    TwoKids(bar, inner, tag);
    assert TextsOf(bar, tag) == [];
    BoxTexts(inner, tag);
    LinesTexts(inner.children.nodes, p, tag);
  }

  /** Every template shows the title under `h1` and the non-empty description under `p`, and nothing else there. */
  lemma ShownTexts(id: TemplateId, p: Props, tag: string)
    requires tag == "h1" || tag == "p"
    ensures TextsOf(Render(id, p), tag) == Expected(p, tag)
  {
  }

  /**
   * In every template the only heading holds exactly the title, and there is a paragraph
   * exactly when the description is a non-empty string, holding exactly it.
   */
  lemma TitleAndDescriptionShown(id: TemplateId, p: Props)
    ensures TextsOf(Render(id, p), "h1") == [p.title]
    ensures TextsOf(Render(id, p), "p") == if Truthy(p.description) then [p.description.value] else []
  {
    ShownTexts(id, p, "h1");
    ShownTexts(id, p, "p");
  }

  /** Two props that agree on what a template reads. */
  predicate SameLook(id: TemplateId, p: Props, q: Props) {
    && IsDark(p) == IsDark(q) && p.title == q.title && p.description == q.description
    && (id == MinimalId ==> p.background == q.background && p.textColor == q.textColor)
  }

  /** A template reads only the theme, the texts and, for the minimal one, the two overrides. */
  lemma DependsOnLook(id: TemplateId, p: Props, q: Props)
    requires SameLook(id, p, q)
    ensures Render(id, p) == Render(id, q)
  {
    match id
    case DefaultId => DefaultLook(p, q);
    case MinimalId => MinimalLook(p, q);
    case CardId => CardLook(p, q);
    case SplitId => SplitLook(p, q);
    case BorderId => BorderLook(p, q);
  }

  lemma DefaultLook(p: Props, q: Props)
    requires SameLook(DefaultId, p, q)
    ensures DefaultTemplate(p) == DefaultTemplate(q)
  {
  }

  lemma MinimalLook(p: Props, q: Props)
    requires SameLook(MinimalId, p, q)
    ensures MinimalTemplate(p) == MinimalTemplate(q)
  {
  }

  lemma CardLook(p: Props, q: Props)
    requires SameLook(CardId, p, q)
    ensures CardTemplate(p) == CardTemplate(q)
  {
  }

  lemma SplitLook(p: Props, q: Props)
    requires SameLook(SplitId, p, q)
    ensures SplitTemplate(p) == SplitTemplate(q)
  {
  }

  lemma BorderLook(p: Props, q: Props)
    requires SameLook(BorderId, p, q)
    ensures BorderTemplate(p) == BorderTemplate(q)
  {
  }

  /** An omitted theme renders exactly as the dark theme, in every template. */
  lemma OmittedThemeIsDark(id: TemplateId, p: Props)
    ensures Render(id, p.(theme := None)) == Render(id, p.(theme := Some(Dark)))
  {
    DependsOnLook(id, p.(theme := None), p.(theme := Some(Dark)));
  }

  /** Only the minimal template reads the background and text colour overrides. */
  lemma OverridesOnlyReachMinimal(id: TemplateId, p: Props, background: Option<string>, textColor: Option<string>)
    requires id != MinimalId
    ensures Render(id, p.(background := background, textColor := textColor)) == Render(id, p)
  {
    DependsOnLook(id, p.(background := background, textColor := textColor), p);
  }

  /**
   * The minimal template's backdrop and heading colour are the overrides when given
   * non-empty, else black on white for the light theme and white on black for the dark.
   */
  lemma MinimalHonoursOverrides(p: Props)
    ensures var root := MinimalTemplate(p);
            && root.style["background"] == (if Truthy(p.background) then p.background.value
                                            else if IsDark(p) then "#000000" else "#ffffff")
            && root.children.nodes[0].style["color"] == (if Truthy(p.textColor) then p.textColor.value
                                                         else if IsDark(p) then "#ffffff" else "#000000")
  {
  }

  /** The default template's backdrop is the dark gradient exactly for the dark theme. */
  lemma DefaultBackdrop(p: Props)
    ensures (DefaultTemplate(p).style["background"] == DarkGradient) <==> IsDark(p)
    ensures !IsDark(p) ==> DefaultTemplate(p).style["background"] == LightGradient
  {
  }
}

=== FILE: url_hash.dfy ===
/**
 * The cache-key hash of a URL: the UTF-8 bytes of the URL folded with
 * `h := ToInt32(31 * h + b)` from zero, then the magnitude written in base 36.
 *
 * The fold is the classic `hash * 31 + byte` string hash; it is not injective, so two URLs
 * can share a cache slot (see `KnownCollision`).
 */
module UrlHash {
  import opened Js

  type Byte = b: int | 0 <= b < 256

  const Two31 := 0x8000_0000
  const Two32 := 0x1_0000_0000

  // ---------------------------------------------------------------------------------------
  // UTF-8, as `TextEncoder.encode` produces it for a string of Unicode scalar values.

  /** The UTF-8 encoding of one scalar value. */
  function EncodeChar(c: char): (r: seq<Byte>)
    ensures 1 <= |r| <= 4
    ensures |r| == 1 <==> c as int < 0x80
  {
    var n := c as int;
    if n < 0x80 then [n]
    else if n < 0x800 then [0xC0 + n / 0x40, 0x80 + n % 0x40]
    else if n < 0x1_0000 then [0xE0 + n / 0x1000, 0x80 + (n / 0x40) % 0x40, 0x80 + n % 0x40]
    else [0xF0 + n / 0x4_0000, 0x80 + (n / 0x1000) % 0x40, 0x80 + (n / 0x40) % 0x40, 0x80 + n % 0x40]
  }

  /** Reads one scalar value back from the bytes `EncodeChar` wrote (an independent decoder). */
  function DecodeChar(bs: seq<Byte>): int
    requires 1 <= |bs| <= 4
  {
    if |bs| == 1 then bs[0] as int
    else if |bs| == 2 then (bs[0] as int - 0xC0) * 0x40 + (bs[1] as int - 0x80)
    else if |bs| == 3 then ((bs[0] as int - 0xE0) * 0x40 + (bs[1] as int - 0x80)) * 0x40 + (bs[2] as int - 0x80)
    else (((bs[0] as int - 0xF0) * 0x40 + (bs[1] as int - 0x80)) * 0x40 + (bs[2] as int - 0x80)) * 0x40 + (bs[3] as int - 0x80)
  }

  /** The lead byte announces the length of the encoding and the rest are continuation bytes. */
  predicate WellFormed(bs: seq<Byte>) {
    && 1 <= |bs| <= 4
    && (|bs| == 1 <==> bs[0] < 0x80)
    && (|bs| == 2 <==> 0xC0 <= bs[0] < 0xE0)
    && (|bs| == 3 <==> 0xE0 <= bs[0] < 0xF0)
    && (|bs| == 4 <==> 0xF0 <= bs[0] < 0xF8)
    && forall k :: 1 <= k < |bs| ==> 0x80 <= bs[k] < 0xC0
  }

  /** Every scalar value's encoding is well formed and decodes back to it. */
  lemma EncodeCharRoundTrip(c: char)
    ensures WellFormed(EncodeChar(c))
    ensures DecodeChar(EncodeChar(c)) == c as int
  {
    var n := c as int;
    assert n < 0x11_0000;
    assert n == (n / 0x40) * 0x40 + n % 0x40;
    assert n / 0x40 == (n / 0x1000) * 0x40 + (n / 0x40) % 0x40;
    assert n / 0x1000 == (n / 0x4_0000) * 0x40 + (n / 0x1000) % 0x40;
  }

  /** `new TextEncoder().encode(s)`. */
  function Utf8(s: string): (r: seq<Byte>)
    ensures |s| <= |r| <= 4 * |s|
  {
    if s == [] then [] else Utf8(s[..|s| - 1]) + EncodeChar(s[|s| - 1])
  }

  /** An ASCII string encodes to its own character codes, one byte each. */
  lemma {:induction false} Utf8Ascii(s: string)
    requires forall k :: 0 <= k < |s| ==> s[k] as int < 0x80
    ensures |Utf8(s)| == |s|
    ensures forall k :: 0 <= k < |s| ==> Utf8(s)[k] == s[k] as int
  {
    if s != [] {
      Utf8Ascii(s[..|s| - 1]);
    }
  }

  // ---------------------------------------------------------------------------------------
  // The 32-bit fold.

  /** ECMAScript ToInt32 on an integer: the value congruent to `x` modulo 2^32 in [-2^31, 2^31). */
  function ToInt32(x: int): (r: int)
    ensures -Two31 <= r < Two31
    ensures (x - r) % Two32 == 0
  {
    (x + Two31) % Two32 - Two31
  }

  /** ToInt32 only sees its argument modulo 2^32. */
  lemma ToInt32Periodic(x: int, k: int)
    ensures ToInt32(x + k * Two32) == ToInt32(x)
  {
    assert (x + k * Two32 + Two31) % Two32 == (x + Two31) % Two32;
  }

  /** One step of the loop: `hash = ((hash << 5) - hash) + char; hash = hash & hash`. */
  function Step(h: int, b: Byte): int {
    ToInt32(31 * h + b)
  }

  /** The fold of `Step` over the bytes, from zero. */
  function Fold(bs: seq<Byte>): (h: int)
    ensures -Two31 <= h < Two31
  {
    if bs == [] then 0 else Step(Fold(bs[..|bs| - 1]), bs[|bs| - 1])
  }

  /** The same hash as an unbounded polynomial: the sum of `b[i] * 31^(n-1-i)`. */
  function Poly(bs: seq<Byte>): int {
    if bs == [] then 0 else 31 * Poly(bs[..|bs| - 1]) + bs[|bs| - 1]
  }

  /** Wrapping at every step is the same as wrapping the polynomial once at the end. */
  lemma {:induction false} FoldIsWrappedPoly(bs: seq<Byte>)
    ensures Fold(bs) == ToInt32(Poly(bs))
  {
    if bs != [] {
      var init := bs[..|bs| - 1];
      var b := bs[|bs| - 1];
      FoldIsWrappedPoly(init);
      var p := Poly(init);
      var k := (p - ToInt32(p)) / Two32;
      assert ToInt32(p) == p - k * Two32;
      assert 31 * ToInt32(p) + b == (31 * p + b) + (-31 * k) * Two32;
      ToInt32Periodic(31 * p + b, -31 * k);
    }
  }

  /** The loop of the source, step by step. */
  method HashBytes(data: seq<Byte>) returns (hash: int)
    ensures hash == ToInt32(Poly(data))
    ensures -Two31 <= hash < Two31
  {
    hash := 0;
    var i := 0;
    while i < |data|
      invariant 0 <= i <= |data|
      invariant hash == Fold(data[..i])
    {
      assert data[..i + 1][..i] == data[..i];
      hash := Step(hash, data[i]);
      i := i + 1;
    }
    assert data[..i] == data;
    FoldIsWrappedPoly(data);
  }

  /** `Math.abs`. */
  function Abs(x: int): nat {
    if x < 0 then -x else x
  }

  /** `hashUrl(url)`: the base-36 rendering of the magnitude of the folded UTF-8 bytes. */
  function HashUrl(url: string): (r: string)
    ensures 1 <= |r| <= 6
    ensures forall k :: 0 <= k < |r| ==> IsDigitOf(r[k], 36)
    ensures FromRadix(r, 36) == Abs(ToInt32(Poly(Utf8(url))))
    ensures r == ToRadix(Abs(ToInt32(Poly(Utf8(url)))), 36)
  {
    var h := Fold(Utf8(url));
    FoldIsWrappedPoly(Utf8(url));
    assert Pow(36, 6) == 2176782336;
    RadixLength(Abs(h), 36, 6);
    RadixRoundTrip(Abs(h), 36);
    ToRadix(Abs(h), 36)
  }

  /** The empty URL hashes to "0". */
  lemma EmptyHash()
    ensures HashUrl("") == "0"
  {
  }

  /** "Aa" folds to 31 * 65 + 97. */
  lemma FoldAa()
    ensures Fold(Utf8("Aa")) == 2112
  {
    assert "Aa"[..1] == "A" && "A"[..0] == "";
    var a: seq<Byte> := [65, 97];
    assert Utf8("Aa") == a;
    assert a[..1] == [65] && [65][..0] == [];
    assert Fold([65]) == 65;
  }

  /** "BB" folds to 31 * 66 + 66. */
  lemma FoldBB()
    ensures Fold(Utf8("BB")) == 2112
  {
    assert "BB"[..1] == "B" && "B"[..0] == "";
    var b: seq<Byte> := [66, 66];
    assert Utf8("BB") == b;
    assert b[..1] == [66] && [66][..0] == [];
    assert Fold([66]) == 66;
  }

  /** The keys "Aa" and "BB" fold to the same value (31*65 + 97 == 31*66 + 66), so they share a slot. */
  lemma KnownCollision()
    ensures "Aa" != "BB"
    ensures HashUrl("Aa") == HashUrl("BB")
  {
    FoldAa();
    FoldBB();
  }
}

=== FILE: usage.dfy ===
/**
 * The usage ledger: one row per logged request, the last-use instant of each key, and
 * the aggregations the usage service and the dashboard compute over it.
 *
 * Rows are kept in the order they were written, which is the order of their creation
 * instants; a query that orders by creation time ascending therefore sees them in
 * ledger order. Each row carries its calendar date (`toISOString().split('T')[0]`) as a
 * string, since calendar arithmetic is not part of this model.
 */
module Usage {
  import opened Wrappers
  import opened Js

  datatype LogInput = LogInput(
    userId: string,
    apiKeyId: string,
    endpoint: string,
    url: Option<string>,
    status: int,
    latencyMs: int,
    cached: bool,
    userAgent: Option<string>,
    ip: Option<string>)

  datatype LogRow = LogRow(input: LogInput, createdAt: int, date: string)

  /** The usage table and, for every existing key id, when it was last used. */
  datatype Ledger = Ledger(rows: seq<LogRow>, lastUsedAt: map<string, Option<int>>)

  /**
   * `logUsage(input)`: insert the row, then stamp the key's last use. `accepted` is how
   * many writes the database completes before failing (0, 1, or 2 and more); the update
   * also fails when the key no longer exists. Every failure is swallowed, so the call
   * never fails and whatever completed stays.
   */
  function LogUsage(ledger: Ledger, input: LogInput, now: int, date: string, accepted: nat): (r: Ledger)
    ensures r.rows == if accepted >= 1 then ledger.rows + [LogRow(input, now, date)] else ledger.rows
    ensures r.lastUsedAt.Keys == ledger.lastUsedAt.Keys
    ensures r.lastUsedAt != ledger.lastUsedAt ==> |r.rows| == |ledger.rows| + 1
    ensures forall id :: id in r.lastUsedAt && id != input.apiKeyId ==> r.lastUsedAt[id] == ledger.lastUsedAt[id]
    ensures accepted >= 2 && input.apiKeyId in ledger.lastUsedAt ==> r.lastUsedAt[input.apiKeyId] == Some(now)
    ensures accepted < 2 || input.apiKeyId !in ledger.lastUsedAt ==> r.lastUsedAt == ledger.lastUsedAt
  {
    if accepted == 0 then ledger
    else
      var rows := ledger.rows + [LogRow(input, now, date)];
      if accepted >= 2 && input.apiKeyId in ledger.lastUsedAt then
        Ledger(rows, ledger.lastUsedAt[input.apiKeyId := Some(now)])
      else Ledger(rows, ledger.lastUsedAt)
  }

  // ---------------------------------------------------------------------------------------
  // Counting.

  /**
   * Every filtered query sees a logged request exactly when its row was written and passes
   * the filter, after all the rows it saw before.
   */
  lemma LoggedRowIsSelected(ledger: Ledger, input: LogInput, now: int, date: string, accepted: nat,
                            keep: LogRow -> bool)
    ensures var row := LogRow(input, now, date);
            Select(LogUsage(ledger, input, now, date, accepted).rows, keep)
            == Select(ledger.rows, keep) + (if accepted >= 1 && keep(row) then [row] else [])
  {
    var rows := LogUsage(ledger, input, now, date, accepted).rows;
    if accepted >= 1 {
      assert rows[..|rows| - 1] == ledger.rows;
    }
  }

  /** The rows satisfying `keep`, in ledger order. */
  function Select(rows: seq<LogRow>, keep: LogRow -> bool): (r: seq<LogRow>)
    ensures |r| <= |rows|
    ensures forall i :: 0 <= i < |r| ==> keep(r[i])
    ensures forall x :: x in r <==> x in rows && keep(x)
    ensures forall x :: multiset(r)[x] == if keep(x) then multiset(rows)[x] else 0
  {
    if rows == [] then []
    else
      var init := Select(rows[..|rows| - 1], keep);
      var last := rows[|rows| - 1];
      assert rows == rows[..|rows| - 1] + [last];
      if keep(last) then init + [last] else init
  }

  /** Filtering keeps order: it distributes over concatenation, so `r` is `rows` with the rejected rows struck out. */
  lemma {:induction false} SelectAppend(a: seq<LogRow>, b: seq<LogRow>, keep: LogRow -> bool)
    ensures Select(a + b, keep) == Select(a, keep) + Select(b, keep)
    decreases |b|
  {
    if b == [] {
      assert a + b == a;
    } else {
      var init, x := b[..|b| - 1], b[|b| - 1];
      SplitLast(a, b);
      SelectSnoc(a + init, x, keep);
      SelectSnoc(init, x, keep);
      SelectAppend(a, init, keep);
      AppendAssociates(Select(a, keep), Select(init, keep), if keep(x) then [x] else []);
    }
  }

  /** Concatenation regroups freely. */
  lemma AppendAssociates(p: seq<LogRow>, q: seq<LogRow>, r: seq<LogRow>)
    ensures (p + q) + r == p + (q + r)
  {
  }

  /** A non-empty `b` is its front followed by its last row, also after `a`. */
  lemma SplitLast(a: seq<LogRow>, b: seq<LogRow>)
    requires b != []
    ensures b == b[..|b| - 1] + [b[|b| - 1]]
    ensures a + b == (a + b[..|b| - 1]) + [b[|b| - 1]]
  {
  }

  /** Filtering rows with one more row at the end adds that row when it passes. */
  lemma SelectSnoc(rows: seq<LogRow>, x: LogRow, keep: LogRow -> bool)
    ensures Select(rows + [x], keep) == Select(rows, keep) + (if keep(x) then [x] else [])
  {
    assert (rows + [x])[..|rows|] == rows;
  }

  /** How many rows satisfy `keep`, counted one by one. */
  function Tally(rows: seq<LogRow>, keep: LogRow -> bool): nat {
    if rows == [] then 0
    else Tally(rows[..|rows| - 1], keep) + (if keep(rows[|rows| - 1]) then 1 else 0)
  }

  /** The size of a filtered query is the number of rows that satisfy the filter. */
  lemma {:induction false} SelectSize(rows: seq<LogRow>, keep: LogRow -> bool)
    ensures |Select(rows, keep)| == Tally(rows, keep)
  {
    if rows != [] {
      SelectSize(rows[..|rows| - 1], keep);
    }
  }

  /** A stricter filter never counts more rows. */
  lemma {:induction false} TallyMonotone(rows: seq<LogRow>, strict: LogRow -> bool, loose: LogRow -> bool)
    requires forall x :: strict(x) ==> loose(x)
    ensures Tally(rows, strict) <= Tally(rows, loose)
  {
    if rows != [] {
      TallyMonotone(rows[..|rows| - 1], strict, loose);
    }
  }

  /** How many rows fall on `date`. */
  function CountOn(logs: seq<LogRow>, date: string): nat {
    if logs == [] then 0
    else CountOn(logs[..|logs| - 1], date) + (if logs[|logs| - 1].date == date then 1 else 0)
  }

  /** How many rows of `endpoint` fall on `date`. */
  function CountEndpointOn(logs: seq<LogRow>, date: string, endpoint: string): nat {
    if logs == [] then 0
    else
      var last := logs[|logs| - 1];
      CountEndpointOn(logs[..|logs| - 1], date, endpoint) + (if last.date == date && last.input.endpoint == endpoint then 1 else 0)
  }

  /** Rows of two different endpoints on one day never outnumber the rows of that day. */
  lemma {:induction false} TwoEndpointsWithinDay(logs: seq<LogRow>, date: string, e1: string, e2: string)
    requires e1 != e2
    ensures CountEndpointOn(logs, date, e1) + CountEndpointOn(logs, date, e2) <= CountOn(logs, date)
  {
    if logs != [] {
      TwoEndpointsWithinDay(logs[..|logs| - 1], date, e1, e2);
    }
  }

  // ---------------------------------------------------------------------------------------
  // Grouping by day.

  datatype DayCounts = DayCounts(extract: nat, generate: nat, all: nat)

  /** Dates in order of first appearance (the insertion order of the record) and their counts. */
  datatype Buckets = Buckets(dates: seq<string>, counts: map<string, DayCounts>)

  /** The `forEach` fold: each row opens its date's bucket if needed and is counted there. */
  function Bucket(logs: seq<LogRow>): Buckets {
    if logs == [] then Buckets([], map[])
    else Count(Bucket(logs[..|logs| - 1]), logs[|logs| - 1])
  }

  /** One step of the fold: count `log` in its date's bucket, opening it when it is new. */
  function Count(b: Buckets, log: LogRow): Buckets {
    var c := if log.date in b.counts then b.counts[log.date] else DayCounts(0, 0, 0);
    var bumped := DayCounts(
      c.extract + (if log.input.endpoint == "extract" then 1 else 0),
      c.generate + (if log.input.endpoint == "generate" then 1 else 0),
      c.all + 1);
    Buckets(if log.date in b.counts then b.dates else b.dates + [log.date], b.counts[log.date := bumped])
  }

  /** No date is listed twice. */
  ghost predicate Distinct(dates: seq<string>) {
    forall i, j :: 0 <= i < j < |dates| ==> dates[i] != dates[j]
  }

  /** Rows of one endpoint on a day never outnumber the rows of that day. */
  lemma {:induction false} EndpointWithinDay(logs: seq<LogRow>, date: string, e: string)
    ensures CountEndpointOn(logs, date, e) <= CountOn(logs, date)
  {
    if logs != [] {
      EndpointWithinDay(logs[..|logs| - 1], date, e);
    }
  }

  /** The bucket fold's invariant: the listed dates, the counted dates and the dates of rows agree. */
  ghost predicate BucketsAgree(logs: seq<LogRow>, b: Buckets) {
    && (forall d :: d in b.counts <==> d in b.dates)
    && (forall d :: d in b.counts <==> CountOn(logs, d) > 0)
    && Distinct(b.dates)
    && (forall d :: d in b.counts ==>
          b.counts[d] == DayCounts(CountEndpointOn(logs, d, "extract"), CountEndpointOn(logs, d, "generate"), CountOn(logs, d)))
  }

  /**
   * The buckets are exactly the dates of the rows, each listed once, and each holds the
   * number of rows of that date and of each endpoint on it.
   */
  lemma {:induction false} BucketIsCount(logs: seq<LogRow>)
    ensures BucketsAgree(logs, Bucket(logs))
  {
    if logs != [] {
      var init := logs[..|logs| - 1];
      var b := Bucket(init);
      var log := logs[|logs| - 1];
      BucketIsCount(init);
      var r := Bucket(logs);
      if log.date !in b.counts {
        EndpointWithinDay(init, log.date, "extract");
        EndpointWithinDay(init, log.date, "generate");
        assert r.dates == b.dates + [log.date];
        assert Distinct(r.dates) by {
          forall i, j | 0 <= i < j < |r.dates| ensures r.dates[i] != r.dates[j] {
            if j == |r.dates| - 1 {
              assert r.dates[i] in b.dates;
            } else {
              assert r.dates[i] == b.dates[i] && r.dates[j] == b.dates[j];
            }
          }
        }
      }
      assert forall d :: d in r.counts <==> d in r.dates;
    }
  }

  /** Sum of the per-day row counts over a list of dates. */
  function SumAll(dates: seq<string>, counts: map<string, DayCounts>): nat
    requires forall d :: d in dates ==> d in counts
  {
    if dates == [] then 0 else SumAll(dates[..|dates| - 1], counts) + counts[dates[|dates| - 1]].all
  }

  /** Counts of dates outside the list do not matter. */
  lemma {:induction false} SumAllIgnoresOthers(dates: seq<string>, c1: map<string, DayCounts>, c2: map<string, DayCounts>)
    requires forall d :: d in dates ==> d in c1 && d in c2 && c1[d].all == c2[d].all
    ensures SumAll(dates, c1) == SumAll(dates, c2)
  {
    if dates != [] {
      SumAllIgnoresOthers(dates[..|dates| - 1], c1, c2);
    }
  }

  /** Adding one to the count of a date listed exactly once adds one to the sum. */
  lemma {:induction false} SumAllBump(dates: seq<string>, counts: map<string, DayCounts>, d: string, c: DayCounts)
    requires forall x :: x in dates ==> x in counts
    requires Distinct(dates) && d in dates && c.all == counts[d].all + 1
    ensures forall x :: x in dates ==> x in counts[d := c]
    ensures SumAll(dates, counts[d := c]) == SumAll(dates, counts) + 1
  {
    var init := dates[..|dates| - 1];
    var last := dates[|dates| - 1];
    if last == d {
      SumAllIgnoresOthers(init, counts, counts[d := c]);
    } else {
      assert d in init;
      SumAllBump(init, counts, d, c);
    }
  }

  /** Counting one row adds one to the sum over the listed dates. */
  lemma CountAddsOne(b: Buckets, log: LogRow)
    requires forall d :: d in b.counts <==> d in b.dates
    requires Distinct(b.dates)
    ensures forall d :: d in Count(b, log).dates ==> d in Count(b, log).counts
    ensures SumAll(Count(b, log).dates, Count(b, log).counts) == SumAll(b.dates, b.counts) + 1
  {
    var r := Count(b, log);
    var bumped := r.counts[log.date];
    if log.date in b.counts {
      SumAllBump(b.dates, b.counts, log.date, bumped);
    } else {
      assert r.dates[..|r.dates| - 1] == b.dates;
      SumAllIgnoresOthers(b.dates, b.counts, r.counts);
    }
  }

  /** Every row lands in exactly one bucket: the buckets' totals add up to the number of rows. */
  lemma {:induction false} BucketTotalsSumToRows(logs: seq<LogRow>)
    ensures forall d :: d in Bucket(logs).dates ==> d in Bucket(logs).counts
    ensures SumAll(Bucket(logs).dates, Bucket(logs).counts) == |logs|
  {
    if logs != [] {
      var init := logs[..|logs| - 1];
      BucketTotalsSumToRows(init);
      BucketIsCount(init);
      CountAddsOne(Bucket(init), logs[|logs| - 1]);
    }
  }

  // ---------------------------------------------------------------------------------------
  // `getDailyUsage`.

  /** One day of `getDailyUsage`. */
  datatype DailyUsage = DailyUsage(date: string, extract: nat, generate: nat, total: nat)

  /** The rows `getDailyUsage` reads: the user's, the key's if a non-empty key id is given, from `start` on. */
  function DailyFilter(rows: seq<LogRow>, userId: string, apiKeyId: Option<string>, start: int): (r: seq<LogRow>)
    ensures forall x :: x in r <==> x in rows && x.input.userId == userId && x.createdAt >= start
                                    && (Truthy(apiKeyId) ==> x.input.apiKeyId == apiKeyId.value)
  {
    Select(rows, (x: LogRow) => x.input.userId == userId && x.createdAt >= start
                                && (Truthy(apiKeyId) ==> x.input.apiKeyId == apiKeyId.value))
  }

  /** `getDailyUsage`: one entry per date with rows, in order of first appearance. */
  function GetDailyUsage(ledger: Ledger, userId: string, apiKeyId: Option<string>, start: int): (r: seq<DailyUsage>)
    ensures var logs := DailyFilter(ledger.rows, userId, apiKeyId, start);
            && (forall i :: 0 <= i < |r| ==>
                  && r[i].extract == CountEndpointOn(logs, r[i].date, "extract")
                  && r[i].generate == CountEndpointOn(logs, r[i].date, "generate")
                  && r[i].total == r[i].extract + r[i].generate)
            && (forall i, j :: 0 <= i < j < |r| ==> r[i].date != r[j].date)
            && (forall d :: CountOn(logs, d) > 0 <==> exists i :: 0 <= i < |r| && r[i].date == d)
  {
    var logs := DailyFilter(ledger.rows, userId, apiKeyId, start);
    DailyCounts(logs);
    Daily(logs)
  }

  /** The daily entries of the rows read. */
  function Daily(logs: seq<LogRow>): seq<DailyUsage> {
    var b := Bucket(logs);
    BucketIsCount(logs);
    seq(|b.dates|, i requires 0 <= i < |b.dates| =>
      var c := b.counts[b.dates[i]];
      DailyUsage(b.dates[i], c.extract, c.generate, c.extract + c.generate))
  }

  /**
   * Each day's total is its extract count plus its generate count: rows of any other
   * endpoint are not counted, and no date appears twice.
   */
  lemma DailyUsageCounts(ledger: Ledger, userId: string, apiKeyId: Option<string>, start: int)
    ensures var logs := DailyFilter(ledger.rows, userId, apiKeyId, start);
            var r := GetDailyUsage(ledger, userId, apiKeyId, start);
            && (forall i :: 0 <= i < |r| ==>
                  && r[i].extract == CountEndpointOn(logs, r[i].date, "extract")
                  && r[i].generate == CountEndpointOn(logs, r[i].date, "generate")
                  && r[i].total == r[i].extract + r[i].generate
                  && r[i].total <= CountOn(logs, r[i].date))
            && (forall i, j :: 0 <= i < j < |r| ==> r[i].date != r[j].date)
            && (forall d :: CountOn(logs, d) > 0 <==> exists i :: 0 <= i < |r| && r[i].date == d)
  {
    DailyCounts(DailyFilter(ledger.rows, userId, apiKeyId, start));
  }

  lemma DailyCounts(logs: seq<LogRow>)
    ensures var r := Daily(logs);
            && (forall i :: 0 <= i < |r| ==>
                  && r[i].extract == CountEndpointOn(logs, r[i].date, "extract")
                  && r[i].generate == CountEndpointOn(logs, r[i].date, "generate")
                  && r[i].total == r[i].extract + r[i].generate
                  && r[i].total <= CountOn(logs, r[i].date))
            && (forall i, j :: 0 <= i < j < |r| ==> r[i].date != r[j].date)
            && (forall d :: CountOn(logs, d) > 0 <==> exists i :: 0 <= i < |r| && r[i].date == d)
  {
    var b := Bucket(logs);
    var r := Daily(logs);
    BucketIsCount(logs);
    forall i | 0 <= i < |r| ensures r[i].total <= CountOn(logs, r[i].date) {
      TwoEndpointsWithinDay(logs, r[i].date, "extract", "generate");
    }
    forall d | CountOn(logs, d) > 0 ensures exists i :: 0 <= i < |r| && r[i].date == d {
      var i :| 0 <= i < |b.dates| && b.dates[i] == d;
      assert r[i].date == d;
    }
  }

  // ---------------------------------------------------------------------------------------
  // `getUsageStats`.

  /** The success rate: the string "0" when nothing was requested, else the ratio (rendered with two decimals). */
  datatype Rate = NoRequests | Ratio(num: nat, den: nat)

  /** One entry of `byEndpoint`: an endpoint, its request count and its mean latency rounded. */
  datatype EndpointStats = EndpointStats(endpoint: string, count: nat, avgLatencyMs: int)

  datatype UsageStats = UsageStats(total: nat, successful: nat, successRate: Rate, byEndpoint: seq<EndpointStats>)

  /** The user's rows created within `[start, end]`, both ends included. */
  function InPeriod(userId: string, start: int, end: int): LogRow -> bool {
    (x: LogRow) => x.input.userId == userId && start <= x.createdAt <= end
  }

  /** The rows of `InPeriod` whose status is below 400. */
  function SucceededInPeriod(userId: string, start: int, end: int): LogRow -> bool {
    (x: LogRow) => x.input.userId == userId && x.input.status < 400 && start <= x.createdAt <= end
  }

  function OnEndpoint(endpoint: string): LogRow -> bool {
    (x: LogRow) => x.input.endpoint == endpoint
  }

  /** The endpoints of the rows, each once, in order of first appearance. */
  function EndpointsOf(rows: seq<LogRow>): (r: seq<string>)
    ensures forall i :: 0 <= i < |rows| ==> rows[i].input.endpoint in r
    ensures forall k :: 0 <= k < |r| ==> exists i :: 0 <= i < |rows| && rows[i].input.endpoint == r[k]
    ensures forall j, k :: 0 <= j < k < |r| ==> r[j] != r[k]
  {
    if rows == [] then []
    else
      var init := EndpointsOf(rows[..|rows| - 1]);
      var e := rows[|rows| - 1].input.endpoint;
      if e in init then init else init + [e]
  }

  /** The total latency of the rows on `endpoint`. */
  function GroupLatency(rows: seq<LogRow>, endpoint: string): int {
    if rows == [] then 0
    else GroupLatency(rows[..|rows| - 1], endpoint)
         + (if rows[|rows| - 1].input.endpoint == endpoint then rows[|rows| - 1].input.latencyMs else 0)
  }

  /** One group: its size, and `Math.round(_avg.latencyMs || 0)`, which is 0 for an empty group. */
  function StatsOf(rows: seq<LogRow>, endpoint: string): (s: EndpointStats)
    ensures s.endpoint == endpoint && s.count == Tally(rows, OnEndpoint(endpoint))
    ensures s.count == 0 ==> s.avgLatencyMs == 0
    ensures s.count > 0 ==> var sum := GroupLatency(rows, endpoint);
                            2 * sum - s.count < 2 * s.avgLatencyMs * s.count <= 2 * sum + s.count
  {
    var count := Tally(rows, OnEndpoint(endpoint));
    EndpointStats(endpoint, count, if count == 0 then 0 else RoundedMean(GroupLatency(rows, endpoint), count))
  }

  function StatsFor(endpoints: seq<string>, rows: seq<LogRow>): (r: seq<EndpointStats>)
    ensures |r| == |endpoints|
    ensures forall k :: 0 <= k < |r| ==> r[k] == StatsOf(rows, endpoints[k])
  {
    seq(|endpoints|, k requires 0 <= k < |endpoints| => StatsOf(rows, endpoints[k]))
  }

  /**
   * `getUsageStats`: two independent counts over the user's rows in `[start, end]`, all of
   * them and those with status below 400; the guarded rate; and the per-endpoint groups.
   */
  function GetUsageStats(ledger: Ledger, userId: string, start: int, end: int): (r: UsageStats)
    ensures r.total == Tally(ledger.rows, InPeriod(userId, start, end))
    ensures r.successful == Tally(ledger.rows, SucceededInPeriod(userId, start, end))
    ensures r.successful <= r.total
    ensures r.successRate == NoRequests <==> r.total == 0
    ensures r.successRate.Ratio? ==> r.successRate == Ratio(r.successful, r.total) && 0 < r.total
    ensures r.byEndpoint == ByEndpoint(Select(ledger.rows, InPeriod(userId, start, end)))
  {
    var inPeriod := Select(ledger.rows, InPeriod(userId, start, end));
    var succeeded := Select(ledger.rows, SucceededInPeriod(userId, start, end));
    SelectSize(ledger.rows, InPeriod(userId, start, end));
    SelectSize(ledger.rows, SucceededInPeriod(userId, start, end));
    TallyMonotone(ledger.rows, SucceededInPeriod(userId, start, end), InPeriod(userId, start, end));
    UsageStats(|inPeriod|, |succeeded|, if |inPeriod| > 0 then Ratio(|succeeded|, |inPeriod|) else NoRequests,
               ByEndpoint(inPeriod))
  }

  /**
   * The `groupBy` on endpoint: one entry per endpoint of the rows, none twice, each with
   * its group's count and rounded mean latency.
   */
  function ByEndpoint(rows: seq<LogRow>): (r: seq<EndpointStats>)
    ensures CoversRows(r, rows)
    ensures forall k :: 0 <= k < |r| ==> r[k].count > 0
    ensures forall j, k :: 0 <= j < k < |r| ==> r[j].endpoint != r[k].endpoint
    ensures forall k :: 0 <= k < |r| ==> r[k] == StatsOf(rows, r[k].endpoint)
  {
    var endpoints := EndpointsOf(rows);
    StatsCoverRows(endpoints, rows);
    StatsNonEmpty(endpoints, rows);
    StatsFor(endpoints, rows)
  }

  /** Some entry of the stats is about `endpoint`. */
  predicate HasEntry(stats: seq<EndpointStats>, endpoint: string) {
    exists k :: 0 <= k < |stats| && stats[k].endpoint == endpoint
  }

  /** Every row's endpoint has an entry among the stats. */
  predicate CoversRows(stats: seq<EndpointStats>, rows: seq<LogRow>) {
    forall i :: 0 <= i < |rows| ==> HasEntry(stats, rows[i].input.endpoint)
  }

  lemma StatsCoverRows(endpoints: seq<string>, rows: seq<LogRow>)
    requires forall i :: 0 <= i < |rows| ==> rows[i].input.endpoint in endpoints
    ensures CoversRows(StatsFor(endpoints, rows), rows)
  {
    var r := StatsFor(endpoints, rows);
    forall i | 0 <= i < |rows| ensures HasEntry(r, rows[i].input.endpoint) {
      assert rows[i].input.endpoint in endpoints;
      var k :| 0 <= k < |endpoints| && endpoints[k] == rows[i].input.endpoint;
      assert r[k].endpoint == rows[i].input.endpoint;
    }
  }

  lemma StatsNonEmpty(endpoints: seq<string>, rows: seq<LogRow>)
    requires forall k :: 0 <= k < |endpoints| ==> exists i :: 0 <= i < |rows| && rows[i].input.endpoint == endpoints[k]
    ensures var r := StatsFor(endpoints, rows);
            forall k :: 0 <= k < |r| ==> r[k].count > 0
  {
    var r := StatsFor(endpoints, rows);
    forall k | 0 <= k < |r| ensures r[k].count > 0 {
      var i :| 0 <= i < |rows| && rows[i].input.endpoint == endpoints[k];
      TallyPositive(rows, OnEndpoint(endpoints[k]), i);
    }
  }

  /** A filter that some row satisfies counts at least one row. */
  lemma TallyPositive(rows: seq<LogRow>, keep: LogRow -> bool, i: nat)
    requires i < |rows| && keep(rows[i])
    ensures Tally(rows, keep) > 0
  {
    SelectSize(rows, keep);
    assert rows[i] in Select(rows, keep);
  }

  /** `Math.round(sum / count)` on exact values: halves round up. */
  function RoundedMean(sum: int, count: nat): (r: int)
    requires count > 0
    ensures 2 * sum - count < 2 * r * count <= 2 * sum + count
  {
    (2 * sum + count) / (2 * count)
  }

  // ---------------------------------------------------------------------------------------
  // The groups account for every row.

  /** How often `e` occurs in `es`. */
  function Occurrences(es: seq<string>, e: string): nat {
    if es == [] then 0 else (if es[0] == e then 1 else 0) + Occurrences(es[1..], e)
  }

  lemma {:induction false} OccursOnce(es: seq<string>, e: string)
    requires e in es && forall j, k :: 0 <= j < k < |es| ==> es[j] != es[k]
    ensures Occurrences(es, e) == 1
  {
    if es[0] == e {
      NotOccurring(es[1..], e);
    } else {
      OccursOnce(es[1..], e);
    }
  }

  lemma {:induction false} NotOccurring(es: seq<string>, e: string)
    requires e !in es
    ensures Occurrences(es, e) == 0
  {
    if es != [] {
      NotOccurring(es[1..], e);
    }
  }

  /** The sum of the groups' counts. */
  function CountTotal(stats: seq<EndpointStats>): nat {
    if stats == [] then 0 else stats[0].count + CountTotal(stats[1..])
  }

  lemma {:induction false} NoRowsNoCounts(es: seq<string>)
    ensures CountTotal(StatsFor(es, [])) == 0
  {
    if es != [] {
      assert StatsFor(es, [])[1..] == StatsFor(es[1..], []);
      NoRowsNoCounts(es[1..]);
    }
  }

  /** One more row adds one to the group of each occurrence of its endpoint. */
  lemma {:induction false} CountTotalSnoc(es: seq<string>, rows: seq<LogRow>, row: LogRow)
    ensures CountTotal(StatsFor(es, rows + [row])) == CountTotal(StatsFor(es, rows)) + Occurrences(es, row.input.endpoint)
  {
    if es != [] {
      assert (rows + [row])[..|rows + [row]| - 1] == rows;
      assert StatsFor(es, rows + [row])[1..] == StatsFor(es[1..], rows + [row]);
      assert StatsFor(es, rows)[1..] == StatsFor(es[1..], rows);
      CountTotalSnoc(es[1..], rows, row);
    }
  }

  /** Groups over distinct endpoints that cover every row's endpoint count every row once. */
  lemma {:induction false} GroupsCountEveryRow(es: seq<string>, rows: seq<LogRow>)
    requires forall j, k :: 0 <= j < k < |es| ==> es[j] != es[k]
    requires forall i :: 0 <= i < |rows| ==> rows[i].input.endpoint in es
    ensures CountTotal(StatsFor(es, rows)) == |rows|
    decreases |rows|
  {
    if rows == [] {
      NoRowsNoCounts(es);
    } else {
      var init, last := rows[..|rows| - 1], rows[|rows| - 1];
      assert init + [last] == rows;
      GroupsCountEveryRow(es, init);
      CountTotalSnoc(es, init, last);
      OccursOnce(es, last.input.endpoint);
    }
  }

  /** The per-endpoint counts add up to the total: every row in the period is in exactly one group. */
  lemma ByEndpointCountsSumToTotal(ledger: Ledger, userId: string, start: int, end: int)
    ensures var r := GetUsageStats(ledger, userId, start, end);
            CountTotal(r.byEndpoint) == r.total
  {
    var inPeriod := Select(ledger.rows, InPeriod(userId, start, end));
    GroupsCountEveryRow(EndpointsOf(inPeriod), inPeriod);
    assert ByEndpoint(inPeriod) == StatsFor(EndpointsOf(inPeriod), inPeriod);
  }
}

=== FILE: wrappers.dfy ===
/** Optional values and failure-carrying results shared by every module. */
module Wrappers {

  /** A value that may be absent: JavaScript's `undefined`/`null` become `None`. */
  datatype Option<+T> = None | Some(value: T) {

    /** The carried value, or `default` when absent (JavaScript's `??`). */
    function GetOr(default: T): T {
      match this
      case Some(v) => v
      case None => default
    }
  }

  /** The outcome of an operation that may throw: `Err` carries what was thrown. */
  datatype Result<+T, +E> = Ok(value: T) | Err(error: E)
}
